=== FILE: README.md ===
# TSP metaheuristics — a Dafny model

This project models the combinatorial core of a set of travelling-salesman
solvers (lab exercises in Java plus one Python script):

- the genetic algorithm with PMX and OX crossover, swap mutation, tournament
  selection and the island model with ring migration;
- tabu search in two flavours: a sampled neighbourhood with a hash set of
  move pairs, and a full neighbourhood with a FIFO list of tour arrays;
- simulated annealing over segment inversions;
- best-of-sample and first-improvement local search over position swaps;
- the MST heuristic: Prim's algorithm (key/parent arrays, a priority queue of
  edges, a Python heap), then a depth-first preorder of the tree closed into a
  cycle.

A tour is a `seq<int>` and `IsPermutation(t, n)` says that it visits each
city `0..n-1` exactly once. Distances are an abstract `d: (int, int) -> nat`.
Every random draw is an explicit parameter with the range the source draws
it from. A retry loop such as `while (b == a) b = random.nextInt(n)` takes a
sequence of redraws and requires that one of them differs. `Double.MAX_VALUE`
used as "no value yet" is `Cost.Infinite`, strictly above every finite cost.
`null` is `Option.None`.

Modules follow the program's structure:

- `Permutations` and `Tours`: tours and lengths;
- `Moves`: swap, segment inversion, the annealing neighbour;
- `Shuffle`, `Crossover`, `Genetic` and `Islands`: the genetic solver;
- `TabuSampled` and `TabuFull`: the two tabu searches;
- `Annealing`;
- `LocalSearch`;
- `Minimum`: the running-minimum scan shared by several loops;
- `Graphs`, `Prim`, `PrimQueue`, `Preorder` and `MstTours`: the MST heuristic.

## Model

| member | source | states |
|---|---|---|
| Permutations.Identity | lab2/taboov2.java:39-42 | The starting array `0, 1, ..., n-1` is a permutation of the n cities, with city i at position i. |
| Permutations.RearrangementPreservesPermutation | lab3/src/main/java/GeneticAlgorithmTSP.java:30-37 | Moving entries around without changing their multiset keeps a tour a permutation; every in-place swap loop relies on this. |
| Permutations.PermutationCovers | lab3/src/main/java/GeneticAlgorithmTSP.java:111-118 | A permutation of 0..n-1 contains every city, so the repair scan over parent 2 always finds a city still missing from the child. |
| Permutations.MissingCity | lab3/src/main/java/GeneticAlgorithmTSP.java:111-115 | A child of length n with an unfilled slot lacks some city of 0..n-1. |
| Tours.TotalDistance | lab2/taboov2.java:14-21 | The loop returns the closed-tour length: consecutive pairs plus the edge from the last city back to the first. |
| Tours.PathWeightAppend | lab0/src/main/java/TSPSolver.java:133-138 | Summing consecutive pairs over a walk extended by one city adds exactly the weight of the new last edge. |
| Tours.ClosedTourAsPath | lab0/src/main/resources/wiz.py:106-109 | Summing consecutive pairs over the tour with its first city appended gives the closed-tour length, so appending the start city closes the cycle without an extra closing edge. |
| Moves.Swap | lab1/zad1.java:154 | `Collections.swap` exchanges the two positions, keeps every other position, and rearranges the entries. |
| Moves.SwapPreservesPermutation | lab1/zad2.java:74 | A swap keeps a tour a permutation. |
| Moves.InvertSegment | lab2/taboov2.java:24-34 | The copy has positions start..end reversed and every other position unchanged, with the same multiset of entries. |
| Moves.InvertSegmentPreservesPermutation | lab2/taboov1.java:23-33 | Inverting a segment keeps a tour a permutation. |
| Moves.InvertSegmentInvolution | lab2/tabooParams.java:23-33 | Inverting the same segment twice gives back the original tour. |
| Moves.InvertEmptySegment | lab2/taboov2.java:27-33 | With `start >= end` the loop does nothing and the copy equals the input. |
| Moves.ApplyMove | lab2/taboov2.java:92-102 | The in-place swap loop turns the solution into exactly the inverted segment of the old solution. |
| Moves.FirstDifferent | lab2/SimulatedAnnealingTSP.java:27-29 | The retry loop stops at the first redraw that differs from the first index, and every earlier redraw equals it. |
| Moves.RetryNeedsTwoCities | lab3/src/main/java/GeneticAlgorithmTSP.java:166-168 | With fewer than two cities no redraw can differ from the first index, so the retry loop never exits. |
| Moves.GetNeighborInvert | lab2/SimulatedAnnealingTSP.java:24-42 | With lo and hi the smaller and larger of the two distinct drawn positions, position k in lo..hi holds the entry from position lo + hi - k, every other position is unchanged, and the entries are rearranged. |
| Moves.GetNeighborInvertPreservesPermutation | lab2/temp.java:24-42 | The annealing neighbour of a permutation is a permutation. |
| Shuffle.ShuffleArray | lab2/tabooParams.java:92-99 | Fisher–Yates with the index for position i drawn from [0, i] rearranges the array and keeps its multiset of entries. |
| Shuffle.RandomPermutation | lab1/zad2.java:93-100 | The identity list, shuffled, is a permutation of 0..size-1. |
| Crossover.Contains | lab3/src/main/java/GeneticAlgorithmTSP.java:124-131 | The linear scan returns true exactly when the value occurs in the array. |
| Crossover.CopySegment | lab3/src/main/java/GeneticAlgorithmTSP.java:92-97 | The fresh child holds parent 1 on start..end and -1 everywhere else. |
| Crossover.PmxFirstPassDistinct | lab3/src/main/java/GeneticAlgorithmTSP.java:94-108 | The cities placed by the segment copy and the first pass never collide. |
| Crossover.PmxRepair | lab3/src/main/java/GeneticAlgorithmTSP.java:111-120 | Filling every remaining -1 with the first parent-2 city missing from the child yields a permutation, leaves the first-pass positions as they were, and equals the repair stated position by position (`PmxRepairFrom`: a hole takes the first parent-2 city absent at that moment). |
| Crossover.PmxCrossover | lab3/src/main/java/GeneticAlgorithmTSP.java:84-123 | The child is a permutation; its segment equals parent 1's; outside the segment it holds `parent2[i]` whenever that city is not in the segment; and it equals `PmxChild`, the segment copy and the two fill passes followed by the repair. |
| Crossover.WithoutFacts | lab3/src/main/java/GeneticAlgorithmTSP.java:150-158 | The OX filler holds exactly the parent-2 cities outside the segment, in parent-2 order, each once. |
| Crossover.WithoutLength | lab3/src/main/java/GeneticAlgorithmTSP.java:150-158 | With permutation parents the filler has exactly n minus the segment length cities, the number of free positions. |
| Crossover.OxChildIsPermutation | lab3/src/main/java/GeneticAlgorithmTSP.java:133-160 | The OX child (filler left of the segment, the segment, the rest of the filler) is a permutation. |
| Crossover.OxPlace | lab3/src/main/java/GeneticAlgorithmTSP.java:153-157 | Skipping over the segment, the write index places the next filler city at the next free position, never inside start..end and never past n-1. |
| Crossover.OxContains | lab3/src/main/java/GeneticAlgorithmTSP.java:152 | During the fill, a parent-2 city not yet scanned is in the child exactly when it is in the segment, so `contains` decides membership in the segment. |
| Crossover.OxCrossover | lab3/src/main/java/GeneticAlgorithmTSP.java:133-160 | After ordering the cut points, the child is the OX child: the segment from parent 1, the other cities left to right in parent-2 order. It is a permutation. |
| Crossover.OxFill | lab3/src/main/java/GeneticAlgorithmTSP.java:150-158 | The fill loop turns the segment-only child into the OX child. |
| Crossover.MutateSwap | lab3/src/main/java/GeneticAlgorithmTSP.java:163-172 | The two entries at `index1` and the first redraw different from it are exchanged; every other position keeps its entry. |
| Crossover.MutateSwapPreservesPermutation | lab3/src/main/java/GeneticAlgorithmTSP.java:163-172 | Swap mutation keeps a tour a permutation. |
| Genetic.EarliestShortestStep | lab3/src/main/java/GeneticAlgorithmTSP.java:211-214 | Tracking the shortest child: a strictly shorter child takes over and any other keeps the earlier best, so the best is the earliest shortest. |
| Genetic.WinnerIsEarliestShortest | lab3/src/main/java/GeneticAlgorithmTSP.java:67-81 | The tournament winner over the first k draws is one of those draws, no longer than any of them, and every draw before its first occurrence is strictly longer. |
| Genetic.ShortestAt | lab3/src/main/java/GeneticAlgorithmTSP.java:210-214 | The position a strict `<` running minimum over a list of tours settles on is the earliest shortest one. |
| Genetic.EarliestShortestUnique | lab3/src/main/java/GeneticAlgorithmTSP.java:210-214 | At most one position is the earliest shortest, so the tracked best child is determined by the children. |
| Genetic.SelectParent | lab3/src/main/java/GeneticAlgorithmTSP.java:67-81 | The tournament returns a sampled index whose tour is no longer than any sampled tour; every sample drawn before its first occurrence is strictly longer, so the earliest sample wins ties. |
| Genetic.Breed | lab3/src/main/java/GeneticAlgorithmTSP.java:193-209 | The child is `Child`: the two tournament winners are crossed by PMX or OX with the drawn cut, then swap-mutated when a mutation was drawn; it is a permutation. |
| Genetic.GenerationsAreEvolve | lab3/src/main/java/GeneticAlgorithmTSP.java:190-217 | Populations each bred slot by slot from the one before, starting from the shuffled initial population, are exactly those `Evolve` computes from the draws. |
| Genetic.RunResultIs | lab3/src/main/java/GeneticAlgorithmTSP.java:187-219 | A null result when no child is bred, and otherwise the earliest shortest child over the bred generations, is exactly `RunResult` of the draws. |
| Genetic.GeneticAlgorithm | lab3/src/main/java/GeneticAlgorithmTSP.java:177-220 | The populations are the shuffled initial one and then each generation bred from the one before by `Child` on that slot's draws. The result is null exactly when there is no population or no generation; otherwise it is the earliest shortest of all children in the order they were bred, and it equals `RunResult` of the draws. |
| Islands.UpdateIsland | lab3/src/main/java/GeneticAlgorithmTSP.java:239-243 | An island's record is replaced only by a strictly shorter result, so its distance never increases and it is at most the result's length. |
| Islands.MinDist | lab3/src/main/java/GeneticAlgorithmTSP.java:262-269 | The least recorded distance bounds every island's distance, is attained by one island, and is `Double.MAX_VALUE` when there are none. |
| Islands.Successor | lab3/src/main/java/GeneticAlgorithmTSP.java:279 | Island i hands its record to island (i + 1) mod the number of islands. |
| Islands.ExchangeBestIndividuals | lab3/src/main/java/GeneticAlgorithmTSP.java:276-285 | Every island after the pass holds a copy of some original record and is no worse than before; island 0 and every island from the first least one on end at the least distance, which therefore is unchanged. |
| Islands.ExchangeNeverWorse | lab3/src/main/java/GeneticAlgorithmTSP.java:280-283 | No step of the exchange increases an island's distance. |
| Islands.ExchangeCopies | lab3/src/main/java/GeneticAlgorithmTSP.java:281-282 | Every record after the exchange is a copy of an original record. |
| Islands.LeastBelowCopies | lab3/src/main/java/GeneticAlgorithmTSP.java:276-285 | No island ends below the least original distance. |
| Islands.ExchangeSpreads | lab3/src/main/java/GeneticAlgorithmTSP.java:278-284 | Once the pass reaches a least island, every island it visits afterwards takes the least distance. |
| Islands.ExchangeCompletes | lab3/src/main/java/GeneticAlgorithmTSP.java:278-284 | The last step, which feeds island 0, passes the least distance on to it. |
| Islands.SelectGlobalBest | lab3/src/main/java/GeneticAlgorithmTSP.java:262-269 | The final scan returns null when every island is fresh; otherwise it returns the tour of the first island with the least distance. |
| Islands.TracksLeast | lab3/src/main/java/GeneticAlgorithmTSP.java:262-269 | The island with the least distance holds one of the tours the islands produced, and no produced tour is shorter. |
| Islands.RunIsland | lab3/src/main/java/GeneticAlgorithmTSP.java:234-245 | The task's slot becomes `UpdateIsland` of its old record and the tour the island's GA run returns (`RunResult` of its draws); every other slot is unchanged, and that tour is appended to the results when there is one. |
| Islands.RunEpoch | lab3/src/main/java/GeneticAlgorithmTSP.java:232-260 | The records after an epoch are every island's record updated with its own run's result, passed through the exchange when the epoch is not the last; the results grow by the epoch's tours in island order, one per island when the GA runs. |
| Islands.TasksDoneStep | lab3/src/main/java/GeneticAlgorithmTSP.java:234-245 | Running island i's task after the first i extends the finished tasks by one: its slot updated, later slots untouched, its tour appended. |
| Islands.RunIslandModel | lab3/src/main/java/GeneticAlgorithmTSP.java:224-274 | The results are exactly the tours the island runs return, epoch by epoch and island by island. The answer is null exactly when there are none (no individuals per island, no iterations or no epochs); otherwise it is one of them, a permutation, and none is shorter. |
| TabuSampled.NoCandidate | lab2/taboov2.java:56-68 | No position has a finite score exactly when every drawn pair is `i == j` or tabu, so such pairs are never evaluated. |
| TabuSampled.SampleMoves | lab2/taboov2.java:53-68 | The scan returns null exactly when no drawn pair is admissible; otherwise it returns the earliest admissible pair of least move length, paired with its drawn partner. |
| TabuSampled.RecordMove | lab2/taboov2.java:82-85 | Adding the move and evicting one arbitrary element when the set is too large keeps at most `tabuListSize` pairs, all drawn from the old set plus the move. |
| TabuSampled.TabuStep | lab2/taboov2.java:52-86 | Without an admissible move nothing changes. Otherwise the earliest sampled pair `(i, draws[i])` of least move length is applied, even if it makes the tour longer, and added to the tabu set, which may evict it again at once when the set is full. The best tour is replaced, and the counter reset, only on strict improvement; otherwise the counter grows by one. |
| TabuSampled.InitialSearch | lab2/taboov2.java:38-50 | Current and best are the shuffled identity with its length; nothing is tabu and the counter is 0. |
| TabuSampled.TabuSearch | lab2/taboov2.java:37-90 | The states start from the shuffled tour and each follows from the one before by an iteration on that round's draws, taken only while the counter is below the limit. The loop stops exactly when the counter reaches the limit, or when the draws run out. The result is the last state's best tour: no longer than any tour the search stood on, and one of them. |
| TabuFull.ListContains | lab2/taboov1.java:61 | `List.contains` is true exactly when some entry is equal to the array, under reference or content equality. |
| TabuFull.NeighbourhoodMembers | lab2/taboov1.java:56-57 | The nested loops visit exactly the moves (i, j) with 0 <= i < j < n. |
| TabuFull.ScanNeighbourhood | lab2/taboov1.java:52-66 | The scan's result is the earliest neighbour of least score over the whole neighbourhood, or null when every neighbour is tabu. |
| TabuFull.Remember | lab2/taboov1.java:80-84 | The FIFO list appends the new array and drops the oldest entry when it then exceeds `tabuListSize`, so its size stays within the bound. |
| TabuFull.ChosenNeighbour | lab2/taboov1.java:56-66 | The chosen neighbour inverts the move at the earliest least score, is not tabu, is a permutation, and was allocated by this scan. |
| TabuFull.TabuStep | lab2/tabooParams.java:51-86 | The search moves to the best non-tabu neighbour even when it is worse, and remembers it. The best tour is replaced, and the counter reset, only on strict improvement; without any admissible neighbour nothing changes. |
| TabuFull.ReferenceTestNeverRejects | lab2/taboov1.java:58-61 | With reference equality every freshly built neighbour scores its plain length: the tabu filter never rejects. |
| TabuFull.ReferenceTestAdmitsTabuTour | lab2/taboov1.java:58-61 | On two cities the neighbour `[1, 0]` scores finite although an array `[1, 0]` is in the tabu list. |
| TabuFull.ContentsTestRejectsTabu | lab2/taboov1.java:61 | Comparing contents, a neighbour scores finite exactly when no tabu array has its entries. |
| TabuFull.InitialSearch | lab2/taboov1.java:37-49 | Current and best are the shuffled identity with its length, held as the first array; the tabu list is empty and the counter is 0. |
| TabuFull.TabuSearch | lab2/taboov1.java:36-89 | The states start from the shuffled tour and each follows from the one before by an iteration over the whole neighbourhood, taken only while the counter is below the limit. The loop stops exactly when the counter reaches the limit, or when the fuel runs out. The result is the last state's best tour: no longer than any tour the search stood on, and one of them. |
| Annealing.Iteration | lab2/SimulatedAnnealingTSP.java:58-74 | The best cost never rises and stays at most the current cost. The state either is unchanged or moves to the neighbour; best and counter change only when the best cost falls, and then the neighbour is the new best and the counter is 0. |
| Annealing.IterationAccepts | lab2/SimulatedAnnealingTSP.java:61-73 | The neighbour becomes current exactly when it is strictly shorter than the current tour or the random test succeeds; an accepted neighbour strictly shorter than the best becomes the best and resets the counter, and otherwise best and counter stay. |
| Annealing.IterationKeepsTours | lab2/SimulatedAnnealingTSP.java:58-74 | A trial keeps current and best permutations of the n cities with their true lengths. |
| Annealing.AfterTrials | lab2/SimulatedAnnealingTSP.java:57-74 | After the first k trials of an epoch the best cost has not risen; when it fell the counter is 0, and otherwise best and counter are untouched. |
| Annealing.TrialsTrace | lab2/SimulatedAnnealingTSP.java:58-75 | The trace of an epoch has one entry per trial, and entry j is the state after the first j + 1 trials. |
| Annealing.RunEpoch | lab2/SimulatedAnnealingTSP.java:57-74 | The epoch loop ends in the state after all its trials; its best tour is no longer than any tour held as current during the epoch, and either is the incoming best or one of those tours. |
| Annealing.Advance | lab2/SimulatedAnnealingTSP.java:56-77 | A round of the outer loop ends with the counter at 1 after a new best and one higher, with the best untouched, otherwise. |
| Annealing.AfterEpochsKeepsTours | lab2/SimulatedAnnealingTSP.java:56-77 | After any number of rounds both tours are permutations with their true lengths. |
| Annealing.SimulatedAnnealing | lab2/SimulatedAnnealingTSP.java:44-81 | Rounds run exactly while the counter is below the limit, from the shuffled tour, each an epoch of trials on that round's draws. The result is the final best tour, a permutation no longer than the start and than every tour held as current on the way, and either the start or one of those tours. With a non-positive limit no round runs and the start is returned. |
| Annealing.CalculateMaxDistance | lab2/temp.java:121-132 | The result bounds `d(i, j)` for every pair i < j; it equals one of them when n >= 2 and is 0 otherwise. |
| LocalSearch.SampleBest | lab1/zad1.java:146-162 | The sampling loop's best never exceeds the current length or any non-skipped trial; an improvement names a drawn partner j != i with that length; without improvement `bestJ` stays i + 1. |
| LocalSearch.BestOfSampleStepAsWritten | lab1/zad1.java:145-168 | Position i as written: the path stays a rearrangement with its length tracked, the distance never rises, and a step is counted only with a strict decrease. |
| LocalSearch.BestOfSampleStepAsWrittenMoves | lab1/zad1.java:145-168 | As written, the step moves exactly when some sampled swap is strictly shorter and the chosen partner is not i + 1; it then swaps with a sampled partner to the least length among the sampled swaps, and otherwise nothing changes. |
| LocalSearch.SampledPartner | lab1/zad1.java:150-162 | A strictly shorter choice names a drawn partner j != i whose swap has that length. |
| LocalSearch.BestOfSampleStepImproves | lab1/zad1.java:150-168 | The corrected step lowers the distance exactly when some drawn partner improves; it then swaps with a drawn partner, ends no longer than every drawn trial, and otherwise changes nothing. |
| LocalSearch.BestOfSample | lab1/zad1.java:140-172 | The search returns a rearrangement of its input with its length; steps <= size - 1, and each step shortens the path by at least one. |
| LocalSearch.BestOfSampleDropsAdjacentSwap | lab1/zad1.java:164 | On a four-city instance the only improving swap has j == i + 1; the code as written discards it and returns the path of length 22 unchanged. |
| LocalSearch.BestOfSampleTakesAdjacentSwap | lab1/zad1.java:164 | On the same instance the corrected test takes that swap and reaches length 4 in one step. |
| LocalSearch.FirstImproving | lab1/zad2.java:70-83 | Sampling stops at the first draw j != i whose swap is strictly shorter; every earlier draw was skipped or did not improve; without one, no draw improves. |
| LocalSearch.FirstImprovementStep | lab1/zad2.java:70-87 | When some draw improves, the kept path is the swap with the first improving draw, with its length and one more step; when no draw improves, the position reports failure. |
| LocalSearch.FirstImprovementStops | lab1/zad2.java:85-87 | When the search stops early, it stops at the position i + steps and no draw of that position improves the final path. |
| LocalSearch.FirstImprovement | lab1/zad2.java:63-91 | The path stays a rearrangement of its input with its length as the returned distance; steps <= size - 1 and the distance falls by at least one per step. |
| Minimum.RunningMinStep | lab1/zad1.java:105-110 | A running-minimum scan with strict `<` keeps the earliest least score: a strictly smaller score takes over, anything else leaves it. |
| Graphs.AddEdge | lab0/src/main/java/TSPSolver.java:120-123 | Adding an edge puts each end into the other's list and changes nothing else. |
| Graphs.Adjacency | lab0/src/main/java/TSPSolver.java:114-123 | The adjacency lists of n vertices built from the edge list contain only vertex ids. |
| Graphs.AdjacencyMeets | lab1/zad1.java:115-119 | x is in the list of v exactly when some edge joins v and x. |
| Graphs.AdjacencySymmetric | lab0/src/main/resources/wiz.py:89-96 | x is a neighbour of v exactly when v is a neighbour of x. |
| Graphs.TreeConnected | lab1/zad1.java:82-90 | Edges that grow a tree from a root span all vertices: a set closed under their adjacency that contains one vertex contains all. |
| Preorder.Dfs | lab1/zad1.java:128-138 | The recursive walk starts with v and lists distinct unvisited vertices. Every neighbour of a listed vertex is listed or was visited before, and each listed vertex after v is a neighbour of an earlier one. |
| Preorder.Neighbours | lab1/zad1.java:132-136 | The loop over a neighbour list from index i reaches every remaining neighbour not visited before, with the same walk properties. |
| Preorder.ConstructCycle | lab1/zad1.java:114-126 | The cycle starts and ends with the start vertex, and no vertex repeats before the closing entry. |
| Preorder.ConstructCycleIsTour | lab1/zad1.java:114-138 | For a spanning tree the cycle has n + 1 entries, its first n are a permutation, and the weight summed over consecutive pairs is that tour's length. |
| Preorder.PerformDfs | lab0/src/main/java/TSPSolver.java:23-42 | The stack walk starts at vertex 0 whatever `i` says and ends with 0; no other entry repeats, and the listed vertices are closed under the adjacency lists. Each listed vertex after 0 is a neighbour of an earlier one. |
| Preorder.CycleFromMst | lab0/src/main/java/TSPSolver.java:114-138 | For a spanning tree, the DFS cycle has n + 1 entries from 0 back to 0, its first n are a permutation, and the summed weight is that tour's length. |
| Preorder.CycleWeight | lab0/src/main/java/TSPSolver.java:133-138 | The loop sums the weights of consecutive pairs only, with no extra closing edge. |
| PrimQueue.Fan | lab0/src/main/java/TSPSolver.java:104-109 | The edges pushed from a newly added vertex are exactly those to vertices not yet in the tree, weighted by distance. |
| PrimQueue.QueueInit | lab0/src/main/java/TSPSolver.java:76-87 | After starting with the root and its edges, every edge crossing from the tree is queued. |
| PrimQueue.PolledEdge | lab0/src/main/java/TSPSolver.java:93 | The polled edge is a queued edge of least weight, leading from a tree vertex with its true distance. |
| PrimQueue.QueueSkip | lab0/src/main/java/TSPSolver.java:96 | Dropping an edge into the tree keeps every crossing edge queued. |
| PrimQueue.Accept | lab0/src/main/java/TSPSolver.java:98-109 | Accepting an edge into a non-tree vertex marks it, appends the edge, adds its weight to `mstWeight` and queues the new crossing edges. |
| PrimQueue.AcceptCut | lab0/src/main/java/TSPSolver.java:92-110 | Each accepted edge is no heavier than any edge from the vertices that were in the tree before it to those that joined after. |
| PrimQueue.QueueDone | lab0/src/main/java/TSPSolver.java:92-110 | When the queue is empty, all n vertices are in the tree and exactly n - 1 edges were accepted, forming a tree from the root. |
| PrimQueue.PrimWithQueue | lab0/src/main/java/TSPSolver.java:76-110 | The result is n - 1 edges with `mstWeight` their total, each weighted by distance. They grow a tree from the root: every vertex joins once, in order, and each edge leads from an earlier vertex to the next one to join. Each accepted edge is a least one across its cut. |
| Prim.MinKey | lab1/zad1.java:102-112 | The result is -1 exactly when every vertex outside the tree has key `Double.MAX_VALUE`; otherwise it is the lowest-index such vertex of least key. |
| Prim.Relax | lab1/zad1.java:84-90 | For each vertex outside the tree whose distance to u is strictly below its key, the key becomes that distance and the parent becomes u; every other vertex keeps both. |
| Prim.SomeCandidate | lab1/zad1.java:81-82 | While fewer than n - 1 vertices have been selected, some vertex outside the tree has a finite key, so `minKey` does not return -1. |
| Prim.ChosenVertex | lab1/zad1.java:78-83 | The selected vertex is outside the tree with a finite key, and vertex 0 is selected first. |
| Prim.SelectKeys | lab1/zad1.java:82-90 | After a selection every finite-key vertex outside the tree has a parent already in the tree, and its key is the distance to that parent. |
| Prim.SelectNearest | lab1/zad1.java:84-90 | Each key outside the tree stays at most the distance to every tree vertex. |
| Prim.SelectCut | lab1/zad1.java:81-90 | Moving `minKey`'s choice into the tree keeps the cut property: every tree vertex's key is at most the distance from any vertex that joined before it to any vertex that joined with or after it, or has not joined. |
| Prim.ReadEdges | lab1/zad1.java:93-97 | The edges are `(parent[i], i, key[i])` for i = 1..n-1, their weights total `totalWeight`, and they grow a tree from 0. |
| Prim.ReadEdgesCut | lab1/zad1.java:93-97 | Each read-off edge into v is no heavier than the distance from any vertex that joined before v to any vertex that joined with or after v. |
| Prim.CalculateMst | lab1/zad1.java:71-100 | For n >= 1 the result is n - 1 edges, edge i - 1 entering vertex i with weight d(parent, i), forming a tree from 0 whose total is `totalWeight`. The edge into v is no heavier than the distance from any vertex selected before v to v itself, and to any vertex selected with or after v (the cut property). |
| MstTours.HeapPopIsLeastFirst | lab0/src/main/resources/wiz.py:19-20 | Popping the least (cost, frm, to) tuple returns an edge of least cost, so the heap is one of the queues Prim allows. |
| MstTours.QueueMstTour | lab0/src/main/java/TSPSolver.java:73-138 | Prim over the queue, the adjacency lists and `performDFS` give a closed cycle from 0 whose first n entries are a permutation, with the cycle weight equal to that tour's length. |
| MstTours.HeapMstTour | lab0/src/main/resources/wiz.py:86-109 | The heap Prim, the recursive `dfs` and the closing append give a closed cycle from the first city whose first n entries are a permutation, with the TSP total equal to that tour's length. |
| MstTours.ArrayMstIteration | lab1/zad1.java:19-31 | One lab1 iteration gives a closed cycle from the random start whose first n entries are a permutation. Local search, run with its `bestJ != i + 1` test as written, then yields a rearrangement whose distance is its length and is at most the cycle's length less the number of steps. |

## Left out

- File parsing, console output, result files, plotting (`plot_graph`, `wykres.py`) and the `Zadanie3` shuffle-and-measure driver: I/O only.
- Floating point: the Euclidean distances (and `int(round(sqrt))` in the Python script) become the abstract non-negative integer distance `d`. The `Math.exp` acceptance probability and the temperature cooling reduce to the boolean `lucky` of each annealing trial, and `(int)(alpha * n)` parameter derivations are not modelled.
- `java.util.Random`, `Collections.shuffle` and `random.nextDouble()` comparisons become explicit draws with the range the source draws from; their distribution is not modelled.
- Parameter sweeps (`optimizeParameters`, `testAlgorithm`) and run averaging in the `main` methods: statistics over repeated calls.
- The island model's thread pool, `synchronized` blocks and executor restarts: one epoch is a sequential fold over the islands.
- `crossoverProbability` of `runIslandModel` is never read by the source, and the PMX/OX choice is a fair coin per child; the model takes that coin as a draw.
- RunIslandModel: when several islands end at the same least distance, the contract says the answer is one of the shortest results, not which island's copy the final scan picks (`SelectGlobalBest` states that it is the first).
- TabuSampled.TabuSearch, TabuFull.TabuSearch: the source loops without bound and never ends when no admissible move exists (for instance with fewer than two cities). The sampled search runs on a finite supply of per-iteration draws and the full one on a fuel bound of iterations; both report which exit was taken, and nothing is claimed about iterations beyond that bound.
- TabuFull.TabuSearch: takes the equality of the tabu test as a parameter. `ByReference` is the code as written and `ByContents` the corrected test (see Findings).
- TabuSampled.RecordMove: `HashSet.iterator().next()` evicts an unspecified element. The model lets it evict any element, so which one goes is not determined.
- Annealing.SimulatedAnnealing: the termination argument relies on integer costs; with the source's doubles it is not claimed.
- Annealing.SimulatedAnnealing: with one city, a positive limit and a positive epoch length, the source's retry for a second index never ends (see Moves.RetryNeedsTwoCities). No valid trial draws exist there, so that non-terminating run is not modelled. With a limit of 0 or less no draws are required and the start is returned.
- Annealing.SimulatedAnnealing: needs at least one city. With none, `totalDistance` of the empty start tour throws an index error before the loop; the exception is not modelled.
- Tours.TotalDistance: needs a nonempty tour. The source reads `tour[tour.length - 1]` and throws an index error on an empty one; the exception is not modelled.
- TabuSampled.InitialSearch: needs at least one city, because `totalDistance` of the empty tour throws an index error; the exception is not modelled.
- TabuSampled.TabuSearch: needs at least one city for the same reason.
- TabuFull.InitialSearch: needs at least one city, because `totalDistance` of the empty tour throws an index error; the exception is not modelled.
- TabuFull.TabuSearch: needs at least one city for the same reason.
- Genetic.GeneticAlgorithm: needs at least one city. With none, the first tournament's `totalDistance` throws an index error once a child is bred, and the source returns null when none is bred. Neither case is modelled.
- Genetic.RunResultIs: needs at least one city, as GeneticAlgorithm does.
- Islands.RunIslandModel: needs at least one city, as GeneticAlgorithm does.
- Genetic.GeneticAlgorithm: with one city, a successful mutation coin makes `mutateSwap`'s retry for a second index run forever (see Moves.RetryNeedsTwoCities). No valid mutation draw exists there, so only runs without a mutation are modelled.
- Islands.RunIslandModel: with one city, a successful mutation coin in any island's run hangs in `mutateSwap`, as for GeneticAlgorithm. Only runs without a mutation are modelled.
- Islands.RunIslandModel: needs at least one island. `newFixedThreadPool` throws IllegalArgumentException for zero islands, and the exception is not modelled; `populationSize / numberOfIslands` would otherwise divide by zero.
- LocalSearch.BestOfSample: needs a nonempty path. `calculateTotalDistance` reads the last entry and throws on an empty list; the exception is not modelled.
- LocalSearch.FirstImprovement: needs a nonempty path for the same reason.
- Prim.CalculateMst, PrimQueue.PrimWithQueue: global minimality of the spanning tree is not proved, only the cut property each accepted edge satisfies at the time it is accepted. Ties in the priority queue are resolved by the `poll` parameter, which need only return a least-weight edge.
- Prim.CalculateMst, MstTours.QueueMstTour, MstTours.HeapMstTour: all need at least one city. `key[0] = 0` and `inMST[0] = true` fail on an empty instance, and with one city the Python `prim_algorithm` raises a KeyError at `graph[start_vertex]`, because the weighted graph gets no entry when no pair of distinct cities exists; the model returns the one-city cycle there.
- The Python script identifies cities by the file's indices (from 1); the model numbers them 0..n-1 with the first city as 0.
- MstTours.ArrayMstIteration: the lab1 local search runs on the closed walk of n + 1 entries, so its swaps can move the repeated start city. The model proves only that the result is a rearrangement of that walk, not a tour of the n cities.

## Findings

| source | as written | input that shows it | evidently intended | confidence | as-written member | corrected member |
|---|---|---|---|---|---|---|
| lab2/taboov1.java:61 | `tabuList.contains(neighbor)` compares `int[]` references, and every neighbour is a fresh array, so the tabu test never rejects anything | two cities, current tour `[0, 1]`, tabu list holding an array `[1, 0]`: the neighbour `[1, 0]` still scores finite | compare tour contents, so a tour in the tabu list is skipped | not executed | TabuFull.ReferenceTestAdmitsTabuTour | TabuFull.ContentsTestRejectsTabu |
| lab1/zad1.java:164 | `if (bestJ != i + 1)` is meant to detect "an improving swap was found", but it also drops an improving swap whose partner is i + 1 | four cities at distance 1 around the cycle 0-1-2-3 and 10 across, path `[0, 2, 1, 3]`, position 1 drawing only 2: the swap to `[0, 1, 2, 3]` (length 4 from 22) is discarded | apply the best swap whenever its length is strictly below the current length | not executed | LocalSearch.BestOfSampleDropsAdjacentSwap | LocalSearch.BestOfSampleTakesAdjacentSwap |

=== FILE: annealing.dfy ===
/**
  Simulated annealing over segment inversions (two near-identical copies of
  the solver). Each epoch runs `epochLength` trials; a trial draws a
  neighbour with `getNeighborInvert` and accepts it when it is strictly
  shorter or when the random test against `exp(costDifference / temperature)`
  succeeds. The outcome of that random test is a parameter (`lucky`); the
  temperature and its cooling only feed that test and are not modelled.
 */
module Annealing {
  import opened Permutations
  import opened Tours
  import opened Moves
  import opened Shuffle

  /**
    The random draws of one trial: the first position, the redraws of the
    second until it differs, and whether `random.nextDouble()` fell below the
    acceptance probability.
   */
  datatype Trial = Trial(a: int, redraws: seq<int>, lucky: bool)

  /** Draws `getNeighborInvert` can make on an n-city tour and then leave its retry loop. */
  predicate ValidTrial(t: Trial, n: int) {
    && 0 <= t.a < n
    && (forall k | 0 <= k < |t.redraws| :: 0 <= t.redraws[k] < n)
    && exists k :: 0 <= k < |t.redraws| && t.redraws[k] != t.a
  }

  /** The draws of a run of trials. */
  predicate ValidTrials(trials: seq<Trial>, n: int) {
    forall k | 0 <= k < |trials| :: ValidTrial(trials[k], n)
  }

  /** The loop state: current and best tour with their costs, and the stagnation counter. */
  datatype Anneal = Anneal(current: seq<int>, currentCost: nat, best: seq<int>, bestCost: nat, stagnation: int)

  /**
    Both tours have n entries and the best cost is at most the current one.
    The loop itself keeps no more than that: the costs are the variables the
    source carries along, compared but never recomputed.
   */
  predicate Coherent(s: Anneal, n: nat) {
    n >= 1 && |s.current| == n && |s.best| == n && s.bestCost <= s.currentCost
  }

  /** A coherent state whose tours are tours of the n cities and whose costs are their lengths. */
  predicate AnnealOk(d: Distance, s: Anneal, n: nat) {
    && Coherent(s, n) && IsPermutation(s.current, n) && IsPermutation(s.best, n)
    && s.currentCost == TourLength(d, s.current) && s.bestCost == TourLength(d, s.best)
  }

  /**
    One trial. A strictly shorter neighbour is always accepted, because
    `costDifference > 0` short-circuits the random test; any other one only
    when the test succeeds. Only an accepted neighbour strictly shorter than
    the best tour replaces it and resets the counter. The acceptance rule in
    terms of the neighbour's length is `IterationAccepts`.
   */
  function Iteration(d: Distance, s: Anneal, t: Trial, n: nat): (s': Anneal)
    requires Coherent(s, n) && ValidTrial(t, n)
    ensures Coherent(s', n)
    ensures var neighbor := GetNeighborInvert(s.current, t.a, t.redraws);
      && (s'.current == neighbor || s' == s)
      && s'.bestCost <= s.bestCost
      && (s'.bestCost < s.bestCost ==> s'.best == neighbor && s'.current == neighbor && s'.stagnation == 0)
      && (s'.bestCost == s.bestCost ==> s'.best == s.best && s'.stagnation == s.stagnation)
  {
    var neighbor := GetNeighborInvert(s.current, t.a, t.redraws);
    var neighborCost := TourLength(d, neighbor);
    var costDifference := s.currentCost - neighborCost;
    if costDifference > 0 || t.lucky then
      if neighborCost < s.bestCost then Anneal(neighbor, neighborCost, neighbor, neighborCost, 0)
      else Anneal(neighbor, neighborCost, s.best, s.bestCost, s.stagnation)
    else s
  }

  /**
    The acceptance rule of a trial: the neighbour becomes the current tour
    when it is strictly shorter or the random test succeeds, and otherwise
    nothing changes; an accepted neighbour strictly shorter than the best
    tour becomes the best tour and resets the counter.
   */
  lemma IterationAccepts(d: Distance, s: Anneal, t: Trial, n: nat)
    requires Coherent(s, n) && ValidTrial(t, n)
    ensures var s', neighbor := Iteration(d, s, t, n), GetNeighborInvert(s.current, t.a, t.redraws);
      && (TourLength(d, neighbor) < s.currentCost || t.lucky ==> s'.current == neighbor && s'.currentCost == TourLength(d, neighbor))
      && (TourLength(d, neighbor) >= s.currentCost && !t.lucky ==> s' == s)
      && (TourLength(d, neighbor) < s.bestCost ==> s'.best == neighbor && s'.stagnation == 0)
      && (TourLength(d, neighbor) >= s.bestCost ==> s'.best == s.best && s'.stagnation == s.stagnation)
  {
  }

  /** What the loops rely on about a trial: it keeps the state coherent and the best cost never rises. */
  predicate StepKeeps(s: Anneal, s': Anneal, n: nat) {
    && Coherent(s', n) && s'.bestCost <= s.bestCost
    && (s'.bestCost < s.bestCost ==> s'.best == s'.current && s'.stagnation == 0)
    && (s'.bestCost == s.bestCost ==> s'.best == s.best && s'.stagnation == s.stagnation)
  }

  /** A step function that behaves like a trial on every coherent state and valid draws. */
  ghost predicate Steps(step: (Anneal, Trial) -> Anneal, n: nat) {
    forall s: Anneal, t: Trial | Coherent(s, n) && ValidTrial(t, n) :: StepKeeps(s, step(s, t), n)
  }

  /**
    A trial of the annealing loop as a total step function; a state or draws
    outside its domain are left alone. The loops below are stated over any
    such step and applied to this one.
   */
  function Attempt(d: Distance, n: nat): (Anneal, Trial) -> Anneal {
    (s: Anneal, t: Trial) => if Coherent(s, n) && ValidTrial(t, n) then Iteration(d, s, t, n) else s
  }

  lemma AttemptSteps(d: Distance, n: nat)
    ensures Steps(Attempt(d, n), n)
  {
    forall s: Anneal, t: Trial | Coherent(s, n) && ValidTrial(t, n)
      ensures StepKeeps(s, Attempt(d, n)(s, t), n)
    {
      var s' := Iteration(d, s, t, n);
      assert Attempt(d, n)(s, t) == s';
    }
  }

  /**
    The state after the first k trials of an epoch: the inner `for` loop of
    `simulatedAnnealing` stopped after k rounds. The best cost never rises;
    the counter is either untouched (and then so is the best tour) or reset
    by a new best.
   */
  function AfterTrials(step: (Anneal, Trial) -> Anneal, s: Anneal, trials: seq<Trial>, k: nat, n: nat): (s': Anneal)
    requires Steps(step, n) && Coherent(s, n) && ValidTrials(trials, n) && k <= |trials|
    ensures Coherent(s', n)
    ensures s'.bestCost <= s.bestCost
    ensures s'.bestCost < s.bestCost ==> s'.stagnation == 0
    ensures s'.bestCost == s.bestCost ==> s'.best == s.best && s'.stagnation == s.stagnation
  {
    if k == 0 then s
    else
      var p := AfterTrials(step, s, trials, k - 1, n);
      assert StepKeeps(p, step(p, trials[k - 1]), n);
      step(p, trials[k - 1])
  }

  /** A trial keeps both tours permutations of the n cities: a neighbour is a rearrangement of the current tour. */
  lemma IterationKeepsTours(d: Distance, s: Anneal, t: Trial, n: nat)
    requires AnnealOk(d, s, n) && ValidTrial(t, n)
    ensures AnnealOk(d, Iteration(d, s, t, n), n)
  {
    GetNeighborInvertPreservesPermutation(s.current, t.a, t.redraws, n);
  }

  /** A step function that keeps both tours permutations with their true lengths. */
  ghost predicate KeepsTours(step: (Anneal, Trial) -> Anneal, d: Distance, n: nat) {
    forall s: Anneal, t: Trial | AnnealOk(d, s, n) && ValidTrial(t, n) :: AnnealOk(d, step(s, t), n)
  }

  lemma AttemptKeepsTours(d: Distance, n: nat)
    ensures KeepsTours(Attempt(d, n), d, n)
  {
    forall s: Anneal, t: Trial | AnnealOk(d, s, n) && ValidTrial(t, n)
      ensures AnnealOk(d, Attempt(d, n)(s, t), n)
    {
      IterationKeepsTours(d, s, t, n);
    }
  }

  lemma {:induction false} AfterTrialsKeepsTours(step: (Anneal, Trial) -> Anneal, d: Distance, s: Anneal, trials: seq<Trial>, k: nat, n: nat)
    requires Steps(step, n) && KeepsTours(step, d, n)
    requires AnnealOk(d, s, n) && ValidTrials(trials, n) && k <= |trials|
    ensures AnnealOk(d, AfterTrials(step, s, trials, k, n), n)
  {
    if k > 0 {
      AfterTrialsKeepsTours(step, d, s, trials, k - 1, n);
      var p := AfterTrials(step, s, trials, k - 1, n);
      assert AnnealOk(d, step(p, trials[k - 1]), n);
    }
  }

  /** The states an epoch passes through: after the first trial, the first two, ..., the first k. */
  ghost function TrialsTrace(step: (Anneal, Trial) -> Anneal, s: Anneal, trials: seq<Trial>, k: nat, n: nat): (states: seq<Anneal>)
    requires Steps(step, n) && Coherent(s, n) && ValidTrials(trials, n) && k <= |trials|
    ensures |states| == k
    ensures forall j | 0 <= j < k :: states[j] == AfterTrials(step, s, trials, j + 1, n)
  {
    if k == 0 then [] else TrialsTrace(step, s, trials, k - 1, n) + [AfterTrials(step, s, trials, k, n)]
  }

  /**
    One epoch, the inner loop of `simulatedAnnealing`. It ends in the state
    after all its trials, and its best tour is no longer than any tour it
    held as current on the way; a best tour it changed was one of those,
    the one at index `at`.
   */
  method RunEpoch(step: (Anneal, Trial) -> Anneal, s: Anneal, trials: seq<Trial>, n: nat)
    returns (s': Anneal, ghost states: seq<Anneal>, ghost at: int)
    requires Steps(step, n) && Coherent(s, n) && ValidTrials(trials, n)
    ensures s' == AfterTrials(step, s, trials, |trials|, n)
    ensures states == TrialsTrace(step, s, trials, |trials|, n)
    ensures forall k | 0 <= k < |states| :: s'.bestCost <= states[k].currentCost
    ensures (at == -1 && s'.best == s.best) || (0 <= at < |states| && states[at].current == s'.best)
  {
    s', states, at := s, [], -1;
    var i := 0;
    while i < |trials|
      invariant i <= |trials| && s' == AfterTrials(step, s, trials, i, n) && states == TrialsTrace(step, s, trials, i, n)
      invariant forall k | 0 <= k < i :: s'.bestCost <= states[k].currentCost
      invariant (at == -1 && s'.best == s.best) || (0 <= at < i && states[at].current == s'.best)
    {
      s', states, at := TrialStep(step, s, trials, n, i, s', states, at);
      i := i + 1;
    }
  }

  /** One round of the inner loop, extending the trace by the new state. */
  method TrialStep(step: (Anneal, Trial) -> Anneal, s: Anneal, trials: seq<Trial>, n: nat, i: nat,
                   cur: Anneal, ghost states: seq<Anneal>, ghost at: int)
    returns (next: Anneal, ghost states': seq<Anneal>, ghost at': int)
    requires Steps(step, n) && Coherent(s, n) && ValidTrials(trials, n) && i < |trials|
    requires cur == AfterTrials(step, s, trials, i, n) && states == TrialsTrace(step, s, trials, i, n)
    requires forall k | 0 <= k < i :: cur.bestCost <= states[k].currentCost
    requires (at == -1 && cur.best == s.best) || (0 <= at < i && states[at].current == cur.best)
    ensures next == AfterTrials(step, s, trials, i + 1, n) && states' == TrialsTrace(step, s, trials, i + 1, n)
    ensures forall k | 0 <= k < i + 1 :: next.bestCost <= states'[k].currentCost
    ensures (at' == -1 && next.best == s.best) || (0 <= at' < i + 1 && states'[at'].current == next.best)
  {
    next := step(cur, trials[i]);
    assert StepKeeps(cur, next, n);
    states' := states + [next];
    at' := if next.best == cur.best then at else i;
    ExtendTrace(cur, next, states, at, s.best, [next], at');
  }

  /**
    Appending the states `more` of a stretch that starts from `cur` and ends
    in `last` keeps the trace facts: the best cost of `last` is at most every
    current cost in the longer trace, and its best tour is still the start or
    one of the current tours.
   */
  lemma ExtendTrace(cur: Anneal, last: Anneal, states: seq<Anneal>, at: int, start: seq<int>, more: seq<Anneal>, at': int)
    requires last.bestCost <= cur.bestCost
    requires forall k | 0 <= k < |more| :: last.bestCost <= more[k].currentCost
    requires forall k | 0 <= k < |states| :: cur.bestCost <= states[k].currentCost
    requires (at == -1 && cur.best == start) || (0 <= at < |states| && states[at].current == cur.best)
    requires last.best == cur.best ==> at' == at
    requires last.best != cur.best ==> |states| <= at' < |states| + |more| && more[at' - |states|].current == last.best
    ensures var all := states + more;
      && (forall k | 0 <= k < |all| :: last.bestCost <= all[k].currentCost)
      && ((at' == -1 && last.best == start) || (0 <= at' < |all| && all[at'].current == last.best))
  {
    var all := states + more;
    forall k | 0 <= k < |all|
      ensures last.bestCost <= all[k].currentCost
    {
      if k >= |states| {
        assert all[k] == more[k - |states|];
      }
    }
  }

  /** The state the outer loop starts from: the shuffled tour as current and best, counter 0. */
  function Initial(d: Distance, n: nat, shuffle: seq<int>): (s: Anneal)
    requires n >= 1 && ValidShuffleDraws(n, shuffle)
    ensures AnnealOk(d, s, n) && s.current == s.best == RandomTour(n, shuffle) && s.stagnation == 0
  {
    var t := RandomTour(n, shuffle);
    Anneal(t, TourLength(d, t), t, TourLength(d, t), 0)
  }

  /**
    One round of the outer loop: an epoch, then the counter grows by one. It
    ends with the counter at 1 after a new best and one higher otherwise.
   */
  function Advance(step: (Anneal, Trial) -> Anneal, s: Anneal, trials: seq<Trial>, n: nat): (s': Anneal)
    requires Steps(step, n) && Coherent(s, n) && ValidTrials(trials, n)
    ensures Coherent(s', n) && s'.bestCost <= s.bestCost
    ensures s'.bestCost < s.bestCost ==> s'.stagnation == 1
    ensures s'.bestCost == s.bestCost ==> s'.best == s.best && s'.stagnation == s.stagnation + 1
  {
    var r := AfterTrials(step, s, trials, |trials|, n);
    r.(stagnation := r.stagnation + 1)
  }

  /** A step that behaves like a trial, a coherent start, and valid draws for every round. */
  ghost predicate Schedule(step: (Anneal, Trial) -> Anneal, s0: Anneal, draws: nat -> seq<Trial>, n: nat) {
    Steps(step, n) && Coherent(s0, n) && forall e: nat :: ValidTrials(draws(e), n)
  }

  /** The state after e rounds of the outer loop; `draws(e)` are the draws of round e. */
  function AfterEpochs(step: (Anneal, Trial) -> Anneal, s0: Anneal, draws: nat -> seq<Trial>, e: nat, n: nat): (s: Anneal)
    requires Schedule(step, s0, draws, n)
    ensures Coherent(s, n) && s.bestCost <= s0.bestCost
  {
    if e == 0 then s0 else Advance(step, AfterEpochs(step, s0, draws, e - 1, n), draws(e - 1), n)
  }

  lemma {:induction false} AfterEpochsKeepsTours(step: (Anneal, Trial) -> Anneal, d: Distance, s0: Anneal, draws: nat -> seq<Trial>, e: nat, n: nat)
    requires KeepsTours(step, d, n) && AnnealOk(d, s0, n) && Schedule(step, s0, draws, n)
    ensures AnnealOk(d, AfterEpochs(step, s0, draws, e, n), n)
  {
    if e > 0 {
      var s := AfterEpochs(step, s0, draws, e - 1, n);
      AfterEpochsKeepsTours(step, d, s0, draws, e - 1, n);
      AfterTrialsKeepsTours(step, d, s, draws(e - 1), |draws(e - 1)|, n);
    }
  }

  /** Every state the first e rounds pass through, round by round. */
  ghost function RunTrace(step: (Anneal, Trial) -> Anneal, s0: Anneal, draws: nat -> seq<Trial>, e: nat, n: nat): (states: seq<Anneal>)
    requires Schedule(step, s0, draws, n)
  {
    if e == 0 then []
    else
      var s := AfterEpochs(step, s0, draws, e - 1, n);
      RunTrace(step, s0, draws, e - 1, n) + TrialsTrace(step, s, draws(e - 1), |draws(e - 1)|, n)
  }

  /** One unfolding of the round-by-round definitions. */
  lemma AfterEpochsStep(step: (Anneal, Trial) -> Anneal, s0: Anneal, draws: nat -> seq<Trial>, e: nat, n: nat)
    requires Schedule(step, s0, draws, n)
    ensures var s := AfterEpochs(step, s0, draws, e, n);
      && AfterEpochs(step, s0, draws, e + 1, n) == Advance(step, s, draws(e), n)
      && RunTrace(step, s0, draws, e + 1, n) == RunTrace(step, s0, draws, e, n) + TrialsTrace(step, s, draws(e), |draws(e)|, n)
  {
  }

  /** The loop condition held before each of the first e rounds. */
  ghost predicate Running(step: (Anneal, Trial) -> Anneal, s0: Anneal, draws: nat -> seq<Trial>, e: nat, n: nat, limit: int)
    requires Schedule(step, s0, draws, n)
  {
    forall j: nat | j < e :: AfterEpochs(step, s0, draws, j, n).stagnation < limit
  }

  /**
    `simulatedAnnealing`: rounds run while the counter is below
    `maxIterationsWithoutImprovement`. The loop stops after the first round
    count whose state has reached the limit, and returns that state's best
    tour: no longer than the start and than every tour held as current on
    the way, and either the start or one of them. With integer costs the
    loop always ends: every round either lowers the best cost or brings the
    counter one step closer to the limit. With a limit of 0 or less no round
    runs, so no draws are needed and the start is returned.
   */
  method SimulatedAnnealing(d: Distance, n: nat, epochLength: int, maxIterationsWithoutImprovement: int,
                            shuffle: seq<int>, draws: nat -> seq<Trial>)
    returns (best: seq<int>, epochs: nat, ghost start: seq<int>, ghost visited: seq<Anneal>)
    requires n >= 1 && ValidShuffleDraws(n, shuffle)
    requires maxIterationsWithoutImprovement > 0 ==>
      forall e: nat :: |draws(e)| == (if epochLength < 0 then 0 else epochLength) && ValidTrials(draws(e), n)
    ensures start == RandomTour(n, shuffle) && IsPermutation(best, n)
    ensures maxIterationsWithoutImprovement > 0 ==> var s0, step := Initial(d, n, shuffle), Attempt(d, n);
      && Schedule(step, s0, draws, n)
      && Running(step, s0, draws, epochs, n, maxIterationsWithoutImprovement)
      && AfterEpochs(step, s0, draws, epochs, n).stagnation >= maxIterationsWithoutImprovement
      && best == AfterEpochs(step, s0, draws, epochs, n).best
      && visited == RunTrace(step, s0, draws, epochs, n)
    ensures TourLength(d, best) <= TourLength(d, start)
    ensures forall k | 0 <= k < |visited| :: TourLength(d, best) <= visited[k].currentCost
    ensures best == start || exists k | 0 <= k < |visited| :: visited[k].current == best
    ensures maxIterationsWithoutImprovement <= 0 ==> epochs == 0 && best == start && visited == []
  {
    var current := RandomPermutation(n, shuffle);
    start := current;
    var cost := TotalDistance(d, current);
    if maxIterationsWithoutImprovement <= 0 {
      best, epochs, visited := current, 0, [];
      return;
    }
    var s0 := Anneal(current, cost, current, cost, 0);
    assert s0 == Initial(d, n, shuffle);
    AttemptSteps(d, n);
    var s;
    ghost var at;
    s, epochs, visited, at := OuterLoop(Attempt(d, n), n, s0, draws, maxIterationsWithoutImprovement);
    AttemptKeepsTours(d, n);
    AfterEpochsKeepsTours(Attempt(d, n), d, s0, draws, epochs, n);
    best := s.best;
  }

  /** The `while` loop of `simulatedAnnealing`, from the state `s0`. */
  method OuterLoop(step: (Anneal, Trial) -> Anneal, n: nat, s0: Anneal, draws: nat -> seq<Trial>, limit: int)
    returns (s: Anneal, epochs: nat, ghost visited: seq<Anneal>, ghost at: int)
    requires Schedule(step, s0, draws, n) && s0.stagnation == 0
    ensures s == AfterEpochs(step, s0, draws, epochs, n) && visited == RunTrace(step, s0, draws, epochs, n)
    ensures Running(step, s0, draws, epochs, n, limit) && s.stagnation >= limit
    ensures forall k | 0 <= k < |visited| :: s.bestCost <= visited[k].currentCost
    ensures (at == -1 && s.best == s0.best) || (0 <= at < |visited| && visited[at].current == s.best)
    ensures limit <= 0 ==> epochs == 0 && s == s0
  {
    s, epochs, visited, at := s0, 0, [], -1;
    while s.stagnation < limit
      invariant s == AfterEpochs(step, s0, draws, epochs, n) && visited == RunTrace(step, s0, draws, epochs, n)
      invariant Running(step, s0, draws, epochs, n, limit)
      invariant forall k | 0 <= k < |visited| :: s.bestCost <= visited[k].currentCost
      invariant (at == -1 && s.best == s0.best) || (0 <= at < |visited| && visited[at].current == s.best)
      invariant 0 <= s.stagnation <= epochs
      invariant limit <= 0 ==> epochs == 0
      decreases s.bestCost, limit - s.stagnation
    {
      s, visited, at := OuterRound(step, n, s0, draws, epochs, limit, s, visited, at, s0.best);
      epochs := epochs + 1;
    }
  }

  /** One round of the outer loop, in terms of the round-by-round definitions. */
  method OuterRound(step: (Anneal, Trial) -> Anneal, n: nat, ghost s0: Anneal, draws: nat -> seq<Trial>, e: nat, limit: int,
                    s: Anneal, ghost visited: seq<Anneal>, ghost at: int, ghost start: seq<int>)
    returns (s': Anneal, ghost visited': seq<Anneal>, ghost at': int)
    requires Schedule(step, s0, draws, n)
    requires s == AfterEpochs(step, s0, draws, e, n) && visited == RunTrace(step, s0, draws, e, n)
    requires Running(step, s0, draws, e, n, limit) && s.stagnation < limit
    requires forall k | 0 <= k < |visited| :: s.bestCost <= visited[k].currentCost
    requires (at == -1 && s.best == start) || (0 <= at < |visited| && visited[at].current == s.best)
    ensures s' == AfterEpochs(step, s0, draws, e + 1, n) && visited' == RunTrace(step, s0, draws, e + 1, n)
    ensures Running(step, s0, draws, e + 1, n, limit)
    ensures s'.bestCost < s.bestCost || (s'.bestCost == s.bestCost && s'.stagnation == s.stagnation + 1)
    ensures s'.stagnation == 1 || s'.stagnation == s.stagnation + 1
    ensures forall k | 0 <= k < |visited'| :: s'.bestCost <= visited'[k].currentCost
    ensures (at' == -1 && s'.best == start) || (0 <= at' < |visited'| && visited'[at'].current == s'.best)
  {
    AfterEpochsStep(step, s0, draws, e, n);
    s', visited', at' := EpochRound(step, n, s, draws(e), visited, at, start);
    assert forall j: nat | j < e + 1 :: AfterEpochs(step, s0, draws, j, n).stagnation < limit by {
      forall j: nat | j < e + 1
        ensures AfterEpochs(step, s0, draws, j, n).stagnation < limit
      {
        if j == e {
          assert AfterEpochs(step, s0, draws, j, n) == s;
        }
      }
    }
  }

  /** One round of the outer loop, extending the trace by the states of its epoch. */
  method EpochRound(step: (Anneal, Trial) -> Anneal, n: nat, s: Anneal, trials: seq<Trial>,
                    ghost visited: seq<Anneal>, ghost at: int, ghost start: seq<int>)
    returns (s': Anneal, ghost visited': seq<Anneal>, ghost at': int)
    requires Steps(step, n) && Coherent(s, n) && ValidTrials(trials, n)
    requires forall k | 0 <= k < |visited| :: s.bestCost <= visited[k].currentCost
    requires (at == -1 && s.best == start) || (0 <= at < |visited| && visited[at].current == s.best)
    ensures s' == Advance(step, s, trials, n) && visited' == visited + TrialsTrace(step, s, trials, |trials|, n)
    ensures forall k | 0 <= k < |visited'| :: s'.bestCost <= visited'[k].currentCost
    ensures (at' == -1 && s'.best == start) || (0 <= at' < |visited'| && visited'[at'].current == s'.best)
  {
    ghost var states, k;
    var r;
    r, states, k := RunEpoch(step, s, trials, n);
    s' := r.(stagnation := r.stagnation + 1);
    visited' := visited + states;
    at' := if r.best == s.best then at else |visited| + k;
    ExtendTrace(s, r, visited, at, start, states, at');
  }

  /**
    `calculateMaxDistance`: the largest distance between two different
    cities i < j, and 0 with fewer than two cities. `wi` and `wj` witness a
    pair attaining it.
   */
  method CalculateMaxDistance(d: Distance, n: nat) returns (maxDistance: nat, ghost wi: int, ghost wj: int)
    ensures forall i, j | 0 <= i < j < n :: d(i, j) <= maxDistance
    ensures n >= 2 ==> 0 <= wi < wj < n && maxDistance == d(wi, wj)
    ensures n < 2 ==> maxDistance == 0
  {
    maxDistance, wi, wj := 0, 0, 1;
    var i := 0;
    while i < n
      invariant 0 <= i <= n || (n == 0 && i == 0)
      invariant forall i', j | 0 <= i' < i && i' < j < n :: d(i', j) <= maxDistance
      invariant maxDistance == 0 ==> wi == 0 && wj == 1
      invariant maxDistance == 0 || (0 <= wi < wj < n && maxDistance == d(wi, wj))
    {
      maxDistance, wi, wj := MaxOverRow(d, n, i, maxDistance, wi, wj);
      i := i + 1;
    }
  }

  /** The inner loop of `calculateMaxDistance` for row i: the pairs (i, j) with j > i. */
  method MaxOverRow(d: Distance, n: nat, i: nat, maxDistance: nat, ghost wi: int, ghost wj: int)
    returns (maxDistance': nat, ghost wi': int, ghost wj': int)
    requires i < n
    requires maxDistance == 0 || (0 <= wi < wj < n && maxDistance == d(wi, wj))
    ensures maxDistance' >= maxDistance
    ensures forall j | i < j < n :: d(i, j) <= maxDistance'
    ensures maxDistance' == 0 ==> wi' == wi && wj' == wj
    ensures maxDistance' == 0 || (0 <= wi' < wj' < n && maxDistance' == d(wi', wj'))
  {
    maxDistance', wi', wj' := maxDistance, wi, wj;
    var j := i + 1;
    while j < n
      invariant i + 1 <= j <= n && maxDistance' >= maxDistance
      invariant forall j' | i < j' < j :: d(i, j') <= maxDistance'
      invariant maxDistance' == 0 ==> wi' == wi && wj' == wj
      invariant maxDistance' == 0 || (0 <= wi' < wj' < n && maxDistance' == d(wi', wj'))
    {
      var distance := d(i, j);
      if distance > maxDistance' {
        maxDistance', wi', wj' := distance, i, j;
      }
      j := j + 1;
    }
  }
}

=== FILE: crossover.dfy ===
/**
  The variation operators of the genetic algorithm: partially-mapped crossover
  (PMX), order crossover (OX) and swap mutation. The random cut points and
  mutation positions are parameters; the child is built in a sequence that
  starts out filled with the marker -1, as the source's `Arrays.fill(child, -1)`.
 */
module Crossover {
  import opened Permutations
  import opened Moves

  /** The "not yet filled" marker of a fresh child. */
  const Empty: int := -1

  /** The linear scan `contains(array, value)`. */
  function Contains(a: seq<int>, value: int): (r: bool)
    ensures r <==> value in a
  {
    if |a| == 0 then false else a[0] == value || Contains(a[1..], value)
  }

  /** Two parents: permutations of the same n cities. */
  predicate Parents(p1: seq<int>, p2: seq<int>) {
    IsPermutation(p1, |p1|) && IsPermutation(p2, |p1|)
  }

  predicate ValidCut(p1: seq<int>, start: int, end: int) {
    0 <= start <= end < |p1|
  }

  // ---------------------------------------------------------------------------
  // Copying the parent-1 segment (shared by both operators)
  // ---------------------------------------------------------------------------

  method CopySegment(p1: seq<int>, start: int, end: int) returns (child: seq<int>)
    requires ValidCut(p1, start, end)
    ensures |child| == |p1|
    ensures forall k | 0 <= k < |p1| :: child[k] == if start <= k <= end then p1[k] else Empty
  {
    child := seq(|p1|, _ => Empty);
    var i := start;
    while i <= end
      invariant start <= i <= end + 1 && |child| == |p1|
      invariant forall k | 0 <= k < |p1| :: child[k] == if start <= k < i then p1[k] else Empty
    {
      child := child[i := p1[i]];
      i := i + 1;
    }
  }

  // ---------------------------------------------------------------------------
  // PMX
  // ---------------------------------------------------------------------------

  /**
    What PMX holds at position k once both fill loops have run: the parent-1
    segment, parent 2's city where that city is not in the segment, and a hole
    otherwise.
   */
  function PmxFirstPass(p1: seq<int>, p2: seq<int>, start: int, end: int, k: int): int
    requires |p1| == |p2| && ValidCut(p1, start, end) && 0 <= k < |p1|
  {
    if start <= k <= end then p1[k]
    else if p2[k] !in p1[start..end + 1] then p2[k]
    else Empty
  }

  /** The cities placed by the first pass are pairwise different. */
  lemma PmxFirstPassDistinct(p1: seq<int>, p2: seq<int>, start: int, end: int)
    requires Parents(p1, p2) && ValidCut(p1, start, end)
    ensures forall a, b | 0 <= a < b < |p1| && PmxFirstPass(p1, p2, start, end, a) != Empty ::
      PmxFirstPass(p1, p2, start, end, a) != PmxFirstPass(p1, p2, start, end, b)
  {
    var seg := p1[start..end + 1];
    forall a, b | 0 <= a < b < |p1| && PmxFirstPass(p1, p2, start, end, a) != Empty
      ensures PmxFirstPass(p1, p2, start, end, a) != PmxFirstPass(p1, p2, start, end, b)
    {
      if start <= a <= end && !(start <= b <= end) {
        assert p1[a] == seg[a - start];
      } else if start <= b <= end && !(start <= a <= end) {
        assert p1[b] == seg[b - start];
      }
    }
  }

  /**
    One of the two fill loops, over positions lo..hi-1 outside the segment: a
    position takes parent 2's city unless the child already contains it.
   */
  method PmxFillRange(child: seq<int>, p1: seq<int>, p2: seq<int>, start: int, end: int, lo: int, hi: int)
    returns (r: seq<int>)
    requires Parents(p1, p2) && ValidCut(p1, start, end)
    requires 0 <= lo <= hi <= |p1| && (hi <= start || end < lo)
    requires |child| == |p1|
    requires forall k | 0 <= k < |p1| ::
      child[k] == if start <= k <= end || k < lo then PmxFirstPass(p1, p2, start, end, k) else Empty
    ensures |r| == |p1|
    ensures forall k | 0 <= k < |p1| ::
      r[k] == if start <= k <= end || k < hi then PmxFirstPass(p1, p2, start, end, k) else Empty
  {
    var seg := p1[start..end + 1];
    r := child;
    var i := lo;
    while i < hi
      invariant lo <= i <= hi && |r| == |p1|
      invariant forall k | 0 <= k < |p1| ::
        r[k] == if start <= k <= end || k < i then PmxFirstPass(p1, p2, start, end, k) else Empty
    {
      forall k | 0 <= k < |r| && !(start <= k <= end)
        ensures r[k] != p2[i]
      {
        if k < i {
          assert r[k] == PmxFirstPass(p1, p2, start, end, k);
        }
      }
      if p2[i] in r {
        var k :| 0 <= k < |r| && r[k] == p2[i];
        assert r[k] == seg[k - start];
      }
      if p2[i] in seg {
        var q :| 0 <= q < |seg| && seg[q] == p2[i];
        assert r[start + q] == p2[i];
      }
      if !Contains(r, p2[i]) {
        r := r[i := p2[i]];
      }
      i := i + 1;
    }
  }

  /** The first position at or after j whose parent-2 city the child lacks; `|p2|` when there is none. */
  function FirstAbsent(r: seq<int>, p2: seq<int>, j: nat): (k: nat)
    requires j <= |p2|
    ensures j <= k <= |p2| && (k < |p2| ==> p2[k] !in r)
    ensures forall q | j <= q < k :: p2[q] in r
    decreases |p2| - j
  {
    if j == |p2| || p2[j] !in r then j else FirstAbsent(r, p2, j + 1)
  }

  /**
    The repair loop from position i on, as a function: a hole receives the
    first parent-2 city the child lacks at that moment, and stays a hole when
    it lacks none.
   */
  function PmxRepairFrom(r: seq<int>, p2: seq<int>, i: nat): (c: seq<int>)
    requires i <= |r|
    ensures |c| == |r|
    decreases |r| - i
  {
    if i == |r| then r
    else if r[i] != Empty then PmxRepairFrom(r, p2, i + 1)
    else
      var j := FirstAbsent(r, p2, 0);
      if j == |p2| then PmxRepairFrom(r, p2, i + 1) else PmxRepairFrom(r[i := p2[j]], p2, i + 1)
  }

  /**
    The PMX child as a function of the parents and the cut: the two fill
    passes, then the repair.
   */
  function PmxChild(p1: seq<int>, p2: seq<int>, start: int, end: int): (c: seq<int>)
    requires |p1| == |p2| && ValidCut(p1, start, end)
    ensures |c| == |p1|
  {
    PmxRepairFrom(seq(|p1|, k requires 0 <= k < |p1| => PmxFirstPass(p1, p2, start, end, k)), p2, 0)
  }

  /**
    The repair loop: every hole left by the fill loops receives the first city
    of parent 2 (in parent-2 order) that the child does not contain yet.
   */
  method PmxRepair(child: seq<int>, p1: seq<int>, p2: seq<int>, start: int, end: int) returns (r: seq<int>)
    requires Parents(p1, p2) && ValidCut(p1, start, end)
    requires |child| == |p1|
    requires forall k | 0 <= k < |p1| :: child[k] == PmxFirstPass(p1, p2, start, end, k)
    ensures IsPermutation(r, |p1|)
    ensures forall k | 0 <= k < |p1| && PmxFirstPass(p1, p2, start, end, k) != Empty ::
      r[k] == PmxFirstPass(p1, p2, start, end, k)
    ensures forall k | 0 <= k < |p1| && PmxFirstPass(p1, p2, start, end, k) == Empty ::
      r[k] in p2[start..end + 1]
    ensures r == PmxRepairFrom(child, p2, 0)
  {
    var n := |p1|;
    PmxFirstPassDistinct(p1, p2, start, end);
    r := child;
    var i := 0;
    while i < n
      invariant 0 <= i <= n
      invariant Repairing(r, p1, p2, start, end, i)
      invariant PmxRepairFrom(r, p2, i) == PmxRepairFrom(child, p2, 0)
    {
      r := RepairHole(r, p1, p2, start, end, i);
      i := i + 1;
    }
  }

  /**
    The repair loop before position i: holes only from i on, no city twice,
    every city of the first pass in place, and every filled hole holding a
    city of parent 2's segment.
   */
  predicate Repairing(r: seq<int>, p1: seq<int>, p2: seq<int>, start: int, end: int, i: int)
    requires Parents(p1, p2) && ValidCut(p1, start, end)
  {
    var n := |p1|;
    && |r| == n
    && (forall k | 0 <= k < n :: r[k] == Empty || 0 <= r[k] < n)
    && (forall a, b | 0 <= a < b < n && r[a] != Empty :: r[a] != r[b])
    && (forall k | 0 <= k < i && k < n :: r[k] != Empty)
    && (forall k | i <= k < n && 0 <= k :: r[k] == PmxFirstPass(p1, p2, start, end, k))
    && (forall k | 0 <= k < n && PmxFirstPass(p1, p2, start, end, k) != Empty ::
         r[k] == PmxFirstPass(p1, p2, start, end, k))
    && (forall k | 0 <= k < n && PmxFirstPass(p1, p2, start, end, k) == Empty && r[k] != Empty ::
         r[k] in p2[start..end + 1])
  }

  /** One round of the repair loop: fill position i if it is a hole. */
  method RepairHole(r: seq<int>, p1: seq<int>, p2: seq<int>, start: int, end: int, i: int) returns (r': seq<int>)
    requires Parents(p1, p2) && ValidCut(p1, start, end) && 0 <= i < |p1|
    requires Repairing(r, p1, p2, start, end, i)
    ensures Repairing(r', p1, p2, start, end, i + 1)
    ensures PmxRepairFrom(r', p2, i + 1) == PmxRepairFrom(r, p2, i)
  {
    var n := |p1|;
    r' := r;
    if r[i] == Empty {
      PermutationCovers(p2, n);
      MissingCity(r, n, i);
      var j := FirstUnused(r, p2, n);
      assert FirstAbsent(r, p2, 0) == j;
      PmxOutsideCovered(r, p1, p2, start, end);
      assert p2[j] == p2[start..end + 1][j - start];
      r' := r[i := p2[j]];
    }
  }

  /**
    The inner repair scan: the first position of parent 2 whose city the child
    does not contain yet. Some city is missing, so the scan stops inside parent 2.
   */
  method FirstUnused(r: seq<int>, p2: seq<int>, n: nat) returns (j: int)
    requires IsPermutation(p2, n)
    requires exists v :: 0 <= v < n && v !in r
    ensures 0 <= j < n && p2[j] !in r
    ensures forall j' | 0 <= j' < j :: p2[j'] in r
  {
    var v :| 0 <= v < n && v !in r;
    PermutationCovers(p2, n);
    assert v in p2;
    var m :| 0 <= m < n && p2[m] == v;
    j := 0;
    while j < n && Contains(r, p2[j])
      invariant 0 <= j <= m
      invariant forall j' | 0 <= j' < j :: p2[j'] in r
    {
      j := j + 1;
    }
  }

  /** After the fill loops every parent-2 city outside the cut is in the child. */
  lemma PmxOutsideCovered(r: seq<int>, p1: seq<int>, p2: seq<int>, start: int, end: int)
    requires Parents(p1, p2) && ValidCut(p1, start, end) && |r| == |p1|
    requires forall k | 0 <= k < |p1| && PmxFirstPass(p1, p2, start, end, k) != Empty ::
      r[k] == PmxFirstPass(p1, p2, start, end, k)
    ensures forall j | 0 <= j < |p1| && !(start <= j <= end) :: p2[j] in r
  {
    forall j | 0 <= j < |p1| && !(start <= j <= end)
      ensures p2[j] in r
    {
      if p2[j] in p1[start..end + 1] {
        var q :| 0 <= q < end + 1 - start && p1[start..end + 1][q] == p2[j];
        assert r[start + q] == PmxFirstPass(p1, p2, start, end, start + q);
      } else {
        assert r[j] == PmxFirstPass(p1, p2, start, end, j);
      }
    }
  }

  /**
    `pmxCrossover(parent1, parent2)` with the cut points drawn by the source
    (`start` from [0, n), `end` from [start, n)) passed in.
   */
  method PmxCrossover(p1: seq<int>, p2: seq<int>, start: int, end: int) returns (child: seq<int>)
    requires Parents(p1, p2) && ValidCut(p1, start, end)
    ensures IsPermutation(child, |p1|)
    ensures child[start..end + 1] == p1[start..end + 1]
    ensures forall i | 0 <= i < |p1| && !(start <= i <= end) && p2[i] !in p1[start..end + 1] ::
      child[i] == p2[i]
    ensures forall i | 0 <= i < |p1| && !(start <= i <= end) && p2[i] in p1[start..end + 1] ::
      child[i] in p2[start..end + 1]
    ensures child == PmxChild(p1, p2, start, end)
  {
    child := CopySegment(p1, start, end);
    child := PmxFillRange(child, p1, p2, start, end, 0, start);
    child := PmxFillRange(child, p1, p2, start, end, end + 1, |p1|);
    assert child == seq(|p1|, k requires 0 <= k < |p1| => PmxFirstPass(p1, p2, start, end, k));
    child := PmxRepair(child, p1, p2, start, end);
  }

  // ---------------------------------------------------------------------------
  // OX
  // ---------------------------------------------------------------------------

  /** The cities of `s` that do not occur in `excluded`, in their order in `s`. */
  function Without(s: seq<int>, excluded: seq<int>): (r: seq<int>)
    ensures |r| <= |s|
  {
    if |s| == 0 then []
    else Without(s[..|s| - 1], excluded) + (if s[|s| - 1] in excluded then [] else [s[|s| - 1]])
  }

  /** The filler holds exactly the cities of `s` outside `excluded`, and no city twice when `s` has none twice. */
  lemma {:induction false} WithoutFacts(s: seq<int>, excluded: seq<int>)
    ensures forall x :: x in Without(s, excluded) <==> x in s && x !in excluded
    ensures Distinct(s) ==> Distinct(Without(s, excluded))
  {
    if |s| > 0 {
      var init := s[..|s| - 1];
      var last := s[|s| - 1];
      var tail := if last in excluded then [] else [last];
      assert s == init + [last];
      WithoutFacts(init, excluded);
      if Distinct(s) {
        assert Distinct(init);
        assert last !in init;
        DistinctConcat(Without(init, excluded), tail);
      }
    }
  }

  /** With permutation parents, the filler holds exactly the n - |segment| other cities. */
  lemma WithoutLength(p2: seq<int>, seg: seq<int>, n: nat)
    requires IsPermutation(p2, n) && Distinct(seg) && InRange(seg, n)
    ensures |Without(p2, seg)| == n - |seg|
  {
    var f := Without(p2, seg);
    WithoutFacts(p2, seg);
    ElemsCard(f);
    ElemsCard(seg);
    RangeFacts(n);
    PermutationCovers(p2, n);
    assert Elems(f) == Range(n) - Elems(seg);
    assert Elems(seg) <= Range(n);
    assert |Range(n) - Elems(seg)| + |Elems(seg)| == |Range(n)|;
  }

  /**
    The order-crossover child: the parent-1 segment in place, and parent 2's
    remaining cities, in parent-2 order, filling the other positions from left
    to right.
   */
  function OxChild(p1: seq<int>, p2: seq<int>, start: int, end: int): (c: seq<int>)
    requires Parents(p1, p2) && ValidCut(p1, start, end)
    ensures |c| == |p1|
  {
    var seg := p1[start..end + 1];
    var filler := Without(p2, seg);
    WithoutLength(p2, seg, |p1|);
    filler[..start] + seg + filler[start..]
  }

  lemma OxChildIsPermutation(p1: seq<int>, p2: seq<int>, start: int, end: int)
    requires Parents(p1, p2) && ValidCut(p1, start, end)
    ensures IsPermutation(OxChild(p1, p2, start, end), |p1|)
  {
    var n := |p1|;
    var seg := p1[start..end + 1];
    var filler := Without(p2, seg);
    WithoutLength(p2, seg, n);
    WithoutFacts(p2, seg);
    var joined := filler + seg;
    DistinctConcat(filler, seg);
    forall k | 0 <= k < |joined|
      ensures 0 <= joined[k] < n
    {
      if k < |filler| {
        assert joined[k] == filler[k] && filler[k] in p2;
      } else {
        assert joined[k] == p1[start + k - |filler|];
      }
    }
    var child := OxChild(p1, p2, start, end);
    assert child == filler[..start] + seg + filler[start..];
    assert filler == filler[..start] + filler[start..];
    assert multiset(child) == multiset(joined);
    RearrangementPreservesPermutation(joined, child, n);
  }

  /**
    The shape of an OX child while it is being filled: the segment in place,
    the cities placed so far (`filler`) filling the other positions from the
    left, and holes after them.
   */
  predicate OxLayout(child: seq<int>, p1: seq<int>, start: int, end: int, filler: seq<int>)
    requires ValidCut(p1, start, end)
  {
    var len := end - start + 1;
    && |child| == |p1| && |filler| + len <= |p1|
    && (forall k | start <= k <= end :: child[k] == p1[k])
    && (forall k | 0 <= k < start :: child[k] == if k < |filler| then filler[k] else Empty)
    && (forall k | end < k < |p1| :: child[k] == if k - len < |filler| then filler[k - len] else Empty)
  }

  /** The write index of the source after `|filler|` cities have been placed. */
  function OxNextIndex(start: int, end: int, placed: int): int {
    if placed <= start then placed else placed + (end - start + 1)
  }

  /** A city of parent 2 that has not been scanned yet is in the child exactly when it is in the segment. */
  lemma OxContains(child: seq<int>, p1: seq<int>, p2: seq<int>, start: int, end: int, i: int)
    requires Parents(p1, p2) && ValidCut(p1, start, end) && 0 <= i < |p1|
    requires OxLayout(child, p1, start, end, Without(p2[..i], p1[start..end + 1]))
    ensures p2[i] in child <==> p2[i] in p1[start..end + 1]
  {
    var seg := p1[start..end + 1];
    var filler := Without(p2[..i], seg);
    WithoutFacts(p2[..i], seg);
    assert p2[i] !in p2[..i];
    forall k | 0 <= k < |child| && !(start <= k <= end)
      ensures child[k] != p2[i]
    {
      assert child[k] == Empty || child[k] in filler;
    }
    if p2[i] in child {
      var k :| 0 <= k < |child| && child[k] == p2[i];
      assert child[k] == seg[k - start];
    }
    if p2[i] in seg {
      var q :| 0 <= q < |seg| && seg[q] == p2[i];
      assert child[start + q] == p2[i];
    }
  }

  /**
    One placement of the OX fill loop: skip the write index over the segment,
    then write `city` there.
   */
  method OxPlace(child: seq<int>, p1: seq<int>, start: int, end: int, ghost filler: seq<int>, index: int, city: int)
    returns (r: seq<int>, next: int)
    requires ValidCut(p1, start, end)
    requires OxLayout(child, p1, start, end, filler)
    requires |filler| + 1 + (end - start + 1) <= |p1|
    requires index == OxNextIndex(start, end, |filler|)
    ensures OxLayout(r, p1, start, end, filler + [city])
    ensures next == OxNextIndex(start, end, |filler| + 1)
  {
    var currentIndex := index;
    while currentIndex >= start && currentIndex <= end
      invariant currentIndex == index || (|filler| == start && start <= currentIndex <= end + 1)
      decreases |p1| - currentIndex
    {
      currentIndex := currentIndex + 1;
    }
    r := child[currentIndex := city];
    next := currentIndex + 1;
  }

  /**
    `oxCrossover(parent1, parent2)` with its two raw draws `a`, `b` from
    [0, n), ordered as the source does. The write index skips over the segment
    and never passes the end of the child.
   */
  method OxCrossover(p1: seq<int>, p2: seq<int>, a: int, b: int) returns (child: seq<int>)
    requires Parents(p1, p2) && 0 <= a < |p1| && 0 <= b < |p1|
    ensures child == OxChild(p1, p2, if a > b then b else a, if a > b then a else b)
    ensures IsPermutation(child, |p1|)
  {
    var start, end := a, b;
    if start > end {
      start, end := end, start;
    }
    child := CopySegment(p1, start, end);
    assert OxLayout(child, p1, start, end, []);
    child := OxFill(child, p1, p2, start, end);
    OxChildIsPermutation(p1, p2, start, end);
  }

  /** The state of the OX fill loop after scanning the first i cities of parent 2. */
  predicate OxProgress(r: seq<int>, p1: seq<int>, p2: seq<int>, start: int, end: int,
                       i: int, filler: seq<int>, index: int)
    requires ValidCut(p1, start, end) && 0 <= i <= |p2|
  {
    && filler == Without(p2[..i], p1[start..end + 1])
    && OxLayout(r, p1, start, end, filler)
    && index == OxNextIndex(start, end, |filler|)
  }

  /**
    The fill loop of OX: scan parent 2 in order and write each city that the
    child lacks at the next free position outside the segment.
   */
  method OxFill(child: seq<int>, p1: seq<int>, p2: seq<int>, start: int, end: int) returns (r: seq<int>)
    requires Parents(p1, p2) && ValidCut(p1, start, end)
    requires OxLayout(child, p1, start, end, [])
    ensures r == OxChild(p1, p2, start, end)
  {
    var n := |p1|;
    r := child;
    ghost var filler: seq<int> := [];
    var currentIndex := 0;
    var i := 0;
    assert OxProgress(r, p1, p2, start, end, 0, filler, currentIndex);
    while i < n
      invariant 0 <= i <= n && OxProgress(r, p1, p2, start, end, i, filler, currentIndex)
    {
      r, currentIndex, filler := OxScan(r, p1, p2, start, end, filler, currentIndex, i);
      i := i + 1;
    }
    OxComplete(r, p1, p2, start, end, filler);
  }

  /** One iteration of the fill loop: parent 2's i-th city is placed unless the child has it. */
  method OxScan(child: seq<int>, p1: seq<int>, p2: seq<int>, start: int, end: int,
                ghost filler: seq<int>, index: int, i: int)
    returns (r: seq<int>, next: int, ghost filler': seq<int>)
    requires Parents(p1, p2) && ValidCut(p1, start, end) && 0 <= i < |p1|
    requires OxProgress(child, p1, p2, start, end, i, filler, index)
    ensures OxProgress(r, p1, p2, start, end, i + 1, filler', next)
  {
    var seg := p1[start..end + 1];
    WithoutStep(p2, i, seg);
    OxContains(child, p1, p2, start, end, i);
    if !Contains(child, p2[i]) {
      OxRoom(p1, p2, start, end, i);
      r, next := OxPlace(child, p1, start, end, filler, index, p2[i]);
      filler' := filler + [p2[i]];
    } else {
      r, next, filler' := child, index, filler;
    }
  }

  /** A city still to be placed fits: the placed ones, it, and the segment are distinct cities. */
  lemma OxRoom(p1: seq<int>, p2: seq<int>, start: int, end: int, i: int)
    requires Parents(p1, p2) && ValidCut(p1, start, end) && 0 <= i < |p1|
    requires p2[i] !in p1[start..end + 1]
    ensures |Without(p2[..i], p1[start..end + 1])| + 1 + (end - start + 1) <= |p1|
  {
    var n := |p1|;
    var seg := p1[start..end + 1];
    var filler := Without(p2[..i], seg);
    assert p2[i] !in p2[..i];
    assert Distinct(p2[..i]);
    WithoutFacts(p2[..i], seg);
    DistinctConcat(filler, [p2[i]]);
    var placed := filler + [p2[i]];
    DistinctConcat(placed, seg);
    forall k | 0 <= k < |placed + seg|
      ensures 0 <= (placed + seg)[k] < n
    {
      if k < |filler| {
        assert filler[k] in filler;
        assert filler[k] in p2[..i];
      } else if k > |filler| {
        assert (placed + seg)[k] == p1[start + k - |placed|];
      }
    }
    DistinctBound(placed + seg, n);
  }

  /** Scanning one more city of parent 2 extends the filler by that city unless it is excluded. */
  lemma WithoutStep(s: seq<int>, i: int, excluded: seq<int>)
    requires 0 <= i < |s|
    ensures Without(s[..i + 1], excluded)
      == Without(s[..i], excluded) + (if s[i] in excluded then [] else [s[i]])
  {
    assert s[..i + 1][..i] == s[..i];
  }

  /** Once all of parent 2 is scanned, the layout is the OX child. */
  lemma OxComplete(child: seq<int>, p1: seq<int>, p2: seq<int>, start: int, end: int, filler: seq<int>)
    requires Parents(p1, p2) && ValidCut(p1, start, end)
    requires OxProgress(child, p1, p2, start, end, |p1|, filler, OxNextIndex(start, end, |filler|))
    ensures child == OxChild(p1, p2, start, end)
  {
    var seg := p1[start..end + 1];
    assert p2[..|p1|] == p2;
    WithoutLength(p2, seg, |p1|);
    var target := filler[..start] + seg + filler[start..];
    forall k | 0 <= k < |child|
      ensures child[k] == target[k]
    {
      if start <= k <= end {
        assert target[k] == seg[k - start];
      } else if end < k {
        assert target[k] == filler[k - |seg|];
      }
    }
  }

  // ---------------------------------------------------------------------------
  // Mutation
  // ---------------------------------------------------------------------------

  /**
    `mutateSwap(tour)`: `index1` drawn once, the second index redrawn until it
    differs, then the two entries are exchanged.
   */
  function MutateSwap(tour: seq<int>, index1: int, redraws: seq<int>): (r: seq<int>)
    requires 0 <= index1 < |tour|
    requires forall k | 0 <= k < |redraws| :: 0 <= redraws[k] < |tour|
    requires exists k :: 0 <= k < |redraws| && redraws[k] != index1
    ensures var index2 := redraws[FirstDifferent(redraws, index1)];
      && index1 != index2
      && |r| == |tour| && r[index1] == tour[index2] && r[index2] == tour[index1]
      && (forall k | 0 <= k < |tour| && k != index1 && k != index2 :: r[k] == tour[k])
    ensures IsRearrangement(tour, r)
  {
    Swap(tour, index1, redraws[FirstDifferent(redraws, index1)])
  }

  lemma MutateSwapPreservesPermutation(tour: seq<int>, index1: int, redraws: seq<int>, n: int)
    requires 0 <= index1 < |tour|
    requires forall k | 0 <= k < |redraws| :: 0 <= redraws[k] < |tour|
    requires exists k :: 0 <= k < |redraws| && redraws[k] != index1
    requires IsPermutation(tour, n)
    ensures IsPermutation(MutateSwap(tour, index1, redraws), n)
  {
    RearrangementPreservesPermutation(tour, MutateSwap(tour, index1, redraws), n);
  }
}

=== FILE: genetic.dfy ===
/**
  The generational genetic algorithm of the island solver: tournament
  selection, PMX or OX crossover (one chosen per child), optional swap
  mutation, and a best-so-far tour tracked over every child ever produced.
  The random choices of one child are bundled in `ChildDraws`; coin flips
  against 0.5 and against the mutation rate become the chosen variant.
 */
module Genetic {
  import opened Permutations
  import opened Tours
  import opened Moves
  import opened Shuffle
  import opened Crossover

  /** Number of draws in one tournament. */
  const TournamentSize: nat := 5

  /** The crossover picked for a child, with its cut draws. */
  datatype Crossing =
    | Pmx(start: int, offset: int)    // start from [0, n), end = start + offset with offset from [0, n - start)
    | Ox(a: int, b: int)              // two raw draws from [0, n)

  datatype Mutation = NoMutation | Mutate(index1: int, redraws: seq<int>)

  datatype ChildDraws = ChildDraws(tournament1: seq<int>, tournament2: seq<int>, crossing: Crossing, mutation: Mutation)

  predicate ValidTournament(draws: seq<int>, populationSize: nat) {
    |draws| == TournamentSize && forall k | 0 <= k < |draws| :: 0 <= draws[k] < populationSize
  }

  predicate ValidChildDraws(cd: ChildDraws, populationSize: nat, n: nat) {
    && ValidTournament(cd.tournament1, populationSize)
    && ValidTournament(cd.tournament2, populationSize)
    && (match cd.crossing
        case Pmx(start, offset) => 0 <= start < n && 0 <= offset < n - start
        case Ox(a, b) => 0 <= a < n && 0 <= b < n)
    && (match cd.mutation
        case NoMutation => true
        case Mutate(index1, redraws) =>
          && 0 <= index1 < n
          && (forall k | 0 <= k < |redraws| :: 0 <= redraws[k] < n)
          && (exists k :: 0 <= k < |redraws| && redraws[k] != index1))
  }

  predicate Population(pop: seq<seq<int>>, n: nat) {
    forall k | 0 <= k < |pop| :: IsPermutation(pop[k], n)
  }

  /**
    Position `at` holds a shortest tour of `tours`, and no earlier tour is as
    short: the tour a strict `<` running minimum settles on.
   */
  predicate EarliestShortest(d: Distance, tours: seq<seq<int>>, at: int)
    requires forall k | 0 <= k < |tours| :: |tours[k]| > 0
  {
    && 0 <= at < |tours|
    && (forall k | 0 <= k < |tours| :: TourLength(d, tours[at]) <= TourLength(d, tours[k]))
    && (forall k | 0 <= k < at :: TourLength(d, tours[k]) > TourLength(d, tours[at]))
  }

  /**
    Appending one tour to a list with a known earliest shortest tour: the new
    tour takes over exactly when it is strictly shorter.
   */
  lemma EarliestShortestStep(d: Distance, tours: seq<seq<int>>, at: int, t: seq<int>)
    requires forall k | 0 <= k < |tours| :: |tours[k]| > 0
    requires |t| > 0
    requires EarliestShortest(d, tours, at)
    ensures TourLength(d, t) < TourLength(d, tours[at]) ==> EarliestShortest(d, tours + [t], |tours|)
    ensures TourLength(d, t) >= TourLength(d, tours[at]) ==> EarliestShortest(d, tours + [t], at)
  {
    var ext := tours + [t];
    forall k | 0 <= k < |tours|
      ensures ext[k] == tours[k]
    {
    }
  }

  /**
    The winner of a tournament over its first k draws: the first drawn
    individual, replaced by a later draw only when that tour is strictly
    shorter.
   */
  function Winner(d: Distance, pop: seq<seq<int>>, draws: seq<int>, k: nat): (w: int)
    requires forall q | 0 <= q < |pop| :: |pop[q]| > 0
    requires 1 <= k <= |draws| && forall q | 0 <= q < |draws| :: 0 <= draws[q] < |pop|
    ensures 0 <= w < |pop|
  {
    if k == 1 then draws[0]
    else
      var w := Winner(d, pop, draws, k - 1);
      if TourLength(d, pop[draws[k - 1]]) < TourLength(d, pop[w]) then draws[k - 1] else w
  }

  /** The winner is the earliest drawn individual of least length. */
  lemma {:induction false} WinnerIsEarliestShortest(d: Distance, pop: seq<seq<int>>, draws: seq<int>, k: nat)
    requires forall q | 0 <= q < |pop| :: |pop[q]| > 0
    requires 1 <= k <= |draws| && forall q | 0 <= q < |draws| :: 0 <= draws[q] < |pop|
    ensures var w := Winner(d, pop, draws, k);
      && (exists q :: 0 <= q < k && draws[q] == w && forall j | 0 <= j < q :: TourLength(d, pop[draws[j]]) > TourLength(d, pop[w]))
      && forall q | 0 <= q < k :: TourLength(d, pop[w]) <= TourLength(d, pop[draws[q]])
  {
    var w := Winner(d, pop, draws, k);
    if k == 1 {
      assert draws[0] == w;
    } else {
      WinnerIsEarliestShortest(d, pop, draws, k - 1);
      var v := Winner(d, pop, draws, k - 1);
      var q :| 0 <= q < k - 1 && draws[q] == v && forall j | 0 <= j < q :: TourLength(d, pop[draws[j]]) > TourLength(d, pop[v]);
      if w != v {
        assert draws[k - 1] == w;
      } else {
        assert draws[q] == w;
      }
    }
  }

  /**
    `selectParent`: the first draw is the incumbent, and each later draw
    replaces it only when its tour is strictly shorter. Returns the index of
    the selected individual, the tournament's winner.
   */
  method SelectParent(d: Distance, pop: seq<seq<int>>, draws: seq<int>) returns (best: int)
    requires forall k | 0 <= k < |pop| :: |pop[k]| > 0
    requires ValidTournament(draws, |pop|)
    ensures best == Winner(d, pop, draws, TournamentSize)
    ensures exists k :: (0 <= k < |draws| && draws[k] == best
      && forall j | 0 <= j < k :: TourLength(d, pop[draws[j]]) > TourLength(d, pop[best]))
    ensures 0 <= best < |pop|
    ensures forall k | 0 <= k < |draws| :: TourLength(d, pop[best]) <= TourLength(d, pop[draws[k]])
  {
    best := draws[0];
    var bestFitness := TotalDistance(d, pop[best]);
    var i := 1;
    while i < TournamentSize
      invariant 1 <= i <= TournamentSize
      invariant best == Winner(d, pop, draws, i)
      invariant bestFitness == TourLength(d, pop[best])
    {
      var index := draws[i];
      var fitness := TotalDistance(d, pop[index]);
      if fitness < bestFitness {
        best, bestFitness := index, fitness;
      }
      i := i + 1;
    }
    WinnerIsEarliestShortest(d, pop, draws, TournamentSize);
  }

  /** Two parents crossed with the drawn operator and cut. */
  function Crossed(p1: seq<int>, p2: seq<int>, crossing: Crossing): (c: seq<int>)
    requires Parents(p1, p2)
    requires match crossing
      case Pmx(start, offset) => 0 <= start < |p1| && 0 <= offset < |p1| - start
      case Ox(a, b) => 0 <= a < |p1| && 0 <= b < |p1|
    ensures |c| == |p1|
  {
    match crossing
    case Pmx(start, offset) => PmxChild(p1, p2, start, start + offset)
    case Ox(a, b) => OxChild(p1, p2, if a > b then b else a, if a > b then a else b)
  }

  /** A crossed child with the drawn mutation applied, if any. */
  function Mutated(c: seq<int>, mutation: Mutation): seq<int>
    requires match mutation
      case NoMutation => true
      case Mutate(index1, redraws) =>
        && 0 <= index1 < |c|
        && (forall k | 0 <= k < |redraws| :: 0 <= redraws[k] < |c|)
        && (exists k :: 0 <= k < |redraws| && redraws[k] != index1)
  {
    match mutation
    case NoMutation => c
    case Mutate(index1, redraws) => MutateSwap(c, index1, redraws)
  }

  /**
    The child bred from `pop` with the draws `cd`: the crossover of the two
    tournament winners, then the mutation if one was drawn.
   */
  function Child(d: Distance, pop: seq<seq<int>>, n: nat, cd: ChildDraws): seq<int>
    requires n >= 1 && Population(pop, n) && ValidChildDraws(cd, |pop|, n)
  {
    var p1 := pop[Winner(d, pop, cd.tournament1, TournamentSize)];
    var p2 := pop[Winner(d, pop, cd.tournament2, TournamentSize)];
    Mutated(Crossed(p1, p2, cd.crossing), cd.mutation)
  }

  /** One child of the next generation: two tournaments, a crossover, maybe a mutation. */
  method Breed(d: Distance, pop: seq<seq<int>>, n: nat, cd: ChildDraws) returns (child: seq<int>)
    requires n >= 1 && Population(pop, n)
    requires ValidChildDraws(cd, |pop|, n)
    ensures IsPermutation(child, n)
    ensures child == Child(d, pop, n, cd)
  {
    var i1 := SelectParent(d, pop, cd.tournament1);
    var i2 := SelectParent(d, pop, cd.tournament2);
    child := Cross(pop[i1], pop[i2], cd.crossing);
    child := Mutate(child, n, cd.mutation);
  }

  /** The crossover step of `geneticAlgorithm`: PMX or OX with the drawn cut. */
  method Cross(parent1: seq<int>, parent2: seq<int>, crossing: Crossing) returns (child: seq<int>)
    requires Parents(parent1, parent2)
    requires match crossing
      case Pmx(start, offset) => 0 <= start < |parent1| && 0 <= offset < |parent1| - start
      case Ox(a, b) => 0 <= a < |parent1| && 0 <= b < |parent1|
    ensures IsPermutation(child, |parent1|) && child == Crossed(parent1, parent2, crossing)
  {
    match crossing {
      case Pmx(start, offset) =>
        child := PmxCrossover(parent1, parent2, start, offset + start);
      case Ox(a, b) =>
        child := OxCrossover(parent1, parent2, a, b);
    }
  }

  /** The mutation step of `geneticAlgorithm`: a swap when one was drawn. */
  method Mutate(child: seq<int>, n: nat, mutation: Mutation) returns (r: seq<int>)
    requires IsPermutation(child, n)
    requires match mutation
      case NoMutation => true
      case Mutate(index1, redraws) =>
        && 0 <= index1 < |child|
        && (forall k | 0 <= k < |redraws| :: 0 <= redraws[k] < |child|)
        && (exists k :: 0 <= k < |redraws| && redraws[k] != index1)
    ensures IsPermutation(r, n) && r == Mutated(child, mutation)
  {
    r := child;
    match mutation {
      case NoMutation =>
      case Mutate(index1, redraws) =>
        MutateSwapPreservesPermutation(child, index1, redraws, n);
        r := MutateSwap(child, index1, redraws);
    }
  }

  /** Every slot's draws of one generation are valid for a population of the given size. */
  predicate ValidGenerationDraws(gdraws: seq<ChildDraws>, populationSize: nat, n: nat) {
    forall i | 0 <= i < |gdraws| :: ValidChildDraws(gdraws[i], populationSize, n)
  }

  /**
    `Child` as a total breeding function, the form the generation loop is
    stated in; a population or draws outside its domain give no tour.
   */
  function Breeder(d: Distance, n: nat): (seq<seq<int>>, ChildDraws) -> seq<int> {
    (pop: seq<seq<int>>, cd: ChildDraws) =>
      if n >= 1 && Population(pop, n) && ValidChildDraws(cd, |pop|, n) then Child(d, pop, n, cd) else []
  }

  /** The generation bred from `pop` by `breed`: slot i is the child of the draws `gdraws[i]`. */
  function NextGeneration(breed: (seq<seq<int>>, ChildDraws) -> seq<int>, pop: seq<seq<int>>, gdraws: seq<ChildDraws>): (r: seq<seq<int>>)
    ensures |r| == |gdraws| && forall i | 0 <= i < |r| :: r[i] == breed(pop, gdraws[i])
  {
    seq(|gdraws|, i requires 0 <= i < |gdraws| => breed(pop, gdraws[i]))
  }

  /** The shuffled initial population: individual k is the identity shuffled with `initial[k]`. */
  function InitialPopulation(n: nat, initial: seq<seq<int>>): (pop: seq<seq<int>>)
    requires forall k | 0 <= k < |initial| :: ValidShuffleDraws(n, initial[k])
    ensures |pop| == |initial| && Population(pop, n)
    ensures forall k | 0 <= k < |pop| :: pop[k] == RandomTour(n, initial[k])
  {
    seq(|initial|, k requires 0 <= k < |initial| => RandomTour(n, initial[k]))
  }

  /** The generations one after the other. */
  function Flatten(gens: seq<seq<seq<int>>>): (r: seq<seq<int>>)
  {
    if |gens| == 0 then [] else Flatten(gens[..|gens| - 1]) + gens[|gens| - 1]
  }

  /**
    The random input of one run of the genetic algorithm: shuffle draws for
    every initial individual and child draws for every slot of every generation.
   */
  predicate ValidRunDraws(n: nat, populationSize: nat, generations: int,
                          initial: seq<seq<int>>, draws: seq<seq<ChildDraws>>) {
    && |initial| == populationSize
    && (forall k | 0 <= k < |initial| :: ValidShuffleDraws(n, initial[k]))
    && |draws| == (if generations < 0 then 0 else generations)
    && (forall g | 0 <= g < |draws| :: |draws[g]| == populationSize)
    && (forall g, i | 0 <= g < |draws| && 0 <= i < |draws[g]| :: ValidChildDraws(draws[g][i], populationSize, n))
  }

  /**
    The populations bred from `pop` by `breed`, one generation per entry of
    `draws`, `pop` itself first.
   */
  function Evolve(breed: (seq<seq<int>>, ChildDraws) -> seq<int>, pop: seq<seq<int>>,
                  draws: seq<seq<ChildDraws>>): (gens: seq<seq<seq<int>>>)
    ensures |gens| == |draws| + 1 && gens[0] == pop
    decreases |draws|
  {
    if |draws| == 0 then [pop]
    else
      var prev := Evolve(breed, pop, draws[..|draws| - 1]);
      prev + [NextGeneration(breed, prev[|draws| - 1], draws[|draws| - 1])]
  }

  /** The populations of the first `gen` generations are the ones `Evolve` breeds from the initial population. */
  lemma {:induction false} GenerationsAreEvolve(breed: (seq<seq<int>>, ChildDraws) -> seq<int>, n: nat,
                                                populationSize: nat, initial: seq<seq<int>>,
                                                draws: seq<seq<ChildDraws>>, gen: nat, gens: seq<seq<seq<int>>>)
    requires Generations(breed, n, populationSize, initial, draws, gen, gens)
    ensures gens == Evolve(breed, InitialPopulation(n, initial), draws[..gen])
  {
    if gen > 0 {
      var prev := gens[..gen];
      assert Generations(breed, n, populationSize, initial, draws, gen - 1, prev) by {
        forall g | 0 <= g < gen - 1
          ensures prev[g + 1] == NextGeneration(breed, prev[g], draws[g])
        {
          assert prev[g + 1] == gens[g + 1] && prev[g] == gens[g];
        }
      }
      GenerationsAreEvolve(breed, n, populationSize, initial, draws, gen - 1, prev);
      assert draws[..gen][..gen - 1] == draws[..gen - 1];
      assert gens == prev + [NextGeneration(breed, prev[gen - 1], draws[gen - 1])];
    }
  }

  /** The position a strict `<` running minimum over `tours` settles on. */
  function ShortestAt(d: Distance, tours: seq<seq<int>>): (at: int)
    requires |tours| > 0 && forall k | 0 <= k < |tours| :: |tours[k]| > 0
    ensures EarliestShortest(d, tours, at)
  {
    if |tours| == 1 then 0
    else
      var front, last := tours[..|tours| - 1], tours[|tours| - 1];
      var at := ShortestAt(d, front);
      EarliestShortestStep(d, front, at, last);
      assert front + [last] == tours;
      if TourLength(d, last) < TourLength(d, front[at]) then |tours| - 1 else at
  }

  /** At most one position holds the earliest shortest tour. */
  lemma EarliestShortestUnique(d: Distance, tours: seq<seq<int>>, a: int, b: int)
    requires forall k | 0 <= k < |tours| :: |tours[k]| > 0
    requires EarliestShortest(d, tours, a) && EarliestShortest(d, tours, b)
    ensures a == b
  {
    assert TourLength(d, tours[a]) == TourLength(d, tours[b]);
  }

  /**
    The tour `geneticAlgorithm` returns for the given random input: the first
    shortest child over all generations bred by `Child`, or `None` (the
    source's `null`) when no child is bred.
   */
  function RunResult(d: Distance, n: nat, populationSize: nat, generations: int,
                     initial: seq<seq<int>>, draws: seq<seq<ChildDraws>>): (r: Option<seq<int>>)
    requires ValidRunDraws(n, populationSize, generations, initial, draws)
    ensures r.Some? ==> |r.value| > 0
  {
    var produced := Flatten(Evolve(Breeder(d, n), InitialPopulation(n, initial), draws)[1..]);
    if |produced| > 0 && forall k | 0 <= k < |produced| :: |produced[k]| > 0 then
      Some(produced[ShortestAt(d, produced)])
    else
      None
  }

  /** What the generation loop computes is `RunResult`. */
  lemma RunResultIs(d: Distance, n: nat, populationSize: nat, generations: int,
                    initial: seq<seq<int>>, draws: seq<seq<ChildDraws>>, gens: seq<seq<seq<int>>>,
                    produced: seq<seq<int>>, best: Option<seq<int>>, bestAt: int)
    requires n >= 1 && ValidRunDraws(n, populationSize, generations, initial, draws)
    requires Generations(Breeder(d, n), n, populationSize, initial, draws, |draws|, gens)
    requires produced == Flatten(gens[1..]) && |produced| == populationSize * |draws| && Population(produced, n)
    requires best.None? <==> populationSize == 0 || generations <= 0
    requires best.Some? ==> EarliestShortest(d, produced, bestAt) && best.value == produced[bestAt]
    ensures best == RunResult(d, n, populationSize, generations, initial, draws)
  {
    GenerationsAreEvolve(Breeder(d, n), n, populationSize, initial, draws, |draws|, gens);
    assert draws[..|draws|] == draws;
    if best.Some? {
      EarliestShortestUnique(d, produced, bestAt, ShortestAt(d, produced));
    } else {
      assert |produced| == 0;
    }
  }

  /**
    `geneticAlgorithm`: a shuffled initial population, then `generations`
    rounds in which every slot of the new population is bred from the old one.
    `gens` are the populations, the initial one first, each bred from the one
    before; `produced` lists the children in the order they were made. The
    result is the first child of least length; no child at all (zero
    population or zero generations) gives `None`, the source's `null`.
   */
  method GeneticAlgorithm(d: Distance, n: nat, populationSize: nat, generations: int,
                          initial: seq<seq<int>>, draws: seq<seq<ChildDraws>>)
    returns (best: Option<seq<int>>, ghost gens: seq<seq<seq<int>>>, ghost produced: seq<seq<int>>, ghost bestAt: int)
    requires n >= 1
    requires ValidRunDraws(n, populationSize, generations, initial, draws)
    ensures |gens| == |draws| + 1 && gens[0] == InitialPopulation(n, initial)
    ensures forall g | 0 <= g < |gens| :: |gens[g]| == populationSize && Population(gens[g], n)
    ensures forall g | 0 <= g < |draws| :: gens[g + 1] == NextGeneration(Breeder(d, n), gens[g], draws[g])
    ensures produced == Flatten(gens[1..])
    ensures |produced| == populationSize * |draws| && Population(produced, n)
    ensures best.None? <==> populationSize == 0 || generations <= 0
    ensures best.Some? ==> EarliestShortest(d, produced, bestAt) && best.value == produced[bestAt]
    ensures best == RunResult(d, n, populationSize, generations, initial, draws)
  {
    var population := ShufflePopulation(n, populationSize, initial);
    var bestDistance;
    best, bestDistance, gens, produced, bestAt := Evolution(d, n, populationSize, generations, initial, draws, population);
    RunResultIs(d, n, populationSize, generations, initial, draws, gens, produced, best, bestAt);
  }

  /** Breeding one more generation appends its children to the list of children. */
  lemma FlattenSnoc(gens: seq<seq<seq<int>>>, next: seq<seq<int>>)
    requires |gens| >= 1
    ensures Flatten((gens + [next])[1..]) == Flatten(gens[1..]) + next
  {
    assert (gens + [next])[1..] == gens[1..] + [next];
  }

  /** The initial population: `populationSize` shuffled copies of the identity. */
  method ShufflePopulation(n: nat, populationSize: nat, initial: seq<seq<int>>) returns (population: seq<seq<int>>)
    requires |initial| == populationSize && forall k | 0 <= k < |initial| :: ValidShuffleDraws(n, initial[k])
    ensures population == InitialPopulation(n, initial)
  {
    population := [];
    var k := 0;
    while k < populationSize
      invariant 0 <= k <= populationSize && |population| == k
      invariant population == InitialPopulation(n, initial[..k])
    {
      var tour := RandomPermutation(n, initial[k]);
      population := population + [tour];
      k := k + 1;
    }
    assert initial[..k] == initial;
  }

  /** The generation loop of `geneticAlgorithm`, from the initial population. */
  method Evolution(d: Distance, n: nat, populationSize: nat, generations: int,
                   initial: seq<seq<int>>, draws: seq<seq<ChildDraws>>, population: seq<seq<int>>)
    returns (best: Option<seq<int>>, bestDistance: Cost, ghost gens: seq<seq<seq<int>>>,
             ghost produced: seq<seq<int>>, ghost bestAt: int)
    requires n >= 1
    requires ValidRunDraws(n, populationSize, generations, initial, draws)
    requires population == InitialPopulation(n, initial)
    ensures Evolving(d, n, populationSize, initial, draws, |draws|, gens, produced, best, bestDistance, bestAt)
  {
    var current := population;
    bestDistance := Infinite;
    best, produced, bestAt := None, [], 0;
    gens := [current];
    var gen := 0;
    while gen < generations
      invariant 0 <= gen <= |draws| && (gen > 0 ==> gen <= generations)
      invariant Evolving(d, n, populationSize, initial, draws, gen, gens, produced, best, bestDistance, bestAt)
      invariant current == gens[gen]
    {
      current, gens, produced, best, bestDistance, bestAt :=
        GenerationRound(d, n, populationSize, generations, initial, draws, gen, current, gens, produced, best, bestDistance, bestAt);
      gen := gen + 1;
    }
  }

  /**
    The generation loop before round `gen`: the populations so far, the
    children bred so far in order, and the best child among them.
   */
  ghost predicate Evolving(d: Distance, n: nat, populationSize: nat, initial: seq<seq<int>>, draws: seq<seq<ChildDraws>>,
                           gen: nat, gens: seq<seq<seq<int>>>, produced: seq<seq<int>>,
                           best: Option<seq<int>>, bestDistance: Cost, bestAt: int)
  {
    && n >= 1
    && Generations(Breeder(d, n), n, populationSize, initial, draws, gen, gens)
    && produced == Flatten(gens[1..])
    && |produced| == populationSize * gen && Population(produced, n)
    && Best(d, produced, best, bestDistance, bestAt)
  }

  /** One round of the generation loop. */
  method GenerationRound(d: Distance, n: nat, populationSize: nat, generations: int,
                         initial: seq<seq<int>>, draws: seq<seq<ChildDraws>>, gen: nat, current: seq<seq<int>>,
                         ghost gens: seq<seq<seq<int>>>, ghost produced: seq<seq<int>>,
                         best: Option<seq<int>>, bestDistance: Cost, ghost bestAt: int)
    returns (current': seq<seq<int>>, ghost gens': seq<seq<seq<int>>>, ghost produced': seq<seq<int>>,
             best': Option<seq<int>>, bestDistance': Cost, ghost bestAt': int)
    requires ValidRunDraws(n, populationSize, generations, initial, draws) && gen < |draws|
    requires Evolving(d, n, populationSize, initial, draws, gen, gens, produced, best, bestDistance, bestAt)
    requires current == gens[gen]
    ensures Evolving(d, n, populationSize, initial, draws, gen + 1, gens', produced', best', bestDistance', bestAt')
    ensures current' == gens'[gen + 1]
  {
    current', produced', best', bestDistance', bestAt' :=
      RunGeneration(d, n, current, draws[gen], produced, best, bestDistance, bestAt);
    GenerationsStep(Breeder(d, n), n, populationSize, initial, draws, gen, gens, current');
    FlattenSnoc(gens, current');
    assert populationSize * gen + populationSize == populationSize * (gen + 1);
    gens' := gens + [current'];
  }

  /**
    The populations of the first `gen` generations: the initial one, each
    later one bred by `breed` from the one before it.
   */
  ghost predicate Generations(breed: (seq<seq<int>>, ChildDraws) -> seq<int>, n: nat, populationSize: nat,
                              initial: seq<seq<int>>, draws: seq<seq<ChildDraws>>, gen: nat, gens: seq<seq<seq<int>>>)
  {
    && (forall k | 0 <= k < |initial| :: ValidShuffleDraws(n, initial[k]))
    && gen <= |draws| && |gens| == gen + 1 && gens[0] == InitialPopulation(n, initial)
    && (forall g | 0 <= g < |gens| :: |gens[g]| == populationSize && Population(gens[g], n))
    && (forall g | 0 <= g < gen :: gens[g + 1] == NextGeneration(breed, gens[g], draws[g]))
  }

  /** Appending the next generation extends the populations. */
  lemma GenerationsStep(breed: (seq<seq<int>>, ChildDraws) -> seq<int>, n: nat, populationSize: nat,
                        initial: seq<seq<int>>, draws: seq<seq<ChildDraws>>, gen: nat, gens: seq<seq<seq<int>>>,
                        next: seq<seq<int>>)
    requires Generations(breed, n, populationSize, initial, draws, gen, gens) && gen < |draws|
    requires next == NextGeneration(breed, gens[gen], draws[gen]) && |next| == populationSize && Population(next, n)
    ensures Generations(breed, n, populationSize, initial, draws, gen + 1, gens + [next])
  {
    var gens' := gens + [next];
    assert gens'[gen + 1] == next && gens'[gen] == gens[gen];
    forall g | 0 <= g < |gens'|
      ensures |gens'[g]| == populationSize && Population(gens'[g], n)
    {
      if g < |gens| {
        assert gens'[g] == gens[g];
      }
    }
    forall g | 0 <= g < gen + 1
      ensures gens'[g + 1] == NextGeneration(breed, gens'[g], draws[g])
    {
      if g < gen {
        assert gens'[g] == gens[g] && gens'[g + 1] == gens[g + 1];
      }
    }
  }

  /** The running best over the children `produced`: none before the first child, then the earliest shortest one. */
  predicate Best(d: Distance, produced: seq<seq<int>>, best: Option<seq<int>>, bestDistance: Cost, bestAt: int)
    requires forall k | 0 <= k < |produced| :: |produced[k]| > 0
  {
    && (best.None? <==> |produced| == 0)
    && (best.None? ==> bestDistance == Infinite)
    && (best.Some? ==>
          EarliestShortest(d, produced, bestAt) && best.value == produced[bestAt]
          && bestDistance == Finite(TourLength(d, best.value)))
  }

  /** The inner loop of one generation: breed every slot and track the best child so far. */
  method RunGeneration(d: Distance, n: nat, population: seq<seq<int>>, gdraws: seq<ChildDraws>,
                       ghost produced: seq<seq<int>>, best: Option<seq<int>>, bestDistance: Cost, ghost bestAt: int)
    returns (newPopulation: seq<seq<int>>, ghost produced': seq<seq<int>>, best': Option<seq<int>>,
             bestDistance': Cost, ghost bestAt': int)
    requires n >= 1 && Population(population, n) && |gdraws| == |population|
    requires ValidGenerationDraws(gdraws, |population|, n)
    requires Population(produced, n) && Best(d, produced, best, bestDistance, bestAt)
    ensures newPopulation == NextGeneration(Breeder(d, n), population, gdraws) && Population(newPopulation, n)
    ensures produced' == produced + newPopulation && Population(produced', n)
    ensures Best(d, produced', best', bestDistance', bestAt')
  {
    newPopulation, produced', best', bestDistance', bestAt' := [], produced, best, bestDistance, bestAt;
    var i := 0;
    while i < |population|
      invariant 0 <= i <= |population|
      invariant Breeding(Breeder(d, n), n, population, gdraws, i, newPopulation, produced, produced')
      invariant Best(d, produced', best', bestDistance', bestAt')
    {
      newPopulation, produced', best', bestDistance', bestAt' :=
        BreedSlot(d, n, population, gdraws, i, newPopulation, produced, produced', best', bestDistance', bestAt');
      i := i + 1;
    }
  }

  /**
    The inner loop before slot i: the new population holds the children of
    the first i slots' draws, and they have been appended to `produced`.
   */
  predicate Breeding(breed: (seq<seq<int>>, ChildDraws) -> seq<int>, n: nat, population: seq<seq<int>>,
                     gdraws: seq<ChildDraws>, i: int, newPopulation: seq<seq<int>>,
                     produced: seq<seq<int>>, produced': seq<seq<int>>) {
    && 0 <= i <= |gdraws| && |newPopulation| == i && Population(newPopulation, n)
    && (forall q | 0 <= q < i :: newPopulation[q] == breed(population, gdraws[q]))
    && produced' == produced + newPopulation && Population(produced', n)
  }

  /** One more child extends the inner loop's state. */
  lemma BreedingStep(breed: (seq<seq<int>>, ChildDraws) -> seq<int>, n: nat, population: seq<seq<int>>,
                     gdraws: seq<ChildDraws>, i: int, newPopulation: seq<seq<int>>,
                     produced: seq<seq<int>>, produced': seq<seq<int>>, child: seq<int>)
    requires Breeding(breed, n, population, gdraws, i, newPopulation, produced, produced') && i < |gdraws|
    requires child == breed(population, gdraws[i]) && IsPermutation(child, n)
    ensures Breeding(breed, n, population, gdraws, i + 1, newPopulation + [child], produced, produced' + [child])
  {
    var next := newPopulation + [child];
    forall q | 0 <= q < i + 1
      ensures next[q] == breed(population, gdraws[q]) && IsPermutation(next[q], n)
    {
      if q < i {
        assert next[q] == newPopulation[q];
      }
    }
    assert produced' + [child] == produced + next;
    forall k | 0 <= k < |produced' + [child]|
      ensures IsPermutation((produced' + [child])[k], n)
    {
      if k < |produced'| {
        assert (produced' + [child])[k] == produced'[k];
      }
    }
  }

  /** One slot of the inner loop: breed a child and keep it as best if it is strictly shorter. */
  method BreedSlot(d: Distance, n: nat, population: seq<seq<int>>, gdraws: seq<ChildDraws>, i: int,
                   newPopulation: seq<seq<int>>, ghost produced: seq<seq<int>>, ghost produced': seq<seq<int>>,
                   best: Option<seq<int>>, bestDistance: Cost, ghost bestAt: int)
    returns (newPopulation': seq<seq<int>>, ghost produced'': seq<seq<int>>, best': Option<seq<int>>,
             bestDistance': Cost, ghost bestAt': int)
    requires n >= 1 && Population(population, n) && |gdraws| == |population|
    requires ValidGenerationDraws(gdraws, |population|, n) && 0 <= i < |gdraws|
    requires Breeding(Breeder(d, n), n, population, gdraws, i, newPopulation, produced, produced')
    requires Best(d, produced', best, bestDistance, bestAt)
    ensures Breeding(Breeder(d, n), n, population, gdraws, i + 1, newPopulation', produced, produced'')
    ensures Best(d, produced'', best', bestDistance', bestAt')
  {
    var child := Breed(d, population, n, gdraws[i]);
    assert child == Breeder(d, n)(population, gdraws[i]);
    BreedingStep(Breeder(d, n), n, population, gdraws, i, newPopulation, produced, produced', child);
    best', bestDistance', bestAt' := TrackBest(d, n, produced', best, bestDistance, bestAt, child);
    newPopulation', produced'' := newPopulation + [child], produced' + [child];
  }

  /** The best-so-far update for one more child: it takes over exactly when it is strictly shorter. */
  method TrackBest(d: Distance, n: nat, ghost produced: seq<seq<int>>, best: Option<seq<int>>, bestDistance: Cost,
                   ghost bestAt: int, child: seq<int>)
    returns (best': Option<seq<int>>, bestDistance': Cost, ghost bestAt': int)
    requires n >= 1 && Population(produced, n) && IsPermutation(child, n)
    requires Best(d, produced, best, bestDistance, bestAt)
    ensures Population(produced + [child], n)
    ensures Best(d, produced + [child], best', bestDistance', bestAt')
  {
    var produced' := produced + [child];
    assert forall k | 0 <= k < |produced| :: produced'[k] == produced[k];
    var childDistance := TotalDistance(d, child);
    if best.Some? {
      EarliestShortestStep(d, produced, bestAt, child);
    }
    best', bestDistance', bestAt' := best, bestDistance, bestAt;
    if Finite(childDistance).Below(bestDistance) {
      best', bestDistance', bestAt' := Some(child), Finite(childDistance), |produced|;
    }
  }
}

=== FILE: graphs.dfy ===
/**
  The graphs behind the MST-based tour constructions: weighted edges between
  city ids, the adjacency lists built from an edge list (each edge is added
  to the lists of both its ends), and what it means for an edge list to grow
  a spanning tree from a root vertex.
 */
module Graphs {
  import opened Permutations
  import opened Tours

  /** A weighted edge `from -> to`; the lab0 solver calls its ends `src` and `dest`. */
  datatype Edge = Edge(from: int, to: int, weight: nat)

  predicate EdgesIn(edges: seq<Edge>, n: int) {
    forall k | 0 <= k < |edges| :: 0 <= edges[k].from < n && 0 <= edges[k].to < n
  }

  /** `e` connects v with x, in either direction. */
  predicate Joins(e: Edge, v: int, x: int) {
    (e.from == v && e.to == x) || (e.to == v && e.from == x)
  }

  /** Sum of the edge weights, accumulated in list order. */
  function TotalWeight(edges: seq<Edge>): nat {
    if |edges| == 0 then 0 else TotalWeight(edges[..|edges| - 1]) + edges[|edges| - 1].weight
  }

  /** Every entry of every list is a vertex id. */
  predicate ListsIn(adj: seq<seq<int>>) {
    forall v | 0 <= v < |adj| :: InRange(adj[v], |adj|)
  }

  /** A set of vertices that contains every neighbour of each of its members. */
  predicate Closed(adj: seq<seq<int>>, s: set<int>) {
    forall v, x | v in s && 0 <= v < |adj| && x in adj[v] :: x in s
  }

  /** Appends `to` to the list of `from`, then `from` to the list of `to`. */
  function AddEdge(adj: seq<seq<int>>, e: Edge): (r: seq<seq<int>>)
    requires 0 <= e.from < |adj| && 0 <= e.to < |adj|
    requires ListsIn(adj)
    ensures |r| == |adj| && ListsIn(r)
    ensures forall v, x | 0 <= v < |adj| :: x in r[v] <==> x in adj[v] || Joins(e, v, x)
  {
    var a := adj[e.from := adj[e.from] + [e.to]];
    a[e.to := a[e.to] + [e.from]]
  }

  /**
    The adjacency lists of the MST: n lists, initially empty, and for each
    edge in order its `to` appended to the list of its `from` and vice versa.
    The lab1 solver keeps them in a map that only has a key for a vertex with
    an edge; a missing key behaves as an empty list there.
   */
  function Adjacency(n: nat, edges: seq<Edge>): (adj: seq<seq<int>>)
    requires EdgesIn(edges, n)
    ensures |adj| == n && ListsIn(adj)
  {
    if |edges| == 0 then seq(n, v => [])
    else AddEdge(Adjacency(n, edges[..|edges| - 1]), edges[|edges| - 1])
  }

  /** x is in the list of v exactly when some edge connects v with x. */
  lemma {:induction false} AdjacencyMeets(n: nat, edges: seq<Edge>)
    requires EdgesIn(edges, n)
    ensures forall v, x | 0 <= v < n ::
      x in Adjacency(n, edges)[v] <==> exists k :: 0 <= k < |edges| && Joins(edges[k], v, x)
  {
    if |edges| > 0 {
      var init := edges[..|edges| - 1];
      var e := edges[|edges| - 1];
      AdjacencyMeets(n, init);
      forall v, x | 0 <= v < n
        ensures x in Adjacency(n, edges)[v] <==> exists k :: 0 <= k < |edges| && Joins(edges[k], v, x)
      {
        if x in Adjacency(n, edges)[v] {
          if Joins(e, v, x) {
            assert Joins(edges[|edges| - 1], v, x);
          } else {
            var k :| 0 <= k < |init| && Joins(init[k], v, x);
            assert Joins(edges[k], v, x);
          }
        } else {
          forall k | 0 <= k < |edges|
            ensures !Joins(edges[k], v, x)
          {
            if k < |init| {
              assert edges[k] == init[k];
            }
          }
        }
      }
    }
  }

  /** The lists describe an undirected graph: x is a neighbour of v exactly when v is one of x. */
  lemma AdjacencySymmetric(n: nat, edges: seq<Edge>, v: int, x: int)
    requires EdgesIn(edges, n) && 0 <= v < n && 0 <= x < n
    ensures x in Adjacency(n, edges)[v] <==> v in Adjacency(n, edges)[x]
  {
    AdjacencyMeets(n, edges);
    if x in Adjacency(n, edges)[v] {
      var k :| 0 <= k < |edges| && Joins(edges[k], v, x);
      assert Joins(edges[k], x, v);
    }
    if v in Adjacency(n, edges)[x] {
      var k :| 0 <= k < |edges| && Joins(edges[k], x, v);
      assert Joins(edges[k], v, x);
    }
  }

  /**
    The edges grow a tree from `root` over the vertices 0..n-1: each edge
    leads from a vertex that joined earlier (smaller `rank`) to one that
    joined later, and every vertex but the root is entered by an edge, the
    one at index `entry[v]`.
   */
  predicate TreeFrom(n: nat, edges: seq<Edge>, root: int, rank: seq<nat>, entry: seq<int>) {
    && 0 <= root < n && |rank| == n && |entry| == n
    && EdgesIn(edges, n)
    && (forall k | 0 <= k < |edges| :: rank[edges[k].from] < rank[edges[k].to])
    && (forall v | 0 <= v < n && v != root :: 0 <= entry[v] < |edges| && edges[entry[v]].to == v)
  }

  /**
    A tree connects everything: a set of vertices closed under the adjacency
    lists of a tree's edges that contains any one vertex contains them all.
    This is what makes a depth-first walk of the MST from any start visit
    every city.
   */
  lemma TreeConnected(n: nat, edges: seq<Edge>, root: int, rank: seq<nat>, entry: seq<int>, s: set<int>, start: int)
    requires TreeFrom(n, edges, root, rank, entry)
    requires Closed(Adjacency(n, edges), s) && start in s && 0 <= start < n
    ensures forall v | 0 <= v < n :: v in s
  {
    AdjacencyMeets(n, edges);
    ReachesRoot(n, edges, root, rank, entry, s, start);
    forall v | 0 <= v < n
      ensures v in s
    {
      ReachedFromRoot(n, edges, root, rank, entry, s, v);
    }
  }

  /** Walking the entry edges backwards from a member of a closed set stays inside it and ends at the root. */
  lemma {:induction false} ReachesRoot(n: nat, edges: seq<Edge>, root: int, rank: seq<nat>, entry: seq<int>, s: set<int>, v: int)
    requires TreeFrom(n, edges, root, rank, entry)
    requires forall v, x | 0 <= v < n ::
      x in Adjacency(n, edges)[v] <==> exists k :: 0 <= k < |edges| && Joins(edges[k], v, x)
    requires Closed(Adjacency(n, edges), s) && v in s && 0 <= v < n
    ensures root in s
    decreases rank[v]
  {
    if v != root {
      var e := edges[entry[v]];
      assert Joins(edges[entry[v]], v, e.from);
      assert e.from in Adjacency(n, edges)[v];
      ReachesRoot(n, edges, root, rank, entry, s, e.from);
    }
  }

  /** Walking the entry edges forwards from the root reaches every vertex. */
  lemma {:induction false} ReachedFromRoot(n: nat, edges: seq<Edge>, root: int, rank: seq<nat>, entry: seq<int>, s: set<int>, v: int)
    requires TreeFrom(n, edges, root, rank, entry)
    requires forall v, x | 0 <= v < n ::
      x in Adjacency(n, edges)[v] <==> exists k :: 0 <= k < |edges| && Joins(edges[k], v, x)
    requires Closed(Adjacency(n, edges), s) && root in s && 0 <= v < n
    ensures v in s
    decreases rank[v]
  {
    if v != root {
      var e := edges[entry[v]];
      ReachedFromRoot(n, edges, root, rank, entry, s, e.from);
      assert Joins(edges[entry[v]], e.from, v);
      assert v in Adjacency(n, edges)[e.from];
    }
  }
}

=== FILE: islands.dfy ===
/**
  The island model: every epoch runs one genetic algorithm per island, each
  island keeps the shortest tour it has been handed, neighbouring islands
  exchange their best tours between epochs, and the answer is the best tour
  over all islands. The thread pool is modelled as one sequential pass over
  the islands: each task writes only its own island's slot.
 */
module Islands {
  import opened Permutations
  import opened Tours
  import opened Genetic

  /** One island's record: `bestIndividuals[i]` and `bestDistances[i]` of the source. */
  datatype Slot = Slot(tour: Option<seq<int>>, dist: Cost)

  /** A fresh island: no tour, distance Double.MAX_VALUE. */
  const EmptySlot := Slot(None, Infinite)

  /** A slot either is fresh or holds a tour of the n cities together with its length. */
  predicate SlotOk(d: Distance, s: Slot, n: nat) {
    && (s.tour.None? <==> s.dist.Infinite?)
    && (s.tour.Some? ==> IsPermutation(s.tour.value, n) && n > 0 && s.dist == Finite(TourLength(d, s.tour.value)))
  }

  predicate SlotsOk(d: Distance, slots: seq<Slot>, n: nat) {
    forall k | 0 <= k < |slots| :: SlotOk(d, slots[k], n)
  }

  /** Slot m holds a least distance among all slots. */
  predicate Least(slots: seq<Slot>, m: int) {
    0 <= m < |slots| && forall k | 0 <= k < |slots| :: slots[m].dist.AtMost(slots[k].dist)
  }

  /**
    The body of an island task after its genetic algorithm returned: a tour
    replaces the island's record only when strictly shorter. A run that
    returned no tour makes the task fail before it touches the record.
   */
  function UpdateIsland(d: Distance, s: Slot, result: Option<seq<int>>): (r: Slot)
    requires result.Some? ==> |result.value| > 0
    ensures r.dist.AtMost(s.dist)
    ensures r == s || (result.Some? && r == Slot(result, Finite(TourLength(d, result.value))))
    ensures result.Some? ==> r.dist.AtMost(Finite(TourLength(d, result.value)))
  {
    if result.Some? && Finite(TourLength(d, result.value)).Below(s.dist) then
      Slot(result, Finite(TourLength(d, result.value)))
    else
      s
  }

  /** The least distance over all islands; Double.MAX_VALUE when there are none. */
  function MinDist(slots: seq<Slot>): (m: Cost)
    ensures forall k | 0 <= k < |slots| :: m.AtMost(slots[k].dist)
    ensures |slots| > 0 ==> exists k :: 0 <= k < |slots| && slots[k].dist == m
    ensures |slots| == 0 ==> m == Infinite
  {
    if |slots| == 0 then Infinite
    else
      var rest := MinDist(slots[..|slots| - 1]);
      assert forall k | 0 <= k < |slots| - 1 :: slots[..|slots| - 1][k] == slots[k];
      if slots[|slots| - 1].dist.Below(rest) then slots[|slots| - 1].dist else rest
  }

  /** The island that island i hands its record to: the source's `(i + 1) % len`. */
  function Successor(i: int, len: int): (next: int)
    requires 0 <= i < len
    ensures next == (i + 1) % len
    ensures 0 <= next < len
  {
    if i + 1 < len then i + 1 else 0
  }

  /** The records after the first i steps of the exchange pass. */
  function ExchangeUpTo(slots: seq<Slot>, i: int): (r: seq<Slot>)
    requires 0 <= i <= |slots|
    ensures |r| == |slots|
    decreases i
  {
    if i == 0 then slots
    else
      var prev := ExchangeUpTo(slots, i - 1);
      var next := Successor(i - 1, |slots|);
      if prev[i - 1].dist.Below(prev[next].dist) then prev[next := prev[i - 1]] else prev
  }

  /**
    `exchangeBestIndividuals`: for i = 0, 1, ..., L-1 in turn, island
    (i + 1) mod L takes a copy of island i's record when island i's distance is
    strictly smaller. No island gets worse and records are only copied.
    Because the pass is sequential and in place, a least record travels forward
    through every later island and, from the last one, into island 0.
   */
  method ExchangeBestIndividuals(slots: seq<Slot>) returns (r: seq<Slot>, ghost origin: seq<int>)
    ensures r == ExchangeUpTo(slots, |slots|)
    ensures |r| == |slots| && |origin| == |slots|
    ensures forall k | 0 <= k < |r| :: r[k].dist.AtMost(slots[k].dist)
    ensures forall k | 0 <= k < |r| :: 0 <= origin[k] < |slots| && r[k] == slots[origin[k]]
    ensures |r| > 0 ==> r[0].dist == MinDist(slots)
    ensures forall m, k | 0 <= m <= k < |r| && slots[m].dist == MinDist(slots) :: r[k].dist == MinDist(slots)
  {
    var len := |slots|;
    r := slots;
    var i := 0;
    while i < len
      invariant 0 <= i <= len && r == ExchangeUpTo(slots, i)
    {
      var next := (i + 1) % len;
      if r[i].dist.Below(r[next].dist) {
        r := r[next := r[i]];
      }
      i := i + 1;
    }
    origin := ExchangeFacts(slots, r);
  }

  /** The whole pass in terms of the step model, as `ExchangeBestIndividuals` promises it. */
  lemma ExchangeFacts(slots: seq<Slot>, r: seq<Slot>) returns (origin: seq<int>)
    requires r == ExchangeUpTo(slots, |slots|)
    ensures |r| == |slots| && |origin| == |slots|
    ensures forall k | 0 <= k < |r| :: r[k].dist.AtMost(slots[k].dist)
    ensures forall k | 0 <= k < |r| :: 0 <= origin[k] < |slots| && r[k] == slots[origin[k]]
    ensures |r| > 0 ==> r[0].dist == MinDist(slots)
    ensures forall m, k | 0 <= m <= k < |r| && slots[m].dist == MinDist(slots) :: r[k].dist == MinDist(slots)
  {
    ExchangeNeverWorse(slots, |slots|);
    origin := ExchangeCopies(slots, |slots|);
    if |slots| > 0 {
      ExchangeCompletes(slots);
    }
  }

  /** The exchange never makes an island worse. */
  lemma {:induction false} ExchangeNeverWorse(slots: seq<Slot>, i: int)
    requires 0 <= i <= |slots|
    ensures forall k | 0 <= k < |slots| :: ExchangeUpTo(slots, i)[k].dist.AtMost(slots[k].dist)
  {
    if i > 0 {
      ExchangeNeverWorse(slots, i - 1);
    }
  }

  /**
    The exchange only copies records: `origin[k]` is the island whose original
    record island k holds after the first i steps.
   */
  lemma {:induction false} ExchangeCopies(slots: seq<Slot>, i: int) returns (origin: seq<int>)
    requires 0 <= i <= |slots|
    ensures |origin| == |slots|
    ensures forall k | 0 <= k < |slots| :: 0 <= origin[k] < |slots| && ExchangeUpTo(slots, i)[k] == slots[origin[k]]
  {
    if i == 0 {
      origin := seq(|slots|, k => k);
    } else {
      var prevOrigin := ExchangeCopies(slots, i - 1);
      var prev := ExchangeUpTo(slots, i - 1);
      var next := Successor(i - 1, |slots|);
      if prev[i - 1].dist.Below(prev[next].dist) {
        origin := prevOrigin[next := prevOrigin[i - 1]];
      } else {
        origin := prevOrigin;
      }
    }
  }

  /** No island drops below the least original distance. */
  lemma LeastBelowCopies(slots: seq<Slot>, i: int)
    requires 0 <= i <= |slots|
    ensures forall k | 0 <= k < |slots| :: MinDist(slots).AtMost(ExchangeUpTo(slots, i)[k].dist)
  {
    var origin := ExchangeCopies(slots, i);
    var r := ExchangeUpTo(slots, i);
    forall k | 0 <= k < |slots|
      ensures MinDist(slots).AtMost(r[k].dist)
    {
      assert r[k] == slots[origin[k]];
    }
  }

  /** Islands the pass has not reached yet still hold their own records. */
  lemma {:induction false} ExchangeAhead(slots: seq<Slot>, i: int)
    requires 0 <= i <= |slots|
    ensures forall k | i < k < |slots| :: ExchangeUpTo(slots, i)[k] == slots[k]
  {
    if i > 0 {
      ExchangeAhead(slots, i - 1);
      var prev := ExchangeUpTo(slots, i - 1);
      forall k | i < k < |slots|
        ensures ExchangeUpTo(slots, i)[k] == slots[k]
      {
        assert ExchangeUpTo(slots, i)[k] == prev[k];
      }
    }
  }

  /**
    A least distance spreads forward: once the pass has reached island i, every
    island from a least one up to i holds the least distance.
   */
  lemma {:induction false} ExchangeSpreads(slots: seq<Slot>, i: int)
    requires 0 <= i < |slots|
    ensures forall m, k | 0 <= m <= k <= i && slots[m].dist == MinDist(slots) ::
      ExchangeUpTo(slots, i)[k].dist == MinDist(slots)
  {
    if i > 0 {
      ExchangeSpreads(slots, i - 1);
      LeastBelowCopies(slots, i - 1);
      ExchangeAhead(slots, i - 1);
      ExchangeStep(slots, i - 1, i);
    }
  }

  /** One step of the exchange passes a least distance on from island i to its successor. */
  lemma ExchangeStep(slots: seq<Slot>, i: int, j: int)
    requires 0 <= i < |slots| && j == i + 1
    requires forall k | 0 <= k < |slots| :: MinDist(slots).AtMost(ExchangeUpTo(slots, i)[k].dist)
    requires forall k | i < k < |slots| :: ExchangeUpTo(slots, i)[k] == slots[k]
    requires forall m, k | 0 <= m <= k <= i && slots[m].dist == MinDist(slots) ::
      ExchangeUpTo(slots, i)[k].dist == MinDist(slots)
    ensures forall m, k | 0 <= m <= k <= j && k < |slots| && slots[m].dist == MinDist(slots) ::
      ExchangeUpTo(slots, j)[k].dist == MinDist(slots)
    ensures j == |slots| ==> ExchangeUpTo(slots, j)[0].dist == MinDist(slots)
  {
    var len := |slots|;
    var least := MinDist(slots);
    var before := ExchangeUpTo(slots, i);
    var after := ExchangeUpTo(slots, j);
    var next := Successor(i, len);
    var copied := before[i].dist.Below(before[next].dist);
    forall k | 0 <= k < len
      ensures after[k] == if copied && k == next then before[i] else before[k]
    {
    }
    forall m, k | 0 <= m <= k <= i + 1 && k < len && slots[m].dist == least
      ensures after[k].dist == least
    {
      if k == next {
        if m <= i {
          assert before[i].dist == least;
        } else {
          assert before[k] == slots[k];
        }
      }
    }
    if i + 1 == len {
      var m :| 0 <= m < len && slots[m].dist == least;
      assert before[i].dist == least;
    }
  }

  /** After the last step, which feeds island 0, a least distance has reached island 0 too. */
  lemma ExchangeCompletes(slots: seq<Slot>)
    requires |slots| > 0
    ensures ExchangeUpTo(slots, |slots|)[0].dist == MinDist(slots)
    ensures forall m, k | 0 <= m <= k < |slots| && slots[m].dist == MinDist(slots) ::
      ExchangeUpTo(slots, |slots|)[k].dist == MinDist(slots)
  {
    var last := |slots| - 1;
    ExchangeSpreads(slots, last);
    LeastBelowCopies(slots, last);
    ExchangeAhead(slots, last);
    ExchangeStep(slots, last, |slots|);
  }

  /**
    The final scan: the record of the first island of least distance, or
    `None` when every island is still fresh.
   */
  method SelectGlobalBest(slots: seq<Slot>) returns (best: Option<seq<int>>, ghost at: int)
    ensures (forall k | 0 <= k < |slots| :: slots[k].dist.Infinite?) ==> best.None?
    ensures (exists k :: 0 <= k < |slots| && slots[k].dist.Finite?) ==>
      && Least(slots, at) && slots[at].tour == best && slots[at].dist.Finite?
      && forall k | 0 <= k < at :: slots[at].dist.Below(slots[k].dist)
  {
    var bestGlobalDistance: Cost := Infinite;
    best, at := None, 0;
    var i := 0;
    while i < |slots|
      invariant 0 <= i <= |slots|
      invariant bestGlobalDistance.Infinite? ==> best.None? && forall k | 0 <= k < i :: slots[k].dist.Infinite?
      invariant bestGlobalDistance.Finite? ==>
        && 0 <= at < i && slots[at].tour == best && bestGlobalDistance == slots[at].dist
        && (forall k | 0 <= k < i :: slots[at].dist.AtMost(slots[k].dist))
        && (forall k | 0 <= k < at :: slots[at].dist.Below(slots[k].dist))
    {
      if slots[i].dist.Below(bestGlobalDistance) {
        bestGlobalDistance := slots[i].dist;
        best, at := slots[i].tour, i;
      }
      i := i + 1;
    }
  }

  /** The random input of one island task. */
  datatype IslandRun = IslandRun(initial: seq<seq<int>>, draws: seq<seq<ChildDraws>>)

  /** Every run of an epoch has valid draws for islands of `islandSize` individuals. */
  predicate ValidEpochRuns(n: nat, islandSize: nat, iterationsPerEpoch: int, epochRuns: seq<IslandRun>) {
    forall i | 0 <= i < |epochRuns| ::
      ValidRunDraws(n, islandSize, iterationsPerEpoch, epochRuns[i].initial, epochRuns[i].draws)
  }

  /** A result function that never yields an empty tour. */
  ghost predicate NonEmpty(result: IslandRun -> Option<seq<int>>) {
    forall run: IslandRun :: result(run).Some? ==> |result(run).value| > 0
  }

  /**
    The tour the genetic algorithm of an island task returns for each run's
    random input, as a total function of the run; a run whose draws do not
    fit the island returns nothing.
   */
  function Outcome(d: Distance, n: nat, islandSize: nat, iterationsPerEpoch: int): (result: IslandRun -> Option<seq<int>>)
    ensures NonEmpty(result)
  {
    (run: IslandRun) =>
      if ValidRunDraws(n, islandSize, iterationsPerEpoch, run.initial, run.draws)
      then RunResult(d, n, islandSize, iterationsPerEpoch, run.initial, run.draws)
      else None
  }

  /**
    The records after all island tasks of an epoch: island i's record updated
    with the result of island i's own run. Each task touches only its own
    island, so this does not depend on the order the pool runs the tasks in.
   */
  function UpdateAll(d: Distance, result: IslandRun -> Option<seq<int>>, epochRuns: seq<IslandRun>,
                     slots: seq<Slot>): (r: seq<Slot>)
    requires NonEmpty(result) && |epochRuns| == |slots|
    ensures |r| == |slots|
  {
    seq(|slots|, i requires 0 <= i < |slots| => UpdateIsland(d, slots[i], result(epochRuns[i])))
  }

  /** The tours the island runs of one epoch return, in island order. */
  function EpochResults(result: IslandRun -> Option<seq<int>>, epochRuns: seq<IslandRun>): seq<seq<int>>
  {
    if |epochRuns| == 0 then []
    else
      var front := EpochResults(result, epochRuns[..|epochRuns| - 1]);
      match result(epochRuns[|epochRuns| - 1])
      case Some(t) => front + [t]
      case None => front
  }

  /** One more island run appends its tour, if it returned one. */
  lemma EpochResultsStep(result: IslandRun -> Option<seq<int>>, epochRuns: seq<IslandRun>, i: int)
    requires 0 <= i < |epochRuns|
    ensures EpochResults(result, epochRuns[..i + 1])
      == EpochResults(result, epochRuns[..i]) + (if result(epochRuns[i]).Some? then [result(epochRuns[i]).value] else [])
  {
    assert epochRuns[..i + 1][..i] == epochRuns[..i];
  }

  /** One more epoch appends the tours of its island runs. */
  lemma AllResultsStep(result: IslandRun -> Option<seq<int>>, runs: seq<seq<IslandRun>>, e: int)
    requires 0 <= e < |runs|
    ensures AllResults(result, runs[..e + 1]) == AllResults(result, runs[..e]) + EpochResults(result, runs[e])
  {
    assert runs[..e + 1][..e] == runs[..e];
  }

  /** The tours all island runs return, epoch after epoch. */
  function AllResults(result: IslandRun -> Option<seq<int>>, runs: seq<seq<IslandRun>>): seq<seq<int>>
  {
    if |runs| == 0 then [] else AllResults(result, runs[..|runs| - 1]) + EpochResults(result, runs[|runs| - 1])
  }

  /** Island k's tour, if any, is result `source[k]`. */
  predicate Sourced(slots: seq<Slot>, found: seq<seq<int>>, source: seq<int>) {
    && |source| == |slots|
    && forall k | 0 <= k < |slots| && slots[k].tour.Some? ::
         0 <= source[k] < |found| && found[source[k]] == slots[k].tour.value
  }

  /** Result q is matched or beaten by island `holder[q]`. */
  predicate Held(d: Distance, slots: seq<Slot>, found: seq<seq<int>>, holder: seq<int>, n: nat)
    requires Population(found, n) && n > 0
  {
    && |holder| == |found|
    && forall q | 0 <= q < |found| ::
         0 <= holder[q] < |slots| && slots[holder[q]].dist.AtMost(Finite(TourLength(d, found[q])))
  }

  /**
    The records hold only tours that some run returned, every result is a
    tour of the n cities, and every returned tour is matched or beaten by
    some island.
   */
  predicate Tracks(d: Distance, slots: seq<Slot>, found: seq<seq<int>>, source: seq<int>, holder: seq<int>, n: nat) {
    && SlotsOk(d, slots, n)
    && n > 0 && Population(found, n)
    && Sourced(slots, found, source)
    && Held(d, slots, found, holder, n)
  }

  /** Recording one island's run result keeps the records tracking all results. */
  lemma TracksUpdate(d: Distance, slots: seq<Slot>, found: seq<seq<int>>, source: seq<int>, holder: seq<int>,
                     n: nat, island: int, result: Option<seq<int>>,
                     after: seq<Slot>, found': seq<seq<int>>, source': seq<int>, holder': seq<int>)
    requires Tracks(d, slots, found, source, holder, n) && 0 <= island < |slots|
    requires result.Some? ==> IsPermutation(result.value, n)
    requires after == slots[island := UpdateIsland(d, slots[island], result)]
    requires found' == if result.Some? then found + [result.value] else found
    requires source' == if after[island] == slots[island] then source else source[island := |found|]
    requires holder' == if result.Some? then holder + [island] else holder
    ensures Tracks(d, after, found', source', holder', n)
    ensures forall k | 0 <= k < |slots| :: after[k].dist.AtMost(slots[k].dist)
  {
    UpdateSlotsOk(d, slots, n, island, result, after);
    UpdatePopulation(found, n, result, found');
    UpdateSourced(d, slots, found, source, island, result, after, found', source');
    UpdateHeld(d, slots, found, holder, n, island, result, after, found', holder');
  }

  lemma UpdateSlotsOk(d: Distance, slots: seq<Slot>, n: nat, island: int, result: Option<seq<int>>, after: seq<Slot>)
    requires SlotsOk(d, slots, n) && 0 <= island < |slots| && n > 0
    requires result.Some? ==> IsPermutation(result.value, n)
    requires after == slots[island := UpdateIsland(d, slots[island], result)]
    ensures SlotsOk(d, after, n)
    ensures forall k | 0 <= k < |slots| :: after[k].dist.AtMost(slots[k].dist)
  {
    forall k | 0 <= k < |after|
      ensures SlotOk(d, after[k], n) && after[k].dist.AtMost(slots[k].dist)
    {
      if k != island {
        assert after[k] == slots[k];
      }
    }
  }

  lemma UpdatePopulation(found: seq<seq<int>>, n: nat, result: Option<seq<int>>, found': seq<seq<int>>)
    requires Population(found, n)
    requires result.Some? ==> IsPermutation(result.value, n)
    requires found' == if result.Some? then found + [result.value] else found
    ensures Population(found', n)
    ensures |found| <= |found'| && forall q | 0 <= q < |found| :: found'[q] == found[q]
  {
    forall q | 0 <= q < |found'|
      ensures IsPermutation(found'[q], n)
    {
      if q < |found| {
        assert found'[q] == found[q];
      }
    }
  }

  lemma UpdateSourced(d: Distance, slots: seq<Slot>, found: seq<seq<int>>, source: seq<int>,
                      island: int, result: Option<seq<int>>,
                      after: seq<Slot>, found': seq<seq<int>>, source': seq<int>)
    requires Sourced(slots, found, source) && 0 <= island < |slots|
    requires result.Some? ==> |result.value| > 0
    requires after == slots[island := UpdateIsland(d, slots[island], result)]
    requires found' == if result.Some? then found + [result.value] else found
    requires source' == if after[island] == slots[island] then source else source[island := |found|]
    ensures Sourced(after, found', source')
  {
    forall k | 0 <= k < |after| && after[k].tour.Some?
      ensures 0 <= source'[k] < |found'| && found'[source'[k]] == after[k].tour.value
    {
      if k != island || after[island] == slots[island] {
        assert after[k] == slots[k] && source'[k] == source[k];
        assert found'[source[k]] == found[source[k]];
      }
    }
  }

  lemma UpdateHeld(d: Distance, slots: seq<Slot>, found: seq<seq<int>>, holder: seq<int>, n: nat,
                   island: int, result: Option<seq<int>>,
                   after: seq<Slot>, found': seq<seq<int>>, holder': seq<int>)
    requires Population(found, n) && n > 0 && Held(d, slots, found, holder, n) && 0 <= island < |slots|
    requires result.Some? ==> IsPermutation(result.value, n)
    requires after == slots[island := UpdateIsland(d, slots[island], result)]
    requires found' == if result.Some? then found + [result.value] else found
    requires holder' == if result.Some? then holder + [island] else holder
    requires Population(found', n)
    requires forall k | 0 <= k < |slots| :: after[k].dist.AtMost(slots[k].dist)
    ensures Held(d, after, found', holder', n)
  {
    forall q | 0 <= q < |found'|
      ensures 0 <= holder'[q] < |after| && after[holder'[q]].dist.AtMost(Finite(TourLength(d, found'[q])))
    {
      if q < |found| {
        assert found'[q] == found[q] && holder'[q] == holder[q];
        assert after[holder[q]].dist.AtMost(slots[holder[q]].dist);
      }
    }
  }

  /** The exchange keeps the records tracking all results. */
  lemma TracksExchange(d: Distance, slots: seq<Slot>, r: seq<Slot>, origin: seq<int>,
                       found: seq<seq<int>>, source: seq<int>, holder: seq<int>, n: nat, source': seq<int>)
    requires Tracks(d, slots, found, source, holder, n) && |r| == |slots| && |origin| == |slots|
    requires forall k | 0 <= k < |r| :: r[k].dist.AtMost(slots[k].dist)
    requires forall k | 0 <= k < |r| :: 0 <= origin[k] < |slots| && r[k] == slots[origin[k]]
    requires |source'| == |r| && forall k | 0 <= k < |r| :: source'[k] == source[origin[k]]
    ensures Tracks(d, r, found, source', holder, n)
  {
    forall k | 0 <= k < |r|
      ensures SlotOk(d, r[k], n)
      ensures r[k].tour.Some? ==> 0 <= source'[k] < |found| && found[source'[k]] == r[k].tour.value
    {
      var o := origin[k];
      assert r[k] == slots[o] && source'[k] == source[o];
      assert SlotOk(d, slots[o], n);
    }
    forall q | 0 <= q < |found|
      ensures 0 <= holder[q] < |r| && r[holder[q]].dist.AtMost(Finite(TourLength(d, found[q])))
    {
      var h := holder[q];
      assert r[h].dist.AtMost(slots[h].dist);
    }
  }

  /** Every result is matched by some island, so a result leaves some island with a finite distance. */
  lemma TracksSomeFinite(d: Distance, slots: seq<Slot>, found: seq<seq<int>>, source: seq<int>, holder: seq<int>, n: nat)
    requires Tracks(d, slots, found, source, holder, n) && |found| > 0
    ensures 0 <= holder[0] < |slots| && slots[holder[0]].dist.Finite?
  {
  }

  /** Without any result every island is still fresh. */
  lemma TracksNoneFresh(d: Distance, slots: seq<Slot>, found: seq<seq<int>>, source: seq<int>, holder: seq<int>, n: nat)
    requires Tracks(d, slots, found, source, holder, n) && |found| == 0
    ensures forall k | 0 <= k < |slots| :: slots[k].dist.Infinite?
  {
    forall k | 0 <= k < |slots|
      ensures slots[k].dist.Infinite?
    {
      assert SlotOk(d, slots[k], n);
    }
  }

  /** A least island holds a result that no result undercuts. */
  lemma TracksLeast(d: Distance, slots: seq<Slot>, found: seq<seq<int>>, source: seq<int>, holder: seq<int>,
                    n: nat, at: int)
    requires Tracks(d, slots, found, source, holder, n) && Least(slots, at) && slots[at].tour.Some?
    ensures 0 <= source[at] < |found| && found[source[at]] == slots[at].tour.value
    ensures IsPermutation(slots[at].tour.value, n)
    ensures forall q | 0 <= q < |found| :: TourLength(d, slots[at].tour.value) <= TourLength(d, found[q])
  {
    var t := slots[at].tour.value;
    assert SlotOk(d, slots[at], n);
    forall q | 0 <= q < |found|
      ensures TourLength(d, t) <= TourLength(d, found[q])
    {
      var h := holder[q];
      assert slots[at].dist.AtMost(slots[h].dist);
    }
  }

  /** With the records tracking all results, the final scan yields a shortest result. */
  lemma TracksConclude(d: Distance, slots: seq<Slot>, found: seq<seq<int>>, source: seq<int>, holder: seq<int>,
                       n: nat, best: Option<seq<int>>, at: int)
    requires Tracks(d, slots, found, source, holder, n)
    requires (forall k | 0 <= k < |slots| :: slots[k].dist.Infinite?) ==> best.None?
    requires (exists k :: 0 <= k < |slots| && slots[k].dist.Finite?) ==> Least(slots, at) && slots[at].tour == best
    ensures forall q | 0 <= q < |found| :: IsPermutation(found[q], n)
    ensures best.None? <==> |found| == 0
    ensures best.Some? ==> (best.value in found && IsPermutation(best.value, n)
      && forall q | 0 <= q < |found| :: |found[q]| == n && TourLength(d, best.value) <= TourLength(d, found[q]))
  {
    if |found| > 0 {
      TracksSomeFinite(d, slots, found, source, holder, n);
      assert Least(slots, at) && slots[at].tour == best;
      assert SlotOk(d, slots[at], n);
      TracksLeast(d, slots, found, source, holder, n, at);
    } else {
      TracksNoneFresh(d, slots, found, source, holder, n);
    }
  }

  /**
    One island task of an epoch: run the genetic algorithm on the island's
    share of the population and record the returned tour, if any, as the
    island's best when it is strictly shorter.
   */
  method RunIsland(d: Distance, n: nat, islandSize: nat, iterationsPerEpoch: int, run: IslandRun,
                   slots: seq<Slot>, island: int, ghost found: seq<seq<int>>, ghost source: seq<int>, ghost holder: seq<int>)
    returns (slots': seq<Slot>, ghost found': seq<seq<int>>, ghost source': seq<int>, ghost holder': seq<int>)
    requires n >= 1 && 0 <= island < |slots|
    requires ValidRunDraws(n, islandSize, iterationsPerEpoch, run.initial, run.draws)
    requires Tracks(d, slots, found, source, holder, n)
    ensures |slots'| == |slots| && Tracks(d, slots', found', source', holder', n)
    ensures forall k | 0 <= k < |slots| :: slots'[k].dist.AtMost(slots[k].dist)
    ensures forall k | 0 <= k < |slots| && k != island :: slots'[k] == slots[k]
    ensures |found'| == |found| + (if islandSize > 0 && iterationsPerEpoch > 0 then 1 else 0)
    ensures var result := Outcome(d, n, islandSize, iterationsPerEpoch)(run);
      && slots' == slots[island := UpdateIsland(d, slots[island], result)]
      && found' == found + (if result.Some? then [result.value] else [])
  {
    var result, gens, produced, bestAt := GeneticAlgorithm(d, n, islandSize, iterationsPerEpoch, run.initial, run.draws);
    assert result.Some? ==> result.value == produced[bestAt] && IsPermutation(produced[bestAt], n);
    assert result == Outcome(d, n, islandSize, iterationsPerEpoch)(run);
    slots' := slots[island := UpdateIsland(d, slots[island], result)];
    found' := if result.Some? then found + [result.value] else found;
    source' := if slots'[island] == slots[island] then source else source[island := |found|];
    holder' := if result.Some? then holder + [island] else holder;
    TracksUpdate(d, slots, found, source, holder, n, island, result, slots', found', source', holder');
  }

  /**
    One epoch: every island task in turn, then, unless this is the last
    epoch, the exchange between neighbouring islands.
   */
  method RunEpoch(d: Distance, n: nat, islandSize: nat, iterationsPerEpoch: int, epochRuns: seq<IslandRun>,
                  exchange: bool, slots: seq<Slot>,
                  ghost found: seq<seq<int>>, ghost source: seq<int>, ghost holder: seq<int>)
    returns (slots': seq<Slot>, ghost found': seq<seq<int>>, ghost source': seq<int>, ghost holder': seq<int>)
    requires n >= 1 && |epochRuns| == |slots|
    requires forall i | 0 <= i < |epochRuns| ::
      ValidRunDraws(n, islandSize, iterationsPerEpoch, epochRuns[i].initial, epochRuns[i].draws)
    requires Tracks(d, slots, found, source, holder, n)
    ensures |slots'| == |slots| && Tracks(d, slots', found', source', holder', n)
    ensures |found'| == |found| + (if islandSize > 0 && iterationsPerEpoch > 0 then |slots| else 0)
    ensures found' == found + EpochResults(Outcome(d, n, islandSize, iterationsPerEpoch), epochRuns)
    ensures var updated := UpdateAll(d, Outcome(d, n, islandSize, iterationsPerEpoch), epochRuns, slots);
      slots' == if exchange then ExchangeUpTo(updated, |updated|) else updated
  {
    slots', found', source', holder' := RunTasks(d, n, islandSize, iterationsPerEpoch, epochRuns, slots, found, source, holder);
    if exchange {
      slots', source' := ExchangeTracked(d, n, slots', found', source', holder');
    }
  }

  /** The island tasks of one epoch, run one after the other. */
  method RunTasks(d: Distance, n: nat, islandSize: nat, iterationsPerEpoch: int, epochRuns: seq<IslandRun>,
                  slots: seq<Slot>, ghost found: seq<seq<int>>, ghost source: seq<int>, ghost holder: seq<int>)
    returns (slots': seq<Slot>, ghost found': seq<seq<int>>, ghost source': seq<int>, ghost holder': seq<int>)
    requires n >= 1 && |epochRuns| == |slots|
    requires forall i | 0 <= i < |epochRuns| ::
      ValidRunDraws(n, islandSize, iterationsPerEpoch, epochRuns[i].initial, epochRuns[i].draws)
    requires Tracks(d, slots, found, source, holder, n)
    ensures |slots'| == |slots| && Tracks(d, slots', found', source', holder', n)
    ensures |found'| == |found| + (if islandSize > 0 && iterationsPerEpoch > 0 then |slots| else 0)
    ensures found' == found + EpochResults(Outcome(d, n, islandSize, iterationsPerEpoch), epochRuns)
    ensures slots' == UpdateAll(d, Outcome(d, n, islandSize, iterationsPerEpoch), epochRuns, slots)
  {
    var producing := islandSize > 0 && iterationsPerEpoch > 0;
    ghost var result := Outcome(d, n, islandSize, iterationsPerEpoch);
    slots', found', source', holder' := slots, found, source, holder;
    var island := 0;
    while island < |slots|
      invariant 0 <= island <= |slots|
      invariant |slots'| == |slots| && Tracks(d, slots', found', source', holder', n)
      invariant |found'| == |found| + if producing then island else 0
      invariant TasksDone(d, result, epochRuns, slots, island, slots', found, found')
    {
      ghost var (before, done) := (slots', found');
      slots', found', source', holder' :=
        RunIsland(d, n, islandSize, iterationsPerEpoch, epochRuns[island], slots', island, found', source', holder');
      TasksDoneStep(d, result, epochRuns, slots, island, before, found, done, slots', found');
      island := island + 1;
    }
    TasksDoneAll(d, result, epochRuns, slots, slots', found, found');
  }

  /**
    The first `island` tasks of an epoch have run: their islands hold the
    updated records, the others are untouched, and their tours were appended.
   */
  ghost predicate TasksDone(d: Distance, result: IslandRun -> Option<seq<int>>, epochRuns: seq<IslandRun>,
                            slots: seq<Slot>, island: int, slots': seq<Slot>, found: seq<seq<int>>, found': seq<seq<int>>)
    requires NonEmpty(result) && |epochRuns| == |slots|
  {
    && 0 <= island <= |slots| && |slots'| == |slots|
    && found' == found + EpochResults(result, epochRuns[..island])
    && forall k | 0 <= k < |slots| ::
         slots'[k] == if k < island then UpdateIsland(d, slots[k], result(epochRuns[k])) else slots[k]
  }

  /** Running the next task extends the tasks done by one. */
  lemma TasksDoneStep(d: Distance, result: IslandRun -> Option<seq<int>>, epochRuns: seq<IslandRun>,
                      slots: seq<Slot>, island: int, slots': seq<Slot>, found: seq<seq<int>>, found': seq<seq<int>>,
                      slots'': seq<Slot>, found'': seq<seq<int>>)
    requires NonEmpty(result) && |epochRuns| == |slots|
    requires TasksDone(d, result, epochRuns, slots, island, slots', found, found') && island < |slots|
    requires var r := result(epochRuns[island]);
      && slots'' == slots'[island := UpdateIsland(d, slots'[island], r)]
      && found'' == found' + (if r.Some? then [r.value] else [])
    ensures TasksDone(d, result, epochRuns, slots, island + 1, slots'', found, found'')
  {
    EpochResultsStep(result, epochRuns, island);
  }

  /** Once every task has run, the records are `UpdateAll` and the tours are the epoch's results. */
  lemma TasksDoneAll(d: Distance, result: IslandRun -> Option<seq<int>>, epochRuns: seq<IslandRun>,
                     slots: seq<Slot>, slots': seq<Slot>, found: seq<seq<int>>, found': seq<seq<int>>)
    requires NonEmpty(result) && |epochRuns| == |slots|
    requires TasksDone(d, result, epochRuns, slots, |slots|, slots', found, found')
    ensures slots' == UpdateAll(d, result, epochRuns, slots)
    ensures found' == found + EpochResults(result, epochRuns)
  {
    assert epochRuns[..|slots|] == epochRuns;
  }

  /** `r[k]` is the entry of `s` at position `index[k]`. */
  function Reindex(s: seq<int>, index: seq<int>): (r: seq<int>)
    requires forall k | 0 <= k < |index| :: 0 <= index[k] < |s|
    ensures |r| == |index| && forall k | 0 <= k < |index| :: r[k] == s[index[k]]
  {
    if |index| == 0 then [] else [s[index[0]]] + Reindex(s, index[1..])
  }

  /** The exchange between epochs, with the result each record came from carried along. */
  method ExchangeTracked(d: Distance, n: nat, slots: seq<Slot>,
                         ghost found: seq<seq<int>>, ghost source: seq<int>, ghost holder: seq<int>)
    returns (slots': seq<Slot>, ghost source': seq<int>)
    requires Tracks(d, slots, found, source, holder, n)
    ensures slots' == ExchangeUpTo(slots, |slots|) && Tracks(d, slots', found, source', holder, n)
  {
    ghost var origin;
    slots', origin := ExchangeBestIndividuals(slots);
    source' := Reindex(source, origin);
    TracksExchange(d, slots, slots', origin, found, source, holder, n, source');
  }

  /**
    `runIslandModel`: `epochs` rounds; in each, every island runs the genetic
    algorithm on `populationSize / numberOfIslands` individuals for
    `iterationsPerEpoch` generations and records its result; the exchange runs
    after every epoch but the last. The answer is a shortest tour among all
    tours the island runs returned, and `None` exactly when none returned one.
   */
  method RunIslandModel(d: Distance, n: nat, populationSize: nat, epochs: int, iterationsPerEpoch: int,
                        numberOfIslands: nat, runs: seq<seq<IslandRun>>)
    returns (best: Option<seq<int>>, ghost found: seq<seq<int>>)
    requires n >= 1 && numberOfIslands >= 1
    requires |runs| == (if epochs < 0 then 0 else epochs)
    requires forall e | 0 <= e < |runs| :: |runs[e]| == numberOfIslands
    requires forall e, i | 0 <= e < |runs| && 0 <= i < |runs[e]| ::
      ValidRunDraws(n, populationSize / numberOfIslands, iterationsPerEpoch, runs[e][i].initial, runs[e][i].draws)
    ensures |found| == (if populationSize / numberOfIslands == 0 || iterationsPerEpoch <= 0 then 0
                        else |runs| * numberOfIslands)
    ensures forall q | 0 <= q < |found| :: IsPermutation(found[q], n)
    ensures best.None? <==> |found| == 0
    ensures best.Some? ==> (best.value in found && IsPermutation(best.value, n)
      && forall q | 0 <= q < |found| :: |found[q]| == n && TourLength(d, best.value) <= TourLength(d, found[q]))
    ensures best.None? <==> populationSize / numberOfIslands == 0 || iterationsPerEpoch <= 0 || epochs <= 0
    ensures best.Some? ==> IsPermutation(best.value, n)
    ensures found == AllResults(Outcome(d, n, populationSize / numberOfIslands, iterationsPerEpoch), runs)
  {
    var islandSize := populationSize / numberOfIslands;
    var slots;
    ghost var source, holder;
    slots, found, source, holder := RunEpochs(d, n, islandSize, epochs, iterationsPerEpoch, numberOfIslands, runs);
    assert |found| > 0 ==> islandSize > 0 && iterationsPerEpoch > 0 && epochs > 0;
    if islandSize > 0 && iterationsPerEpoch > 0 && epochs > 0 {
      PositiveProduct(|runs|, numberOfIslands);
    }
    ghost var at;
    best, at := SelectGlobalBest(slots);
    TracksConclude(d, slots, found, source, holder, n, best, at);
  }

  lemma PositiveProduct(a: nat, b: nat)
    requires a >= 1 && b >= 1
    ensures a * b >= 1
  {
  }

  /** The epochs of `runIslandModel`, starting from fresh islands. */
  method RunEpochs(d: Distance, n: nat, islandSize: nat, epochs: int, iterationsPerEpoch: int,
                   numberOfIslands: nat, runs: seq<seq<IslandRun>>)
    returns (slots: seq<Slot>, ghost found: seq<seq<int>>, ghost source: seq<int>, ghost holder: seq<int>)
    requires n >= 1
    requires |runs| == (if epochs < 0 then 0 else epochs)
    requires forall e | 0 <= e < |runs| :: |runs[e]| == numberOfIslands
    requires forall e, i | 0 <= e < |runs| && 0 <= i < |runs[e]| ::
      ValidRunDraws(n, islandSize, iterationsPerEpoch, runs[e][i].initial, runs[e][i].draws)
    ensures |slots| == numberOfIslands && Tracks(d, slots, found, source, holder, n)
    ensures |found| == if islandSize > 0 && iterationsPerEpoch > 0 then |runs| * numberOfIslands else 0
    ensures found == AllResults(Outcome(d, n, islandSize, iterationsPerEpoch), runs)
  {
    var producing := islandSize > 0 && iterationsPerEpoch > 0;
    slots := seq(numberOfIslands, _ => EmptySlot);
    found := [];
    source := seq(numberOfIslands, _ => 0);
    holder := [];
    var epoch := 0;
    while epoch < epochs
      invariant 0 <= epoch <= |runs| && (epoch > 0 ==> epoch <= epochs)
      invariant |slots| == numberOfIslands && Tracks(d, slots, found, source, holder, n)
      invariant |found| == if producing then epoch * numberOfIslands else 0
      invariant found == AllResults(Outcome(d, n, islandSize, iterationsPerEpoch), runs[..epoch])
    {
      slots, found, source, holder :=
        RunEpoch(d, n, islandSize, iterationsPerEpoch, runs[epoch], epoch < epochs - 1, slots, found, source, holder);
      assert producing ==> epoch * numberOfIslands + numberOfIslands == (epoch + 1) * numberOfIslands;
      AllResultsStep(Outcome(d, n, islandSize, iterationsPerEpoch), runs, epoch);
      epoch := epoch + 1;
    }
    assert runs[..epoch] == runs;
  }
}

=== FILE: local_search.dfy ===
/**
  The two swap-based local searches. Both walk the positions
  i = 0, ..., |path| - 2 once and try exchanging position i with randomly
  drawn positions j (a draw equal to i is skipped); every trial swap is
  undone, so here a trial is the value `Swap(path, i, j)`.

  - Best of a sample: for each i, `|path|` draws; the best strictly improving
    swap is applied.
  - First improvement: for each i, up to `numNeighbors` draws; the first
    strictly improving swap is kept, and the whole search stops at the first
    position without one.

  The path is any non-empty list of cities (the best-of-sample search runs on
  the closed MST walk, whose start city appears twice).
 */
module LocalSearch {
  import opened Permutations
  import opened Tours
  import opened Moves

  /** The length of `path` with positions i and j exchanged. */
  function SwapLength(d: Distance, path: seq<int>, i: int, j: int): nat
    requires 0 <= i < |path| && 0 <= j < |path|
  {
    TourLength(d, Swap(path, i, j))
  }

  /** Draws of `random.nextInt(path.size())`. */
  predicate DrawsIn(js: seq<int>, size: int) {
    forall k | 0 <= k < |js| :: 0 <= js[k] < size
  }

  /** The draws of every position i = 0, ..., size - 2, `perPosition` of them each. */
  predicate ValidDraws(draws: seq<seq<int>>, size: int, perPosition: int) {
    && |draws| == (if size < 1 then 0 else size - 1)
    && forall i | 0 <= i < |draws| :: |draws[i]| == (if perPosition < 0 then 0 else perPosition) && DrawsIn(draws[i], size)
  }

  /** The search state: the path, its length as tracked by the loop, and the number of steps taken. */
  datatype Search = Search(path: seq<int>, distance: nat, steps: nat)

  /** The tracked length is the path's length. */
  predicate Consistent(d: Distance, s: Search) {
    |s.path| > 0 && s.distance == TourLength(d, s.path)
  }

  /** The lengths of the trial swaps of position i with the draws `js`, in draw order. */
  function TrialLengths(d: Distance, path: seq<int>, i: int, js: seq<int>): (r: seq<nat>)
    requires 0 <= i < |path| && DrawsIn(js, |path|)
    ensures |r| == |js| && forall k | 0 <= k < |js| :: r[k] == SwapLength(d, path, i, js[k])
    decreases |js|
  {
    if |js| == 0 then [] else [SwapLength(d, path, i, js[0])] + TrialLengths(d, path, i, js[1..])
  }

  /** The best-of-sample loop's choice: the swap partner `bestJ` and its length `bestDistance`. */
  datatype Best = Best(j: int, distance: nat)

  /**
    The sampling loop for position i, starting from `bestJ = i + 1` and
    `bestDistance = currentDistance`, over the draws `js` whose swaps have
    the lengths `lengths`: a draw replaces the choice only with a strictly
    shorter swap. The result is the least length among the current one and
    the sampled swaps; `bestJ` stays `i + 1` exactly when no sampled swap is
    strictly shorter than the current path.
   */
  function SampleBest(i: int, current: nat, js: seq<int>, lengths: seq<nat>): (b: Best)
    requires |lengths| == |js|
    ensures b.distance <= current
    ensures forall k | 0 <= k < |js| && js[k] != i :: b.distance <= lengths[k]
    ensures b.distance < current ==> exists k :: 0 <= k < |js| && js[k] == b.j && b.j != i && lengths[k] == b.distance
    ensures b.distance == current ==> b.j == i + 1
    decreases |js|
  {
    if |js| == 0 then Best(i + 1, current)
    else
      var last := |js| - 1;
      var prev := SampleBest(i, current, js[..last], lengths[..last]);
      assert forall k | 0 <= k < last :: js[..last][k] == js[k] && lengths[..last][k] == lengths[k];
      if js[last] == i then prev
      else if lengths[last] < prev.distance then Best(js[last], lengths[last]) else prev
  }

  /** The choice of the sampling loop for position i of `s`. */
  function Choice(d: Distance, s: Search, i: int, js: seq<int>): (b: Best)
    requires Consistent(d, s) && 0 <= i < |s.path| - 1 && DrawsIn(js, |s.path|)
    ensures b.distance <= s.distance
    ensures forall k | 0 <= k < |js| && js[k] != i :: b.distance <= SwapLength(d, s.path, i, js[k])
    ensures b.distance < s.distance ==> b.j != i && 0 <= b.j < |s.path| && b.distance == SwapLength(d, s.path, i, b.j)
    ensures b.distance == s.distance ==> b.j == i + 1
  {
    var lengths := TrialLengths(d, s.path, i, js);
    var b := SampleBest(i, s.distance, js, lengths);
    assert b.distance < s.distance ==> exists k :: 0 <= k < |js| && js[k] == b.j && lengths[k] == b.distance;
    b
  }

  /**
    Position i of the best-of-sample search as written: the chosen swap is
    applied when `bestJ != i + 1`. An improving swap whose partner is i + 1
    itself is therefore thrown away.
   */
  function BestOfSampleStepAsWritten(d: Distance, s: Search, i: int, js: seq<int>): (r: Search)
    requires Consistent(d, s) && 0 <= i < |s.path| - 1 && DrawsIn(js, |s.path|)
    ensures Consistent(d, r) && IsRearrangement(s.path, r.path) && |r.path| == |s.path|
    ensures r.distance <= s.distance && (r.steps == s.steps || (r.steps == s.steps + 1 && r.distance < s.distance))
  {
    var b := Choice(d, s, i, js);
    if b.j != i + 1 then Search(Swap(s.path, i, b.j), b.distance, s.steps + 1) else s
  }

  /**
    The step as written moves exactly when some sampled swap is strictly
    shorter and the chosen partner is not i + 1; it then moves to a sampled
    swap of least length among the sampled ones. Otherwise nothing changes.
   */
  lemma BestOfSampleStepAsWrittenMoves(d: Distance, s: Search, i: int, js: seq<int>)
    requires Consistent(d, s) && 0 <= i < |s.path| - 1 && DrawsIn(js, |s.path|)
    ensures var r, b := BestOfSampleStepAsWritten(d, s, i, js), Choice(d, s, i, js);
      && (r.steps == s.steps + 1 <==>
            (exists k :: 0 <= k < |js| && js[k] != i && SwapLength(d, s.path, i, js[k]) < s.distance) && b.j != i + 1)
      && (r.steps == s.steps + 1 ==>
            && (exists k :: 0 <= k < |js| && js[k] == b.j != i && r.path == Swap(s.path, i, js[k]))
            && r.distance == SwapLength(d, s.path, i, b.j)
            && forall k | 0 <= k < |js| && js[k] != i :: r.distance <= SwapLength(d, s.path, i, js[k]))
      && (r.steps == s.steps ==> r == s)
  {
    SampledPartner(d, s, i, js);
  }

  /** A strictly shorter choice is the partner of some sampled draw. */
  lemma SampledPartner(d: Distance, s: Search, i: int, js: seq<int>)
    requires Consistent(d, s) && 0 <= i < |s.path| - 1 && DrawsIn(js, |s.path|)
    ensures var b := Choice(d, s, i, js);
      b.distance < s.distance ==> exists k :: 0 <= k < |js| && js[k] == b.j != i && SwapLength(d, s.path, i, js[k]) < s.distance
  {
    var lengths := TrialLengths(d, s.path, i, js);
    var b := SampleBest(i, s.distance, js, lengths);
    if b.distance < s.distance {
      var k :| 0 <= k < |js| && js[k] == b.j && b.j != i && lengths[k] == b.distance;
      assert js[k] == b.j != i && SwapLength(d, s.path, i, js[k]) < s.distance;
    }
  }

  /** Position i of the best-of-sample search as evidently intended: apply the best swap whenever it improves. */
  function BestOfSampleStep(d: Distance, s: Search, i: int, js: seq<int>): (r: Search)
    requires Consistent(d, s) && 0 <= i < |s.path| - 1 && DrawsIn(js, |s.path|)
    ensures Consistent(d, r) && IsRearrangement(s.path, r.path) && |r.path| == |s.path|
    ensures r.distance <= s.distance && (r.steps == s.steps || (r.steps == s.steps + 1 && r.distance < s.distance))
  {
    var b := Choice(d, s, i, js);
    if b.distance < s.distance then Search(Swap(s.path, i, b.j), b.distance, s.steps + 1) else s
  }

  /**
    The corrected step moves exactly when some sampled swap is strictly
    shorter, and then to a sampled swap of least length; otherwise nothing
    changes.
   */
  lemma BestOfSampleStepImproves(d: Distance, s: Search, i: int, js: seq<int>)
    requires Consistent(d, s) && 0 <= i < |s.path| - 1 && DrawsIn(js, |s.path|)
    ensures var r := BestOfSampleStep(d, s, i, js);
      && (r.distance < s.distance <==> exists k :: 0 <= k < |js| && js[k] != i && SwapLength(d, s.path, i, js[k]) < s.distance)
      && (forall k | 0 <= k < |js| && js[k] != i :: r.distance <= SwapLength(d, s.path, i, js[k]))
      && (r.distance < s.distance ==>
            exists k :: 0 <= k < |js| && js[k] != i && r.path == Swap(s.path, i, js[k]) && r.distance == SwapLength(d, s.path, i, js[k]))
      && (r.distance == s.distance ==> r == s)
  {
    SampledPartner(d, s, i, js);
  }

  /** The positions i, ..., |path| - 2 of the best-of-sample search; `asWritten` selects the step. */
  function BestOfSampleFrom(d: Distance, s: Search, i: nat, draws: seq<seq<int>>, asWritten: bool): (r: Search)
    requires Consistent(d, s) && ValidDraws(draws, |s.path|, |s.path|) && i <= |s.path| - 1
    ensures Consistent(d, r) && IsRearrangement(s.path, r.path) && |r.path| == |s.path|
    ensures r.steps >= s.steps && r.steps - s.steps <= |s.path| - 1 - i
    ensures r.distance + (r.steps - s.steps) <= s.distance
    decreases |s.path| - i
  {
    if i == |s.path| - 1 then s
    else
      var s' := if asWritten then BestOfSampleStepAsWritten(d, s, i, draws[i]) else BestOfSampleStep(d, s, i, draws[i]);
      var r := BestOfSampleFrom(d, s', i + 1, draws, asWritten);
      assert IsRearrangement(s.path, s'.path);
      r
  }

  /**
    zad1's `localSearch`: every position is visited once. The path stays a
    rearrangement of its input, the tracked length is its length, at most
    |path| - 1 steps are taken and each one shortens the path.
   */
  function BestOfSample(d: Distance, path: seq<int>, draws: seq<seq<int>>, asWritten: bool): (r: Search)
    requires |path| > 0 && ValidDraws(draws, |path|, |path|)
    ensures Consistent(d, r) && IsRearrangement(path, r.path) && |r.path| == |path|
    ensures r.steps <= |path| - 1 && r.distance + r.steps <= TourLength(d, path)
  {
    BestOfSampleFrom(d, Search(path, TourLength(d, path), 0), 0, draws, asWritten)
  }

  /** Draws that all equal i are all skipped: the choice stays at `i + 1` and the current length. */
  lemma {:induction false} SampleSkipsAll(i: int, current: nat, js: seq<int>, lengths: seq<nat>)
    requires |lengths| == |js| && forall k | 0 <= k < |js| :: js[k] == i
    ensures SampleBest(i, current, js, lengths) == Best(i + 1, current)
    decreases |js|
  {
    if |js| > 0 {
      var last := |js| - 1;
      SampleSkipsAll(i, current, js[..last], lengths[..last]);
    }
  }

  /** Draws that all name the same partner j with the same shorter length choose j. */
  lemma {:induction false} SampleSameDraw(i: int, current: nat, js: seq<int>, lengths: seq<nat>, j: int, len: nat)
    requires |lengths| == |js| && |js| > 0 && j != i && len < current
    requires forall k | 0 <= k < |js| :: js[k] == j && lengths[k] == len
    ensures SampleBest(i, current, js, lengths) == Best(j, len)
    decreases |js|
  {
    var last := |js| - 1;
    if last > 0 {
      SampleSameDraw(i, current, js[..last], lengths[..last], j, len);
    } else {
      SampleSkipsAll(i, current, js[..last], lengths[..last]);
    }
  }

  /** The distance of the four-city instance: 1 between neighbours on the cycle 0-1-2-3, 10 across. */
  function SquareDistance(a: int, b: int): nat {
    if a - b == 1 || b - a == 1 || a - b == 3 || b - a == 3 then 1 else 10
  }

  lemma SquareLengths()
    ensures TourLength(SquareDistance, [0, 2, 1, 3]) == 22
    ensures TourLength(SquareDistance, [0, 1, 2, 3]) == 4
    ensures Swap([0, 2, 1, 3], 1, 2) == [0, 1, 2, 3]
  {
    var p, q := [0, 2, 1, 3], [0, 1, 2, 3];
    assert p[..3][..2] == p[..2] && p[..2][..1] == p[..1];
    assert PathWeight(SquareDistance, p[..2]) == 10;
    assert PathWeight(SquareDistance, p[..3]) == 11;
    assert q[..3][..2] == q[..2] && q[..2][..1] == q[..1];
    assert PathWeight(SquareDistance, q[..2]) == 1;
    assert PathWeight(SquareDistance, q[..3]) == 2;
  }

  /** Positions 0 and 2 of the four-city instance draw only themselves, so neither step moves. */
  lemma SquareSkippedPositions(s: Search, i: int)
    requires (i == 0 || i == 2) && Consistent(SquareDistance, s) && |s.path| == 4
    ensures BestOfSampleStepAsWritten(SquareDistance, s, i, [i, i, i, i]) == s
    ensures BestOfSampleStep(SquareDistance, s, i, [i, i, i, i]) == s
  {
    SampleSkipsAll(i, s.distance, [i, i, i, i], TrialLengths(SquareDistance, s.path, i, [i, i, i, i]));
  }

  /** At position 1 of the path 0, 2, 1, 3 every draw is 2, whose swap shortens the path from 22 to 4. */
  lemma SquareChoice()
    ensures Consistent(SquareDistance, Search([0, 2, 1, 3], 22, 0))
    ensures Choice(SquareDistance, Search([0, 2, 1, 3], 22, 0), 1, [2, 2, 2, 2]) == Best(2, 4)
  {
    SquareLengths();
    var lengths := TrialLengths(SquareDistance, [0, 2, 1, 3], 1, [2, 2, 2, 2]);
    SampleSameDraw(1, 22, [2, 2, 2, 2], lengths, 2, 4);
  }

  /** The draws of the four-city instance: positions 0 and 2 draw only themselves, position 1 only 2. */
  function SquareDraws(): (draws: seq<seq<int>>)
    ensures ValidDraws(draws, 4, 4)
  {
    [[0, 0, 0, 0], [2, 2, 2, 2], [2, 2, 2, 2]]
  }

  /** One position of the best-of-sample search, unfolded. */
  lemma BestOfSampleFromStep(d: Distance, s: Search, i: nat, draws: seq<seq<int>>, asWritten: bool, s': Search)
    requires Consistent(d, s) && ValidDraws(draws, |s.path|, |s.path|) && i < |s.path| - 1
    requires s' == if asWritten then BestOfSampleStepAsWritten(d, s, i, draws[i]) else BestOfSampleStep(d, s, i, draws[i])
    ensures BestOfSampleFrom(d, s, i, draws, asWritten) == BestOfSampleFrom(d, s', i + 1, draws, asWritten)
  {
  }

  /**
    A four-city instance where the search as written keeps a longer path: the
    path 0, 2, 1, 3 has length 22; at position 1 every draw is 2, and
    swapping positions 1 and 2 gives length 4, yet the swap is discarded
    because its partner is 1 + 1.
   */
  lemma BestOfSampleDropsAdjacentSwap()
    ensures BestOfSample(SquareDistance, [0, 2, 1, 3], SquareDraws(), true) == Search([0, 2, 1, 3], 22, 0)
  {
    var draws := SquareDraws();
    assert draws == [[0, 0, 0, 0], [2, 2, 2, 2], [2, 2, 2, 2]];
    SquareLengths();
    SquareChoice();
    var s0 := Search([0, 2, 1, 3], 22, 0);
    SquareSkippedPositions(s0, 0);
    SquareSkippedPositions(s0, 2);
    assert BestOfSampleStepAsWritten(SquareDistance, s0, 1, draws[1]) == s0;
    BestOfSampleFromStep(SquareDistance, s0, 0, draws, true, s0);
    BestOfSampleFromStep(SquareDistance, s0, 1, draws, true, s0);
    BestOfSampleFromStep(SquareDistance, s0, 2, draws, true, s0);
  }

  /** On the same instance the corrected search takes the swap and reaches length 4 in one step. */
  lemma BestOfSampleTakesAdjacentSwap()
    ensures BestOfSample(SquareDistance, [0, 2, 1, 3], SquareDraws(), false) == Search([0, 1, 2, 3], 4, 1)
  {
    var draws := SquareDraws();
    assert draws == [[0, 0, 0, 0], [2, 2, 2, 2], [2, 2, 2, 2]];
    SquareLengths();
    SquareChoice();
    var s0, s1 := Search([0, 2, 1, 3], 22, 0), Search([0, 1, 2, 3], 4, 1);
    SquareSkippedPositions(s0, 0);
    SquareSkippedPositions(s1, 2);
    assert BestOfSampleStep(SquareDistance, s0, 1, draws[1]) == s1;
    BestOfSampleFromStep(SquareDistance, s0, 0, draws, false, s0);
    BestOfSampleFromStep(SquareDistance, s0, 1, draws, false, s1);
    BestOfSampleFromStep(SquareDistance, s1, 2, draws, false, s1);
  }

  /**
    The sampling loop of the first-improvement search at position i over
    draws `js` whose swaps have the lengths `lengths`: the index of the first
    draw, other than i itself, whose swap is strictly shorter than the
    current length, or `None` when there is none.
   */
  function FirstImproving(i: int, current: nat, js: seq<int>, lengths: seq<nat>): (r: Option<nat>)
    requires |lengths| == |js|
    ensures r.Some? ==> r.value < |js| && js[r.value] != i && lengths[r.value] < current
    ensures r.Some? ==> forall k | 0 <= k < r.value :: js[k] == i || lengths[k] >= current
    ensures r.None? ==> forall k | 0 <= k < |js| :: js[k] == i || lengths[k] >= current
    decreases |js|
  {
    if |js| == 0 then None
    else if js[0] != i && lengths[0] < current then Some(0)
    else
      var rest := FirstImproving(i, current, js[1..], lengths[1..]);
      assert forall k | 1 <= k < |js| :: js[k] == js[1..][k - 1] && lengths[k] == lengths[1..][k - 1];
      match rest
      case None => None
      case Some(k) => Some(k + 1)
  }

  /** The draw the first-improvement loop keeps at position i of `s`, if any. */
  function FirstChoice(d: Distance, s: Search, i: int, js: seq<int>): (r: Option<nat>)
    requires Consistent(d, s) && 0 <= i < |s.path| && DrawsIn(js, |s.path|)
    ensures r.Some? ==> r.value < |js| && js[r.value] != i && SwapLength(d, s.path, i, js[r.value]) < s.distance
    ensures r.Some? ==> forall k | 0 <= k < r.value :: js[k] == i || SwapLength(d, s.path, i, js[k]) >= s.distance
    ensures r.None? ==> forall k | 0 <= k < |js| :: js[k] == i || SwapLength(d, s.path, i, js[k]) >= s.distance
  {
    FirstImproving(i, s.distance, js, TrialLengths(d, s.path, i, js))
  }

  /** Position i of zad2's `localSearch`: the path after the kept swap, or `None` when no draw improves. */
  function FirstImprovementStep(d: Distance, s: Search, i: int, js: seq<int>): (r: Option<Search>)
    requires Consistent(d, s) && 0 <= i < |s.path| && DrawsIn(js, |s.path|)
    ensures r.None? <==> FirstChoice(d, s, i, js).None?
    ensures r.Some? ==> Consistent(d, r.value) && IsRearrangement(s.path, r.value.path) && |r.value.path| == |s.path|
    ensures r.Some? ==> r.value.distance < s.distance && r.value.steps == s.steps + 1
    ensures r.Some? ==> var k := FirstChoice(d, s, i, js).value;
      r.value.path == Swap(s.path, i, js[k]) && r.value.distance == SwapLength(d, s.path, i, js[k])
  {
    match FirstChoice(d, s, i, js)
    case None => None
    case Some(k) => Some(Search(Swap(s.path, i, js[k]), SwapLength(d, s.path, i, js[k]), s.steps + 1))
  }

  /**
    The positions i, ..., |path| - 2 of zad2's `localSearch`: keep the first
    improving swap and go on, or stop at the first position without one.
    Every step shortens the path, and when the search stops early, position
    i + (steps taken) has no improving draw for the final path.
   */
  function FirstImprovementFrom(d: Distance, s: Search, i: nat, draws: seq<seq<int>>, numNeighbors: int): (r: Search)
    requires Consistent(d, s) && ValidDraws(draws, |s.path|, numNeighbors) && i <= |s.path| - 1
    ensures Consistent(d, r) && IsRearrangement(s.path, r.path) && |r.path| == |s.path|
    ensures r.steps >= s.steps && r.steps - s.steps <= |s.path| - 1 - i
    ensures r.distance + (r.steps - s.steps) <= s.distance
    decreases |s.path| - i
  {
    if i == |s.path| - 1 then s
    else
      match FirstImprovementStep(d, s, i, draws[i])
      case None => s
      case Some(s') =>
        var r := FirstImprovementFrom(d, s', i + 1, draws, numNeighbors);
        assert IsRearrangement(s.path, s'.path);
        r
  }

  /**
    When the first-improvement search stops before the last position, it
    stops at position i + (steps taken), and no draw of that position
    improves the final path.
   */
  lemma {:induction false} FirstImprovementStops(d: Distance, s: Search, i: nat, draws: seq<seq<int>>, numNeighbors: int)
    requires Consistent(d, s) && ValidDraws(draws, |s.path|, numNeighbors) && i <= |s.path| - 1
    ensures var r := FirstImprovementFrom(d, s, i, draws, numNeighbors);
      var stop := i + (r.steps - s.steps);
      stop < |s.path| - 1 ==> FirstChoice(d, r, stop, draws[stop]).None?
    decreases |s.path| - i, 1
  {
    if i < |s.path| - 1 {
      var step := FirstImprovementStep(d, s, i, draws[i]);
      if step.None? {
        FirstImprovementHalts(d, s, i, draws, numNeighbors);
      } else {
        FirstImprovementGoesOn(d, s, step.value, i, draws, numNeighbors);
        FirstImprovementStopsLater(d, s, step.value, i, draws, numNeighbors);
      }
    }
  }

  /** The search continued from s' at position i + 1 stops where the search from s at position i does. */
  lemma {:induction false} FirstImprovementStopsLater(d: Distance, s: Search, s': Search, i: nat, draws: seq<seq<int>>, numNeighbors: int)
    requires Consistent(d, s) && ValidDraws(draws, |s.path|, numNeighbors) && i < |s.path| - 1
    requires Consistent(d, s') && |s'.path| == |s.path| && s'.steps == s.steps + 1
    requires FirstImprovementFrom(d, s, i, draws, numNeighbors) == FirstImprovementFrom(d, s', i + 1, draws, numNeighbors)
    ensures var r := FirstImprovementFrom(d, s, i, draws, numNeighbors);
      var stop := i + (r.steps - s.steps);
      stop < |s.path| - 1 ==> FirstChoice(d, r, stop, draws[stop]).None?
    decreases |s.path| - i, 0
  {
    FirstImprovementStops(d, s', i + 1, draws, numNeighbors);
    assert var r := FirstImprovementFrom(d, s', i + 1, draws, numNeighbors);
      var stop := i + 1 + (r.steps - s'.steps);
      stop < |s'.path| - 1 ==> FirstChoice(d, r, stop, draws[stop]).None?;
  }

  /** A position without an improving draw ends the first-improvement search there. */
  lemma FirstImprovementHalts(d: Distance, s: Search, i: nat, draws: seq<seq<int>>, numNeighbors: int)
    requires Consistent(d, s) && ValidDraws(draws, |s.path|, numNeighbors) && i < |s.path| - 1
    requires FirstImprovementStep(d, s, i, draws[i]).None?
    ensures FirstImprovementFrom(d, s, i, draws, numNeighbors) == s
    ensures FirstChoice(d, s, i, draws[i]).None?
  {
  }

  /** A kept swap at position i hands the search on to position i + 1, one step later. */
  lemma FirstImprovementGoesOn(d: Distance, s: Search, s': Search, i: nat, draws: seq<seq<int>>, numNeighbors: int)
    requires Consistent(d, s) && ValidDraws(draws, |s.path|, numNeighbors) && i < |s.path| - 1
    requires FirstImprovementStep(d, s, i, draws[i]) == Some(s')
    ensures Consistent(d, s') && |s'.path| == |s.path| && s'.steps == s.steps + 1
    ensures FirstImprovementFrom(d, s, i, draws, numNeighbors) == FirstImprovementFrom(d, s', i + 1, draws, numNeighbors)
  {
  }

  /**
    zad2's `localSearch`: the path stays a rearrangement of its input, the
    returned length is its length, the number of steps is the number of
    positions improved before the search stopped (at most |path| - 1), and
    every step shortens the path.
   */
  function FirstImprovement(d: Distance, path: seq<int>, draws: seq<seq<int>>, numNeighbors: int): (r: Search)
    requires |path| > 0 && ValidDraws(draws, |path|, numNeighbors)
    ensures Consistent(d, r) && IsRearrangement(path, r.path) && |r.path| == |path|
    ensures r.steps <= |path| - 1 && r.distance + r.steps <= TourLength(d, path)
  {
    FirstImprovementFrom(d, Search(path, TourLength(d, path), 0), 0, draws, numNeighbors)
  }
}

=== FILE: minimum.dfy ===
/**
  The running minimum every scan of the solvers keeps: a best-so-far value
  that starts at Double.MAX_VALUE and is replaced only by a strictly smaller
  score. Scores are `Cost`s; a candidate the scan skips scores `Infinite`.
 */
module Minimum {
  import opened Tours

  predicate AllInfinite(c: seq<Cost>) {
    forall k | 0 <= k < |c| :: c[k].Infinite?
  }

  /** Position `at` holds a least finite score and every earlier score is strictly larger. */
  predicate EarliestLeast(c: seq<Cost>, at: int) {
    && 0 <= at < |c| && c[at].Finite?
    && (forall k | 0 <= k < |c| :: c[at].AtMost(c[k]))
    && (forall k | 0 <= k < at :: c[at].Below(c[k]))
  }

  /**
    The state of a strict-`<` scan over the scores `c`: `found` is false
    exactly when no score was finite, and then `least` is still
    Double.MAX_VALUE; otherwise `least` is the earliest least score, at `at`.
   */
  predicate RunningMin(c: seq<Cost>, found: bool, least: Cost, at: int) {
    && (found <==> !AllInfinite(c))
    && (!found ==> least == Infinite)
    && (found ==> EarliestLeast(c, at) && least == c[at])
  }

  /** One more score: a strictly smaller one takes over, anything else leaves the minimum in place. */
  lemma RunningMinStep(c: seq<Cost>, x: Cost, found: bool, least: Cost, at: int)
    requires RunningMin(c, found, least, at)
    ensures x.Below(least) ==> RunningMin(c + [x], true, x, |c|)
    ensures !x.Below(least) ==> RunningMin(c + [x], found, least, at)
  {
    var c' := c + [x];
    forall k | 0 <= k < |c|
      ensures c'[k] == c[k]
    {
    }
    if x.Below(least) {
      forall k | 0 <= k < |c|
        ensures x.Below(c[k])
      {
        if found {
          assert c[at].AtMost(c[k]);
        }
      }
      assert c'[|c|] == x;
      assert forall k | 0 <= k < |c'| :: c'[|c|].AtMost(c'[k]);
      assert forall k | 0 <= k < |c| :: c'[|c|].Below(c'[k]);
    }
  }

  /**
    The position a strict-`<` scan over `c` settles on, as a value: the
    earliest least finite score. Some score must be finite.
   */
  function LeastAt(c: seq<Cost>): (at: int)
    requires !AllInfinite(c)
    ensures EarliestLeast(c, at)
    decreases |c|
  {
    var m := |c| - 1;
    var init := c[..m];
    assert c == init + [c[m]];
    if AllInfinite(init) then
      RunningMinStep(init, c[m], false, Infinite, 0);
      m
    else
      var a := LeastAt(init);
      RunningMinStep(init, c[m], true, init[a], a);
      if c[m].Below(init[a]) then m else a
  }

  /** At most one position is the earliest least score. */
  lemma EarliestLeastUnique(c: seq<Cost>, a: int, b: int)
    requires EarliestLeast(c, a) && EarliestLeast(c, b)
    ensures a == b
  {
  }
}

=== FILE: moves.dfy ===
/**
  Local moves on tours: the position swap of the local searches and the
  genetic mutation, and the segment inversion (2-opt move) of tabu search and
  simulated annealing. Arrays that the source clones or mutates in place are
  values here; an in-place routine returns the new contents.
 */
module Moves {
  import opened Permutations

  /** Exchange the entries at positions i and j (`Collections.swap`). */
  function Swap(s: seq<int>, i: int, j: int): (r: seq<int>)
    requires 0 <= i < |s| && 0 <= j < |s|
    ensures |r| == |s| && r[i] == s[j] && r[j] == s[i]
    ensures forall k | 0 <= k < |s| && k != i && k != j :: r[k] == s[k]
  {
    s[i := s[j]][j := s[i]]
  }

  /** A swap only exchanges two entries. */
  lemma SwapRearranges(s: seq<int>, i: int, j: int)
    requires 0 <= i < |s| && 0 <= j < |s|
    ensures IsRearrangement(s, Swap(s, i, j))
  {
  }

  lemma SwapPreservesPermutation(s: seq<int>, i: int, j: int, n: int)
    requires 0 <= i < |s| && 0 <= j < |s|
    requires IsPermutation(s, n)
    ensures IsPermutation(Swap(s, i, j), n)
  {
    RearrangementPreservesPermutation(s, Swap(s, i, j), n);
  }

  /**
    The source's `invertSegment`: swap the outermost pair of the segment and
    move inwards while `start < end`. A segment with `start >= end` leaves the
    copy identical to the input.
   */
  function InvertSegment(s: seq<int>, start: int, end: int): (r: seq<int>)
    requires 0 <= start && end < |s|
    ensures |r| == |s|
    ensures forall k | 0 <= k < |s| && start <= k <= end :: r[k] == s[start + end - k]
    ensures forall k | 0 <= k < |s| && !(start <= k <= end) :: r[k] == s[k]
    ensures IsRearrangement(s, r)
    decreases end - start
  {
    if start < end then InvertSegment(Swap(s, start, end), start + 1, end - 1) else s
  }

  lemma InvertSegmentPreservesPermutation(s: seq<int>, start: int, end: int, n: int)
    requires 0 <= start && end < |s|
    requires IsPermutation(s, n)
    ensures IsPermutation(InvertSegment(s, start, end), n)
  {
    RearrangementPreservesPermutation(s, InvertSegment(s, start, end), n);
  }

  /** Inverting the same segment twice restores the tour. */
  lemma InvertSegmentInvolution(s: seq<int>, start: int, end: int)
    requires 0 <= start && end < |s|
    ensures InvertSegment(InvertSegment(s, start, end), start, end) == s
  {
  }

  /** A segment with `start >= end` is no move at all. */
  lemma InvertEmptySegment(s: seq<int>, start: int, end: int)
    requires 0 <= start && end < |s| && start >= end
    ensures InvertSegment(s, start, end) == s
  {
  }

  /**
    The sampled tabu search's `applyMove`: the same inward swapping loop run in
    place on the current solution.
   */
  method ApplyMove(solution: seq<int>, first: int, second: int) returns (r: seq<int>)
    requires 0 <= first && second < |solution|
    ensures r == InvertSegment(solution, first, second)
  {
    r := solution;
    var start, end := first, second;
    while start < end
      invariant first <= start && end <= second && start - first == second - end
      invariant start <= end + 1 || (start == first && end == second)
      invariant |r| == |solution|
      invariant forall k | first <= k < start :: r[k] == solution[first + second - k]
      invariant forall k | end < k <= second :: r[k] == solution[first + second - k]
      invariant forall k | 0 <= k < |r| && !(first <= k < start) && !(end < k <= second) :: r[k] == solution[k]
      decreases end - start
    {
      var temp := r[start];
      r := r[start := r[end]];
      r := r[end := temp];
      start, end := start + 1, end - 1;
    }
    ghost var target := InvertSegment(solution, first, second);
    forall k | 0 <= k < |r|
      ensures r[k] == target[k]
    {
      if first <= k <= second {
        assert target[k] == solution[first + second - k];
        if start <= k <= end {
          assert k == start && k == end;
        }
      } else {
        assert target[k] == solution[k];
      }
    }
  }

  /**
    The position a retry loop `b = nextInt(n); while (b == a) b = nextInt(n);`
    settles on, given the successive draws: the first draw different from `a`.
   */
  function FirstDifferent(draws: seq<int>, a: int): (k: nat)
    requires exists k :: 0 <= k < |draws| && draws[k] != a
    ensures k < |draws| && draws[k] != a
    ensures forall k' | 0 <= k' < k :: draws[k'] == a
  {
    if draws[0] != a then 0 else 1 + FirstDifferent(draws[1..], a)
  }

  /**
    With fewer than two cities every draw from [0, n) equals the first one, so
    no retry loop of that shape can ever exit.
   */
  lemma RetryNeedsTwoCities(n: int, a: int, draws: seq<int>)
    requires n < 2 && 0 <= a < n
    requires forall k | 0 <= k < |draws| :: 0 <= draws[k] < n
    ensures !(exists k :: 0 <= k < |draws| && draws[k] != a)
  {
  }

  /**
    The annealing neighbour `getNeighborInvert`: two distinct random positions
    a and b (b redrawn until it differs), then the segment between the smaller
    and the larger one is reversed in a copy.
   */
  function GetNeighborInvert(tour: seq<int>, a: int, redraws: seq<int>): (r: seq<int>)
    requires 0 <= a < |tour|
    requires forall k | 0 <= k < |redraws| :: 0 <= redraws[k] < |tour|
    requires exists k :: 0 <= k < |redraws| && redraws[k] != a
    ensures |r| == |tour| && IsRearrangement(tour, r)
    ensures var b := redraws[FirstDifferent(redraws, a)];
      var lo, hi := if a < b then a else b, if a < b then b else a;
      lo < hi && r[lo] == tour[hi] && r[hi] == tour[lo]
      && (forall k | lo <= k <= hi :: r[k] == tour[lo + hi - k])
      && (forall k | 0 <= k < |tour| && (k < lo || hi < k) :: r[k] == tour[k])
  {
    var b := redraws[FirstDifferent(redraws, a)];
    InvertSegment(tour, if a < b then a else b, if a < b then b else a)
  }

  lemma GetNeighborInvertPreservesPermutation(tour: seq<int>, a: int, redraws: seq<int>, n: int)
    requires 0 <= a < |tour|
    requires forall k | 0 <= k < |redraws| :: 0 <= redraws[k] < |tour|
    requires exists k :: 0 <= k < |redraws| && redraws[k] != a
    requires IsPermutation(tour, n)
    ensures IsPermutation(GetNeighborInvert(tour, a, redraws), n)
  {
    RearrangementPreservesPermutation(tour, GetNeighborInvert(tour, a, redraws), n);
  }
}

=== FILE: mst_tours.dfy ===
/**
  The MST-based tour constructions end to end: build a minimum spanning
  tree with Prim's algorithm, walk it depth-first from a start vertex and
  close the walk at the start. On every input the result visits each city
  exactly once before returning, and its weight summed over consecutive
  pairs is the length of that tour.
 */
module MstTours {
  import opened Permutations
  import opened Tours
  import opened Graphs
  import opened Prim
  import opened PrimQueue
  import opened Preorder
  import opened LocalSearch

  /** Python compares heap entries as (cost, frm, to) tuples. */
  predicate TupleBelow(a: Edge, b: Edge) {
    || a.weight < b.weight
    || (a.weight == b.weight && a.from < b.from)
    || (a.weight == b.weight && a.from == b.from && a.to < b.to)
  }

  /**
    `heapq.heappop` returns the least tuple of the heap; that tuple has the
    least cost, so the plotting script's heap is one of the queues the
    queue-based Prim allows.
   */
  lemma HeapPopIsLeastFirst(pop: multiset<Edge> -> Edge)
    requires forall q: multiset<Edge> | |q| > 0 :: pop(q) in q && forall x | x in q :: !TupleBelow(x, pop(q))
    ensures LeastFirst(pop)
  {
    forall q: multiset<Edge> | |q| > 0
      ensures pop(q) in q && forall x | x in q :: pop(q).weight <= x.weight
    {
      forall x | x in q
        ensures pop(q).weight <= x.weight
      {
        assert !TupleBelow(x, pop(q));
      }
    }
  }

  /**
    The lab0 solver's `main`: Prim over a queue from city 0, the adjacency
    lists of the tree, `performDFS`, and the cycle weight.
   */
  method QueueMstTour(d: Distance, n: nat, poll: multiset<Edge> -> Edge)
    returns (mstWeight: nat, cycle: seq<int>, cycleWeight: nat)
    requires n >= 1 && LeastFirst(poll)
    ensures |cycle| == n + 1 && IsPermutation(cycle[..n], n) && cycle[0] == 0 && cycle[n] == 0
    ensures cycleWeight == TourLength(d, cycle[..n])
  {
    var mst;
    ghost var order, rank;
    mst, mstWeight, order, rank := PrimWithQueue(d, n, 0, poll);
    cycle, cycleWeight := CycleFromMst(d, n, mst, 0, rank, PrimQueue.EntryByRank(rank));
  }

  /**
    The plotting script: Prim over the heap from the first city, the
    recursive `dfs` from that city over the tree's adjacency lists, the first
    city appended, and the total summed over consecutive pairs.
   */
  method HeapMstTour(d: Distance, n: nat, pop: multiset<Edge> -> Edge)
    returns (totalWeightMst: nat, cycle: seq<int>, totalWeightTsp: nat)
    requires n >= 1
    requires forall q: multiset<Edge> | |q| > 0 :: pop(q) in q && forall x | x in q :: !TupleBelow(x, pop(q))
    ensures |cycle| == n + 1 && IsPermutation(cycle[..n], n) && cycle[0] == 0 && cycle[n] == 0
    ensures totalWeightTsp == TourLength(d, cycle[..n])
  {
    HeapPopIsLeastFirst(pop);
    var mst;
    ghost var order, rank;
    mst, totalWeightMst, order, rank := PrimWithQueue(d, n, 0, pop);
    cycle := ConstructCycle(n, mst, 0);
    ConstructCycleIsTour(d, n, mst, 0, rank, PrimQueue.EntryByRank(rank), 0);
    totalWeightTsp := CycleWeight(d, cycle);
  }

  /**
    One iteration of the lab1 solver: the array Prim from city 0,
    `constructCycleFromMST` from a random start vertex, and the best-of-sample
    local search, with its `bestJ != i + 1` test as written, run on that closed walk of n + 1 entries (the search reads
    it as a cycle, so the repeated start adds the edge from the start city
    to itself).
   */
  method ArrayMstIteration(d: Distance, n: nat, randomVertex: int, draws: seq<seq<int>>)
    returns (weight: nat, cycle: seq<int>, result: Search)
    requires 0 <= randomVertex < n
    requires ValidDraws(draws, n + 1, n + 1)
    ensures |cycle| == n + 1 && IsPermutation(cycle[..n], n)
    ensures cycle[0] == randomVertex && cycle[n] == randomVertex
    ensures PathWeight(d, cycle) == TourLength(d, cycle[..n])
    ensures IsRearrangement(cycle, result.path) && result.distance == TourLength(d, result.path)
    ensures result.steps <= n && result.distance + result.steps <= TourLength(d, cycle)
    ensures result == BestOfSample(d, cycle, draws, true)
  {
    var edges;
    ghost var rank;
    edges, weight, rank := CalculateMst(d, n);
    cycle := ConstructCycle(n, edges, randomVertex);
    ConstructCycleIsTour(d, n, edges, 0, rank, EntryByTarget(n), randomVertex);
    result := BestOfSample(d, cycle, draws, true);
  }
}

=== FILE: permutations.dfy ===
/**
  Tours of the cities 0..n-1 and the counting facts every operator relies on:
  a sequence of length n whose entries are distinct and lie in [0, n) is a
  permutation, and it then contains every city.
 */
module Permutations {

  /** No value occurs at two positions. */
  predicate Distinct(s: seq<int>) {
    forall i, j | 0 <= i < j < |s| :: s[i] != s[j]
  }

  /** Every entry is a city id of an n-city instance. */
  predicate InRange(s: seq<int>, n: int) {
    forall i | 0 <= i < |s| :: 0 <= s[i] < n
  }

  /** `s` is a tour of the cities 0..n-1: each city occurs exactly once. */
  predicate IsPermutation(s: seq<int>, n: int) {
    |s| == n && InRange(s, n) && Distinct(s)
  }

  /** `b` holds the same entries as `a`, each as often. */
  predicate IsRearrangement(a: seq<int>, b: seq<int>) {
    multiset(a) == multiset(b)
  }

  function Elems(s: seq<int>): set<int> {
    set x | x in s
  }

  /** The set of city ids of an n-city instance. */
  function Range(n: nat): set<int> {
    Elems(Identity(n))
  }

  /** The tour `0, 1, ..., n-1` that every optimizer builds before shuffling. */
  function Identity(n: nat): (r: seq<int>)
    ensures IsPermutation(r, n)
    ensures forall i | 0 <= i < n :: r[i] == i
  {
    seq(n, i => i)
  }

  lemma SubsetCard(a: set<int>, b: set<int>)
    requires a <= b
    ensures |a| <= |b|
  {
    assert |b - a| + |a| == |b|;
  }

  lemma {:induction false} ElemsCard(s: seq<int>)
    ensures |Elems(s)| <= |s|
    ensures Distinct(s) ==> |Elems(s)| == |s|
  {
    if |s| > 0 {
      var t := s[..|s| - 1];
      ElemsCard(t);
      assert Elems(s) == Elems(t) + {s[|s| - 1]};
      if Distinct(s) {
        assert Distinct(t);
        assert s[|s| - 1] !in Elems(t);
      }
    } else {
      assert Elems(s) == {};
    }
  }

  lemma RangeFacts(n: nat)
    ensures |Range(n)| == n
    ensures forall v :: v in Range(n) <==> 0 <= v < n
  {
    ElemsCard(Identity(n));
    forall v | 0 <= v < n
      ensures v in Range(n)
    {
      assert Identity(n)[v] == v;
    }
  }

  /** Pigeonhole: n cities leave room for at most n distinct entries. */
  lemma DistinctBound(s: seq<int>, n: nat)
    requires Distinct(s) && InRange(s, n)
    ensures |s| <= n
  {
    ElemsCard(s);
    RangeFacts(n);
    SubsetCard(Elems(s), Range(n));
  }

  /** A permutation of 0..n-1 contains every city. */
  lemma PermutationCovers(s: seq<int>, n: nat)
    requires IsPermutation(s, n)
    ensures forall v | 0 <= v < n :: v in s
  {
    ElemsCard(s);
    RangeFacts(n);
    assert Elems(s) <= Range(n);
    assert |Range(n) - Elems(s)| + |Elems(s)| == |Range(n)|;
    assert Range(n) - Elems(s) == {};
    forall v | 0 <= v < n
      ensures v in s
    {
      assert v in Range(n);
    }
  }

  /**
    A length-n sequence over 0..n-1 plus the "empty slot" marker -1 that
    still holds a marker misses some city.
   */
  lemma MissingCity(s: seq<int>, n: nat, hole: int)
    requires |s| == n
    requires forall i | 0 <= i < |s| :: s[i] == -1 || 0 <= s[i] < n
    requires 0 <= hole < |s| && s[hole] == -1
    ensures exists v :: 0 <= v < n && v !in s
  {
    RangeFacts(n);
    ElemsCard(s);
    assert -1 !in Range(n);
    assert |Range(n) + {-1}| == n + 1;
    if forall v :: 0 <= v < n ==> v in s {
      SubsetCard(Range(n) + {-1}, Elems(s));
    }
  }

  lemma {:induction false} DistinctMultiplicity(s: seq<int>)
    requires Distinct(s)
    ensures forall v :: multiset(s)[v] <= 1
  {
    if |s| > 0 {
      var t := s[..|s| - 1];
      assert s == t + [s[|s| - 1]];
      DistinctMultiplicity(t);
      assert s[|s| - 1] !in t;
    }
  }

  /** Converse of DistinctMultiplicity: multiplicities of at most one mean distinct entries. */
  lemma {:induction false} MultiplicityDistinct(s: seq<int>)
    requires forall v :: multiset(s)[v] <= 1
    ensures Distinct(s)
  {
    if |s| > 0 {
      var t := s[..|s| - 1];
      var last := s[|s| - 1];
      assert s == t + [last];
      assert multiset(s) == multiset(t) + multiset{last};
      forall v
        ensures multiset(t)[v] <= 1
      {
        assert multiset(t)[v] <= multiset(s)[v];
      }
      MultiplicityDistinct(t);
      assert multiset(s)[last] <= 1;
      assert multiset(t)[last] == 0;
      assert last !in t;
      forall i, j | 0 <= i < j < |s|
        ensures s[i] != s[j]
      {
        if j < |s| - 1 {
          assert s[i] == t[i] && s[j] == t[j];
        } else {
          assert s[i] == t[i] && t[i] in t;
        }
      }
    }
  }

  /** Any rearrangement of a permutation of 0..n-1 is one as well. */
  lemma RearrangementPreservesPermutation(a: seq<int>, b: seq<int>, n: int)
    requires IsPermutation(a, n) && IsRearrangement(a, b)
    ensures IsPermutation(b, n)
  {
    assert |b| == |multiset(b)| == |multiset(a)| == |a|;
    forall i | 0 <= i < |b|
      ensures 0 <= b[i] < n
    {
      assert b[i] in multiset(b);
      assert b[i] in multiset(a);
    }
    DistinctMultiplicity(a);
    MultiplicityDistinct(b);
  }

  /** A duplicate-free list of city ids that contains every city is a permutation. */
  lemma CoveringIsPermutation(s: seq<int>, n: nat)
    requires Distinct(s) && InRange(s, n)
    requires forall v | 0 <= v < n :: v in Elems(s)
    ensures IsPermutation(s, n)
  {
    DistinctBound(s, n);
    RangeFacts(n);
    ElemsCard(s);
    assert Range(n) <= Elems(s);
    SubsetCard(Range(n), Elems(s));
  }

  /** Two duplicate-free sequences with no common value concatenate to a duplicate-free one. */
  lemma DistinctConcat(a: seq<int>, b: seq<int>)
    requires Distinct(a) && Distinct(b)
    requires forall x | x in a :: x !in b
    ensures Distinct(a + b)
  {
    var c := a + b;
    forall i, j | 0 <= i < j < |c|
      ensures c[i] != c[j]
    {
      if j < |a| {
        assert c[i] == a[i] && c[j] == a[j];
      } else if i < |a| {
        assert c[i] == a[i] && c[j] == b[j - |a|];
        assert a[i] in a;
      } else {
        assert c[i] == b[i - |a|] && c[j] == b[j - |a|];
      }
    }
  }
}

=== FILE: preorder.dfy ===
/**
  Depth-first walks of the MST that turn it into a tour: the recursive walk
  of the lab1 solver and of the plotting script (visit a vertex, then each
  unvisited neighbour in list order), and the stack-based walk of the lab0
  solver. Each lists every vertex reachable from the start exactly once and
  the caller closes the cycle by appending the start again.
 */
module Preorder {
  import opened Permutations
  import opened Tours
  import opened Graphs

  /** The vertices below n that the walk has not visited yet; shrinks with every visit. */
  function Unvisited(n: nat, visited: set<int>): set<int> {
    set v | 0 <= v < n && v !in visited
  }

  /** Every neighbour of a listed vertex is either listed or was visited before the walk began. */
  predicate Finished(adj: seq<seq<int>>, r: seq<int>, visited: set<int>) {
    forall k, y | 0 <= k < |r| && 0 <= r[k] < |adj| && y in adj[r[k]] :: y in visited || y in r
  }

  /** Every listed vertex is one of the `roots` or a neighbour of a vertex listed before it. */
  predicate Discovered(adj: seq<seq<int>>, r: seq<int>, roots: seq<int>) {
    forall k | 0 <= k < |r| ::
      r[k] in roots || exists j :: 0 <= j < k && 0 <= r[j] < |adj| && r[k] in adj[r[j]]
  }

  /**
    `dfs(v)`: mark v, list it, then walk each neighbour of v that is still
    unvisited, in list order. The result lists v first, then vertices that
    were not visited before, each once and each a neighbour of one listed
    before it; and no neighbour of a listed vertex is left unvisited.
   */
  function Dfs(adj: seq<seq<int>>, v: int, visited: set<int>): (r: seq<int>)
    requires ListsIn(adj) && 0 <= v < |adj| && v !in visited
    ensures |r| >= 1 && r[0] == v
    ensures InRange(r, |adj|) && Distinct(r)
    ensures forall k | 0 <= k < |r| :: r[k] !in visited
    ensures Finished(adj, r, visited)
    ensures Discovered(adj, r, [v])
    decreases Unvisited(|adj|, visited), 0
  {
    assert v in Unvisited(|adj|, visited);
    var rest := Neighbours(adj, adj[v], 0, visited + {v});
    DfsJoin(adj, v, visited, rest);
    [v] + rest
  }

  /** The loop of `dfs` over the neighbours `nbrs[i..]`, threading the visited set through the calls. */
  function Neighbours(adj: seq<seq<int>>, nbrs: seq<int>, i: nat, visited: set<int>): (r: seq<int>)
    requires ListsIn(adj) && InRange(nbrs, |adj|) && i <= |nbrs|
    ensures InRange(r, |adj|) && Distinct(r)
    ensures forall k | 0 <= k < |r| :: r[k] !in visited
    ensures forall k | i <= k < |nbrs| :: nbrs[k] in visited || nbrs[k] in r
    ensures Finished(adj, r, visited)
    ensures Discovered(adj, r, nbrs)
    decreases Unvisited(|adj|, visited), |nbrs| - i + 1
  {
    if i == |nbrs| then []
    else if nbrs[i] in visited then Neighbours(adj, nbrs, i + 1, visited)
    else
      var first := Dfs(adj, nbrs[i], visited);
      assert nbrs[i] in Unvisited(|adj|, visited) && nbrs[i] !in Unvisited(|adj|, visited + Elems(first));
      var rest := Neighbours(adj, nbrs, i + 1, visited + Elems(first));
      WalkJoin(adj, nbrs, i, visited, first, rest);
      first + rest
  }

  /** The walk from `nbrs[i]` followed by the walk over the remaining neighbours keeps every property of a walk. */
  lemma WalkJoin(adj: seq<seq<int>>, nbrs: seq<int>, i: nat, visited: set<int>, first: seq<int>, rest: seq<int>)
    requires ListsIn(adj) && InRange(nbrs, |adj|) && i < |nbrs|
    requires |first| >= 1 && first[0] == nbrs[i]
    requires InRange(first, |adj|) && Distinct(first)
    requires forall k | 0 <= k < |first| :: first[k] !in visited
    requires Finished(adj, first, visited) && Discovered(adj, first, [nbrs[i]])
    requires InRange(rest, |adj|) && Distinct(rest)
    requires forall k | 0 <= k < |rest| :: rest[k] !in visited + Elems(first)
    requires forall k | i + 1 <= k < |nbrs| :: nbrs[k] in visited + Elems(first) || nbrs[k] in rest
    requires Finished(adj, rest, visited + Elems(first)) && Discovered(adj, rest, nbrs)
    ensures var r := first + rest;
      && InRange(r, |adj|) && Distinct(r)
      && (forall k | 0 <= k < |r| :: r[k] !in visited)
      && (forall k | i <= k < |nbrs| :: nbrs[k] in visited || nbrs[k] in r)
      && Finished(adj, r, visited)
      && Discovered(adj, r, nbrs)
  {
    JoinDistinct(first, rest, visited);
    assert InRange(first + rest, |adj|);
    JoinCovers(nbrs, i, visited, first, rest);
    JoinFinished(adj, visited, first, rest);
    JoinDiscovered(adj, [nbrs[i]], nbrs, first, rest);
  }

  lemma JoinDistinct(first: seq<int>, rest: seq<int>, visited: set<int>)
    requires Distinct(first) && Distinct(rest)
    requires forall k | 0 <= k < |first| :: first[k] !in visited
    requires forall k | 0 <= k < |rest| :: rest[k] !in visited + Elems(first)
    ensures Distinct(first + rest)
    ensures forall k | 0 <= k < |first + rest| :: (first + rest)[k] !in visited
  {
    DistinctConcat(first, rest);
    var r := first + rest;
    forall k | 0 <= k < |r|
      ensures r[k] !in visited
    {
      if k >= |first| {
        assert r[k] == rest[k - |first|];
      }
    }
  }

  lemma JoinCovers(nbrs: seq<int>, i: nat, visited: set<int>, first: seq<int>, rest: seq<int>)
    requires i < |nbrs| && |first| >= 1 && first[0] == nbrs[i]
    requires forall k | i + 1 <= k < |nbrs| :: nbrs[k] in visited + Elems(first) || nbrs[k] in rest
    ensures forall k | i <= k < |nbrs| :: nbrs[k] in visited || nbrs[k] in first + rest
  {
    var r := first + rest;
    forall k | i <= k < |nbrs|
      ensures nbrs[k] in visited || nbrs[k] in r
    {
      if k == i {
        assert r[0] == nbrs[i];
      } else if nbrs[k] in Elems(first) {
        var t :| 0 <= t < |first| && first[t] == nbrs[k];
        assert r[t] == nbrs[k];
      } else if nbrs[k] in rest {
        var t :| 0 <= t < |rest| && rest[t] == nbrs[k];
        assert r[|first| + t] == nbrs[k];
      }
    }
  }

  lemma JoinFinished(adj: seq<seq<int>>, visited: set<int>, first: seq<int>, rest: seq<int>)
    requires Finished(adj, first, visited)
    requires Finished(adj, rest, visited + Elems(first))
    ensures Finished(adj, first + rest, visited)
  {
    var r := first + rest;
    forall k, y | 0 <= k < |r| && 0 <= r[k] < |adj| && y in adj[r[k]]
      ensures y in visited || y in r
    {
      if k < |first| {
        assert r[k] == first[k];
        if y in first {
          var t :| 0 <= t < |first| && first[t] == y;
          assert r[t] == y;
        }
      } else {
        assert r[k] == rest[k - |first|];
        if y in Elems(first) {
          var t :| 0 <= t < |first| && first[t] == y;
          assert r[t] == y;
        } else if y in rest {
          var t :| 0 <= t < |rest| && rest[t] == y;
          assert r[|first| + t] == y;
        }
      }
    }
  }

  /** Discovery is kept by concatenation when the first part's roots are among the combined roots. */
  lemma JoinDiscovered(adj: seq<seq<int>>, roots: seq<int>, roots': seq<int>, first: seq<int>, rest: seq<int>)
    requires forall x | x in roots :: x in roots'
    requires Discovered(adj, first, roots) && Discovered(adj, rest, roots')
    ensures Discovered(adj, first + rest, roots')
  {
    var r := first + rest;
    forall k | 0 <= k < |r|
      ensures r[k] in roots' || exists j :: 0 <= j < k && 0 <= r[j] < |adj| && r[k] in adj[r[j]]
    {
      if k < |first| {
        assert r[k] == first[k];
        if first[k] !in roots {
          var j :| 0 <= j < k && 0 <= first[j] < |adj| && first[k] in adj[first[j]];
          assert r[j] == first[j];
        }
      } else {
        assert r[k] == rest[k - |first|];
        if rest[k - |first|] !in roots' {
          var j :| 0 <= j < k - |first| && 0 <= rest[j] < |adj| && rest[k - |first|] in adj[rest[j]];
          assert r[|first| + j] == rest[j];
        }
      }
    }
  }

  /** `dfs(v)` lists v before the walk over its neighbours: every property of the walk carries over. */
  lemma DfsJoin(adj: seq<seq<int>>, v: int, visited: set<int>, rest: seq<int>)
    requires ListsIn(adj) && 0 <= v < |adj| && v !in visited
    requires InRange(rest, |adj|) && Distinct(rest)
    requires forall k | 0 <= k < |rest| :: rest[k] !in visited + {v}
    requires forall k | 0 <= k < |adj[v]| :: adj[v][k] in visited + {v} || adj[v][k] in rest
    requires Finished(adj, rest, visited + {v}) && Discovered(adj, rest, adj[v])
    ensures var r := [v] + rest;
      && InRange(r, |adj|) && Distinct(r)
      && (forall k | 0 <= k < |r| :: r[k] !in visited)
      && Finished(adj, r, visited)
      && Discovered(adj, r, [v])
  {
    HeadCovered(adj, v, visited, rest);
    JoinDistinct([v], rest, visited);
    assert Elems([v]) == {v};
    assert InRange([v] + rest, |adj|);
    JoinFinishedHead(adj, visited, v, rest);
    HeadDiscovered(adj, v, rest);
  }

  lemma HeadCovered(adj: seq<seq<int>>, v: int, visited: set<int>, rest: seq<int>)
    requires 0 <= v < |adj|
    requires forall k | 0 <= k < |adj[v]| :: adj[v][k] in visited + {v} || adj[v][k] in rest
    ensures forall y | y in adj[v] :: y in visited || y in [v] + rest
  {
    var r := [v] + rest;
    forall y | y in adj[v]
      ensures y in visited || y in r
    {
      var k :| 0 <= k < |adj[v]| && adj[v][k] == y;
      if y == v {
        assert r[0] == v;
      } else if y in rest {
        var t :| 0 <= t < |rest| && rest[t] == y;
        assert r[1 + t] == y;
      }
    }
  }

  lemma HeadDiscovered(adj: seq<seq<int>>, v: int, rest: seq<int>)
    requires 0 <= v < |adj| && Discovered(adj, rest, adj[v])
    ensures Discovered(adj, [v] + rest, [v])
  {
    var r := [v] + rest;
    forall k | 0 <= k < |r|
      ensures r[k] in [v] || exists j :: 0 <= j < k && 0 <= r[j] < |adj| && r[k] in adj[r[j]]
    {
      if k > 0 {
        assert r[k] == rest[k - 1];
        if rest[k - 1] in adj[v] {
          assert 0 <= r[0] < |adj| && r[k] in adj[r[0]];
        } else {
          var j :| 0 <= j < k - 1 && 0 <= rest[j] < |adj| && rest[k - 1] in adj[rest[j]];
          assert r[1 + j] == rest[j];
        }
      }
    }
  }

  lemma JoinFinishedHead(adj: seq<seq<int>>, visited: set<int>, v: int, rest: seq<int>)
    requires 0 <= v < |adj|
    requires forall y | y in adj[v] :: y in visited || y in [v] + rest
    requires Finished(adj, rest, visited + {v})
    ensures Finished(adj, [v] + rest, visited)
  {
    var r := [v] + rest;
    forall k, y | 0 <= k < |r| && 0 <= r[k] < |adj| && y in adj[r[k]]
      ensures y in visited || y in r
    {
      if k > 0 {
        assert r[k] == rest[k - 1];
        if y == v {
          assert r[0] == y;
        } else if y in rest {
          var t :| 0 <= t < |rest| && rest[t] == y;
          assert r[1 + t] == y;
        }
      }
    }
  }

  /**
    `constructCycleFromMST`: the adjacency lists of the MST edges, a walk
    from `startVertex` with nothing visited, and the start appended to close
    the cycle.
   */
  function ConstructCycle(n: nat, edges: seq<Edge>, start: int): (cycle: seq<int>)
    requires EdgesIn(edges, n) && 0 <= start < n
    ensures |cycle| >= 2 && cycle[0] == start && cycle[|cycle| - 1] == start
    ensures Distinct(cycle[..|cycle| - 1]) && InRange(cycle, n)
  {
    var walk := Dfs(Adjacency(n, edges), start, {});
    assert (walk + [start])[..|walk|] == walk;
    walk + [start]
  }

  /**
    On the edges of a spanning tree the cycle is a tour: its first n entries
    are a permutation of the n cities, and the last entry returns to the start.
   */
  lemma ConstructCycleIsTour(d: Distance, n: nat, edges: seq<Edge>, root: int, rank: seq<nat>, entry: seq<int>, start: int)
    requires TreeFrom(n, edges, root, rank, entry) && 0 <= start < n
    ensures var cycle := ConstructCycle(n, edges, start);
      && |cycle| == n + 1 && IsPermutation(cycle[..n], n) && cycle[n] == start
      && PathWeight(d, cycle) == TourLength(d, cycle[..n])
  {
    var adj := Adjacency(n, edges);
    var walk := Dfs(adj, start, {});
    assert Closed(adj, Elems(walk)) by {
      forall v, x | v in Elems(walk) && 0 <= v < |adj| && x in adj[v]
        ensures x in Elems(walk)
      {
        var k :| 0 <= k < |walk| && walk[k] == v;
      }
    }
    TreeConnected(n, edges, root, rank, entry, Elems(walk), start);
    CoveringIsPermutation(walk, n);
    assert (walk + [start])[..n] == walk;
    ClosedTourAsPath(d, walk);
  }

  /**
    `performDFS`: a stack holding 0 (the start argument is ignored); pop a
    vertex, and when it is not yet in the visit order append it and push all
    its neighbours in list order; finally append 0. The visit order starts at
    0, repeats no vertex, is closed under neighbours and every later vertex is
    a neighbour of an earlier one (`via` names which).
   */
  method PerformDfs(adj: seq<seq<int>>, i: int) returns (order: seq<int>, ghost via: seq<int>)
    requires |adj| >= 1 && ListsIn(adj)
    ensures |order| >= 2 && order[0] == 0 && order[|order| - 1] == 0
    ensures Distinct(order[..|order| - 1]) && InRange(order, |adj|)
    ensures Closed(adj, Elems(order[..|order| - 1]))
    ensures |via| == |order| - 1
    ensures forall k | 1 <= k < |order| - 1 :: 0 <= via[k] < k && order[k] in adj[order[via[k]]]
  {
    var stack := [0];
    ghost var pushedBy := [-1];
    var visited := [];
    via := [];
    while |stack| > 0
      invariant StackWalk(adj, stack, pushedBy, visited, via)
      decreases |adj| - |visited|, |stack|
    {
      var current := stack[|stack| - 1];
      ghost var pusher := pushedBy[|stack| - 1];
      ghost var stack0, pushedBy0 := stack, pushedBy;
      stack, pushedBy := stack[..|stack| - 1], pushedBy[..|stack| - 1];
      if current !in visited {
        stack, pushedBy := Push(adj, stack, pushedBy, current, |visited|);
        PopNew(adj, stack0, pushedBy0, visited, via, stack, pushedBy);
        visited, via := visited + [current], via + [pusher];
      } else {
        PopVisited(adj, stack0, pushedBy0, visited, via);
      }
    }
    order := visited + [0];
    WalkDone(adj, stack, pushedBy, visited, via, order);
  }

  /** With the stack empty, the visit order closed by 0 is the result `performDFS` promises. */
  lemma WalkDone(adj: seq<seq<int>>, stack: seq<int>, pushedBy: seq<int>, visited: seq<int>, via: seq<int>, order: seq<int>)
    requires StackWalk(adj, stack, pushedBy, visited, via) && |stack| == 0
    requires order == visited + [0]
    ensures |order| >= 2 && order[0] == 0 && order[|order| - 1] == 0
    ensures Distinct(order[..|order| - 1]) && InRange(order, |adj|)
    ensures Closed(adj, Elems(order[..|order| - 1]))
    ensures |via| == |order| - 1
    ensures forall k | 1 <= k < |order| - 1 :: 0 <= via[k] < k && order[k] in adj[order[via[k]]]
  {
    assert |visited| > 0;
    assert order[..|order| - 1] == visited;
    assert Elems(visited) == set y | y in visited;
  }

  /**
    The invariant of the `performDFS` loop: the visit order so far repeats
    nothing, every stack entry was pushed by a visited vertex (`pushedBy`),
    every visited vertex after the first was pushed by an earlier one (`via`),
    and every neighbour of a visited vertex is visited or still on the stack.
   */
  ghost predicate StackWalk(adj: seq<seq<int>>, stack: seq<int>, pushedBy: seq<int>, visited: seq<int>, via: seq<int>) {
    && ListsIn(adj)
    && |pushedBy| == |stack| && InRange(stack, |adj|)
    && Distinct(visited) && InRange(visited, |adj|) && |visited| <= |adj|
    && |via| == |visited|
    && (|visited| == 0 ==> stack == [0])
    && (|visited| > 0 ==> visited[0] == 0)
    && (forall t | 0 <= t < |stack| ::
         |visited| == 0 || (0 <= pushedBy[t] < |visited| && stack[t] in adj[visited[pushedBy[t]]]))
    && (forall k | 1 <= k < |visited| :: 0 <= via[k] < k && visited[k] in adj[visited[via[k]]])
    && (forall k, y | 0 <= k < |visited| && y in adj[visited[k]] :: y in visited || y in stack)
  }

  /** Popping a vertex that was already visited only shrinks the stack. */
  lemma PopVisited(adj: seq<seq<int>>, stack: seq<int>, pushedBy: seq<int>, visited: seq<int>, via: seq<int>)
    requires StackWalk(adj, stack, pushedBy, visited, via)
    requires |stack| > 0 && stack[|stack| - 1] in visited
    ensures StackWalk(adj, stack[..|stack| - 1], pushedBy[..|stack| - 1], visited, via)
  {
    var top := |stack| - 1;
    forall k, y | 0 <= k < |visited| && y in adj[visited[k]]
      ensures y in visited || y in stack[..top]
    {
      if y !in visited {
        var t :| 0 <= t < |stack| && stack[t] == y;
        assert t != top;
        assert stack[..top][t] == y;
      }
    }
  }

  /** Popping an unvisited vertex visits it and pushes its neighbours on the rest of the stack. */
  lemma PopNew(adj: seq<seq<int>>, stack: seq<int>, pushedBy: seq<int>, visited: seq<int>, via: seq<int>,
               stack': seq<int>, pushedBy': seq<int>)
    requires StackWalk(adj, stack, pushedBy, visited, via)
    requires |stack| > 0 && stack[|stack| - 1] !in visited
    requires var top := |stack| - 1;
      && stack' == stack[..top] + adj[stack[top]] && |pushedBy'| == |stack'|
      && (forall t | 0 <= t < top :: pushedBy'[t] == pushedBy[t])
      && (forall t | top <= t < |stack'| :: pushedBy'[t] == |visited|)
    ensures var top := |stack| - 1;
      StackWalk(adj, stack', pushedBy', visited + [stack[top]], via + [pushedBy[top]])
  {
    var top := |stack| - 1;
    var current := stack[top];
    var visited' := visited + [current];
    DistinctConcat(visited, [current]);
    DistinctBound(visited', |adj|);
    assert InRange(stack', |adj|) by {
      forall t | 0 <= t < |stack'|
        ensures 0 <= stack'[t] < |adj|
      {
        if t >= top {
          assert stack'[t] == adj[current][t - top];
        }
      }
    }
    forall t | 0 <= t < |stack'|
      ensures 0 <= pushedBy'[t] < |visited'| && stack'[t] in adj[visited'[pushedBy'[t]]]
    {
      if t < top {
        assert stack'[t] == stack[t];
      } else {
        assert stack'[t] == adj[current][t - top];
      }
    }
    var via' := via + [pushedBy[top]];
    forall k | 1 <= k < |visited'|
      ensures 0 <= via'[k] < k && visited'[k] in adj[visited'[via'[k]]]
    {
      if k == |visited| {
        assert k > 0;
        assert 0 <= pushedBy[top] < |visited|;
      }
    }
    forall k, y | 0 <= k < |visited'| && y in adj[visited'[k]]
      ensures y in visited' || y in stack'
    {
      if k == |visited| {
        var t :| 0 <= t < |adj[current]| && adj[current][t] == y;
        assert stack'[top + t] == y;
      } else if y !in visited && y != current {
        var t :| 0 <= t < |stack| && stack[t] == y;
        assert t < top && stack'[t] == y;
      }
    }
    if |visited| == 0 {
      assert current == 0;
    }
  }

  /** The inner loop of `performDFS`: push every neighbour of `current`, recording who pushed it. */
  method Push(adj: seq<seq<int>>, stack: seq<int>, ghost pushedBy: seq<int>, current: int, ghost at: int)
    returns (stack': seq<int>, ghost pushedBy': seq<int>)
    requires ListsIn(adj) && 0 <= current < |adj| && InRange(stack, |adj|) && |pushedBy| == |stack|
    ensures stack' == stack + adj[current] && |pushedBy'| == |stack'|
    ensures forall t | 0 <= t < |stack| :: pushedBy'[t] == pushedBy[t]
    ensures forall t | |stack| <= t < |stack'| :: pushedBy'[t] == at
    ensures InRange(stack', |adj|)
  {
    stack', pushedBy' := stack, pushedBy;
    var k := 0;
    while k < |adj[current]|
      invariant 0 <= k <= |adj[current]|
      invariant stack' == stack + adj[current][..k] && |pushedBy'| == |stack'|
      invariant forall t | 0 <= t < |stack| :: pushedBy'[t] == pushedBy[t]
      invariant forall t | |stack| <= t < |stack'| :: pushedBy'[t] == at
    {
      stack', pushedBy' := stack' + [adj[current][k]], pushedBy' + [at];
      assert adj[current][..k + 1] == adj[current][..k] + [adj[current][k]];
      k := k + 1;
    }
    assert adj[current][..k] == adj[current];
  }

  /**
    The tour construction of the lab0 solver: the adjacency lists of the MST
    edges, `performDFS`, and the weight of the resulting walk summed over
    consecutive pairs. On a spanning tree the walk lists every city once
    before returning to 0, so that weight is the length of the tour.
   */
  method CycleFromMst(d: Distance, n: nat, mst: seq<Edge>, ghost root: int, ghost rank: seq<nat>, ghost entry: seq<int>)
    returns (cycle: seq<int>, weight: nat)
    requires TreeFrom(n, mst, root, rank, entry)
    ensures |cycle| == n + 1 && IsPermutation(cycle[..n], n) && cycle[0] == 0 && cycle[n] == 0
    ensures weight == TourLength(d, cycle[..n])
  {
    var adj := Adjacency(n, mst);
    ghost var via: seq<int>;
    cycle, via := PerformDfs(adj, 0);
    var visits := cycle[..|cycle| - 1];
    assert visits[0] == 0;
    TreeConnected(n, mst, root, rank, entry, Elems(visits), 0);
    CoveringIsPermutation(visits, n);
    weight := CycleWeight(d, cycle);
    assert visits + [visits[0]] == cycle;
    ClosedTourAsPath(d, visits);
  }

  /** The loop that sums the weights of consecutive pairs of the walk, with no closing edge. */
  method CycleWeight(d: Distance, walk: seq<int>) returns (weight: nat)
    ensures weight == PathWeight(d, walk)
  {
    weight := 0;
    if |walk| == 0 {
      return;
    }
    var i := 0;
    while i < |walk| - 1
      invariant 0 <= i <= |walk| - 1
      invariant weight == PathWeight(d, walk[..i + 1])
    {
      assert walk[..i + 2][..i + 1] == walk[..i + 1];
      weight := weight + d(walk[i], walk[i + 1]);
      i := i + 1;
    }
    assert walk[..i + 1] == walk;
  }
}

=== FILE: prim.dfy ===
/**
  Prim's algorithm over arrays, as in the lab1 solver: `key[v]` is the
  lightest known edge from the tree to v (Double.MAX_VALUE, here `Infinite`,
  while none is known), `parent[v]` the tree end of that edge and `mstSet`
  the tree. Each of the n-1 rounds moves the vertex chosen by `minKey` into
  the tree and relaxes the keys of the others; the edges are then read off
  as (parent[i], i, key[i]) for i = 1..n-1.
 */
module Prim {
  import opened Permutations
  import opened Tours
  import opened Minimum
  import opened Graphs

  /** The scores `minKey` compares: a vertex already in the tree counts as Double.MAX_VALUE, so it never wins. */
  function Candidates(key: seq<Cost>, inTree: seq<bool>): (c: seq<Cost>)
    requires |inTree| == |key|
    ensures |c| == |key| && forall v | 0 <= v < |key| :: c[v] == if inTree[v] then Infinite else key[v]
  {
    seq(|key|, v requires 0 <= v < |key| => if inTree[v] then Infinite else key[v])
  }

  /**
    `minKey`: the first vertex outside the tree with the least key below
    Double.MAX_VALUE, or -1 when every vertex outside the tree still has key
    Double.MAX_VALUE.
   */
  method MinKey(key: seq<Cost>, inTree: seq<bool>) returns (minIndex: int)
    requires |inTree| == |key|
    ensures minIndex == -1 <==> AllInfinite(Candidates(key, inTree))
    ensures minIndex != -1 ==> EarliestLeast(Candidates(key, inTree), minIndex)
  {
    ghost var c := Candidates(key, inTree);
    var min := Infinite;
    minIndex := -1;
    var v := 0;
    while v < |key|
      invariant 0 <= v <= |key|
      invariant RunningMin(c[..v], minIndex != -1, min, minIndex)
    {
      assert c[..v + 1] == c[..v] + [c[v]];
      RunningMinStep(c[..v], c[v], minIndex != -1, min, minIndex);
      if !inTree[v] && key[v].Below(min) {
        min := key[v];
        minIndex := v;
      }
      v := v + 1;
    }
    assert c[..|key|] == c;
  }

  /** One relaxation: a vertex outside the tree whose key exceeds its distance from u takes u as parent. */
  predicate Relaxed(d: Distance, u: int, v: int, inTree: bool, key: Cost, parent: int, key': Cost, parent': int) {
    if !inTree && Finite(d(u, v)).Below(key) then key' == Finite(d(u, v)) && parent' == u
    else key' == key && parent' == parent
  }

  /** The inner loop of `calculateMST` after u joined the tree. */
  method Relax(d: Distance, n: nat, u: int, key: seq<Cost>, parent: seq<int>, inTree: seq<bool>)
    returns (key': seq<Cost>, parent': seq<int>)
    requires |key| == n && |parent| == n && |inTree| == n
    ensures |key'| == n && |parent'| == n
    ensures forall v | 0 <= v < n :: Relaxed(d, u, v, inTree[v], key[v], parent[v], key'[v], parent'[v])
  {
    key', parent' := key, parent;
    var v := 0;
    while v < n
      invariant 0 <= v <= n && |key'| == n && |parent'| == n
      invariant forall w | 0 <= w < v :: Relaxed(d, u, w, inTree[w], key[w], parent[w], key'[w], parent'[w])
      invariant forall w | v <= w < n :: key'[w] == key[w] && parent'[w] == parent[w]
    {
      var weight := d(u, v);
      if !inTree[v] && Finite(weight).Below(key'[v]) {
        parent' := parent'[v := u];
        key' := key'[v := Finite(weight)];
      }
      v := v + 1;
    }
  }

  /**
    The tree after `count` rounds: the vertices chosen so far (`outside` is
    the rest) with their rank, the round they joined in. A vertex still
    outside has rank n-1, the round it would be read off in.
   */
  ghost predicate ArrayJoined(n: nat, count: int, inTree: seq<bool>, rank: seq<nat>, outside: set<int>) {
    && n >= 1 && |inTree| == n && |rank| == n && 0 <= count <= n - 1
    && (forall v | 0 <= v < n && inTree[v] :: rank[v] < count)
    && (forall v | 0 <= v < n && !inTree[v] :: rank[v] == n - 1)
    && (count >= 1 ==> inTree[0] && rank[0] == 0)
    && (count == 0 ==> forall v | 0 <= v < n :: !inTree[v])
    && outside == (set v | 0 <= v < n && !inTree[v])
    && |outside| == n - count
  }

  /**
    The keys after `count` rounds: before the first round only vertex 0 has
    a key; afterwards every vertex has one. Every key other than vertex 0's
    is the distance from its parent, a tree vertex that joined earlier.
   */
  ghost predicate Keys(d: Distance, n: nat, count: int, key: seq<Cost>, parent: seq<int>, inTree: seq<bool>, rank: seq<nat>) {
    && |key| == n && |parent| == n && |inTree| == n && |rank| == n && n >= 1
    && (count == 0 ==> key[0] == Finite(0) && forall v | 0 < v < n :: key[v] == Infinite)
    && (count >= 1 ==> forall v | 0 <= v < n :: key[v].Finite?)
    && (forall v | 0 < v < n && key[v].Finite? ::
         0 <= parent[v] < n && inTree[parent[v]] && rank[parent[v]] < rank[v] && key[v] == Finite(d(parent[v], v)))
  }

  /** No key exceeds the distance from a tree vertex that joined before its owner. */
  ghost predicate Nearest(d: Distance, n: nat, key: seq<Cost>, inTree: seq<bool>, rank: seq<nat>) {
    && |key| == n && |inTree| == n && |rank| == n
    && forall u, v | 0 <= u < n && 0 <= v < n && inTree[u] && rank[u] < rank[v] :: key[v].AtMost(Finite(d(u, v)))
  }

  /**
    The cut property of the tree vertices' keys: the key of a tree vertex v
    is at most the distance between any vertex u that joined before v and
    any vertex w that joined with or after v (or has not joined yet).
   */
  ghost predicate Cut(d: Distance, n: nat, key: seq<Cost>, inTree: seq<bool>, rank: seq<nat>) {
    && |key| == n && |inTree| == n && |rank| == n
    && forall u, v, w | 0 <= u < n && 0 <= v < n && 0 <= w < n && inTree[v] && rank[u] < rank[v] <= rank[w] ::
         key[v].AtMost(Finite(d(u, w)))
  }

  /** The index of the edge that brought each vertex in: vertex i >= 1 is the target of edge i-1. */
  function EntryByTarget(n: nat): (entry: seq<int>)
    ensures |entry| == n && forall v | 0 <= v < n :: entry[v] == v - 1
  {
    seq(n, v requires 0 <= v < n => v - 1)
  }

  /**
    `calculateMST`. It needs at least one city (the source writes key[0]
    first). The n-1 edges (parent[i], i, key[i]) form a spanning tree grown
    from vertex 0, each weighted by its distance, and `totalWeight` is their
    sum. Each vertex hangs from its nearest vertex among those that joined
    the tree before it.
   */
  method CalculateMst(d: Distance, n: nat) returns (edges: seq<Edge>, totalWeight: nat, ghost rank: seq<nat>)
    requires n >= 1
    ensures |edges| == n - 1 && totalWeight == TotalWeight(edges)
    ensures forall k | 0 <= k < |edges| :: edges[k].to == k + 1 && edges[k].weight == d(edges[k].from, k + 1)
    ensures TreeFrom(n, edges, 0, rank, EntryByTarget(n))
    ensures forall u, v | 0 <= u < n && 1 <= v < n && rank[u] < rank[v] :: edges[v - 1].weight <= d(u, v)
    ensures forall u, v, w | 0 <= u < n && 1 <= v < n && 0 <= w < n && rank[u] < rank[v] <= rank[w] ::
      edges[v - 1].weight <= d(u, w)
  {
    var key, parent, inTree;
    ghost var outside;
    key, parent, inTree, rank, outside := Start(d, n);
    var count := 0;
    while count < n - 1
      invariant Round(d, n, count, key, parent, inTree, rank, outside)
    {
      var u;
      u, key, parent, inTree, rank, outside := Select(d, n, count, key, parent, inTree, rank, outside);
      count := count + 1;
    }
    edges, totalWeight := ReadEdges(d, n, count, key, parent, inTree, rank);
    ReadEdgesNearest(d, n, count, key, inTree, rank, edges);
    ReadEdgesCut(d, n, key, inTree, rank, outside, edges);
  }

  /** The arrays before the first round: only vertex 0 has a key, no vertex has a parent, the tree is empty. */
  method Start(d: Distance, n: nat)
    returns (key: seq<Cost>, parent: seq<int>, inTree: seq<bool>, ghost rank: seq<nat>, ghost outside: set<int>)
    requires n >= 1
    ensures Round(d, n, 0, key, parent, inTree, rank, outside)
    ensures forall v | 0 <= v < n :: parent[v] == -1 && !inTree[v]
  {
    key := seq(n, v => if v == 0 then Finite(0) else Infinite);
    parent := seq(n, v => -1);
    inTree := seq(n, v => false);
    var last: nat := n - 1;
    rank := seq(n, v => last);
    outside := Range(n);
    RangeFacts(n);
  }

  /** What holds after `count` rounds of `calculateMST`. */
  ghost predicate Round(d: Distance, n: nat, count: int, key: seq<Cost>, parent: seq<int>, inTree: seq<bool>,
                        rank: seq<nat>, outside: set<int>) {
    && ArrayJoined(n, count, inTree, rank, outside)
    && Keys(d, n, count, key, parent, inTree, rank) && Nearest(d, n, key, inTree, rank)
    && Cut(d, n, key, inTree, rank)
  }

  /** One round of `calculateMST`: move `minKey`'s choice into the tree and relax the other keys. */
  method Select(d: Distance, n: nat, count: int, key: seq<Cost>, parent: seq<int>, inTree: seq<bool>,
                ghost rank: seq<nat>, ghost outside: set<int>)
    returns (u: int, key': seq<Cost>, parent': seq<int>, inTree': seq<bool>, ghost rank': seq<nat>, ghost outside': set<int>)
    requires Round(d, n, count, key, parent, inTree, rank, outside) && count < n - 1
    ensures Round(d, n, count + 1, key', parent', inTree', rank', outside')
    ensures EarliestLeast(Candidates(key, inTree), u) && !inTree[u] && inTree' == inTree[u := true]
  {
    SomeCandidate(d, n, count, key, parent, inTree, rank, outside);
    u := MinKey(key, inTree);
    ChosenVertex(d, n, count, key, parent, inTree, rank, outside, u);
    inTree' := inTree[u := true];
    rank' := rank[u := count];
    outside' := outside - {u};
    key', parent' := Relax(d, n, u, key, parent, inTree');
    SelectJoined(n, count, inTree, rank, outside, u, inTree', rank', outside');
    SelectKeys(d, n, count, key, parent, inTree, rank, u, key', parent', inTree', rank');
    SelectNearest(d, n, count, key, inTree, rank, u, key', parent, parent', inTree', rank');
    SelectCut(d, n, count, key, inTree, rank, u, key', parent, parent', inTree', rank');
  }

  /** Before the last round some vertex outside the tree has a key, so `minKey` does not return -1. */
  lemma SomeCandidate(d: Distance, n: nat, count: int, key: seq<Cost>, parent: seq<int>, inTree: seq<bool>,
                      rank: seq<nat>, outside: set<int>)
    requires ArrayJoined(n, count, inTree, rank, outside) && Keys(d, n, count, key, parent, inTree, rank)
    requires count < n - 1
    ensures !AllInfinite(Candidates(key, inTree))
  {
    var c := Candidates(key, inTree);
    if count == 0 {
      assert c[0] == Finite(0);
    } else {
      if forall v | 0 <= v < n :: inTree[v] {
        SubsetCard(outside, {});
      }
      var v :| 0 <= v < n && !inTree[v];
      assert c[v] == key[v];
    }
  }

  /** The chosen vertex is outside the tree and has a key; in the first round it is vertex 0. */
  lemma ChosenVertex(d: Distance, n: nat, count: int, key: seq<Cost>, parent: seq<int>, inTree: seq<bool>,
                     rank: seq<nat>, outside: set<int>, u: int)
    requires ArrayJoined(n, count, inTree, rank, outside) && Keys(d, n, count, key, parent, inTree, rank)
    requires EarliestLeast(Candidates(key, inTree), u)
    ensures 0 <= u < n && !inTree[u] && key[u].Finite? && u in outside
    ensures count == 0 ==> u == 0
  {
    var c := Candidates(key, inTree);
    assert c[u] == if inTree[u] then Infinite else key[u];
  }

  lemma SelectJoined(n: nat, count: int, inTree: seq<bool>, rank: seq<nat>, outside: set<int>, u: int,
                     inTree': seq<bool>, rank': seq<nat>, outside': set<int>)
    requires ArrayJoined(n, count, inTree, rank, outside) && count < n - 1
    requires 0 <= u < n && !inTree[u] && (count == 0 ==> u == 0)
    requires inTree' == inTree[u := true] && rank' == rank[u := count] && outside' == outside - {u}
    ensures ArrayJoined(n, count + 1, inTree', rank', outside')
  {
    assert u in outside;
  }

  /** After the relaxation every key is still the distance from an earlier tree vertex, and all keys exist. */
  lemma SelectKeys(d: Distance, n: nat, count: int, key: seq<Cost>, parent: seq<int>, inTree: seq<bool>, rank: seq<nat>,
                   u: int, key': seq<Cost>, parent': seq<int>, inTree': seq<bool>, rank': seq<nat>)
    requires Keys(d, n, count, key, parent, inTree, rank) && 0 <= count < n - 1
    requires forall v | 0 <= v < n && inTree[v] :: rank[v] < count
    requires forall v | 0 <= v < n && !inTree[v] :: rank[v] == n - 1
    requires 0 <= u < n && !inTree[u] && key[u].Finite? && (count == 0 ==> u == 0)
    requires inTree' == inTree[u := true] && rank' == rank[u := count]
    requires |key'| == n && |parent'| == n
    requires forall v | 0 <= v < n :: Relaxed(d, u, v, inTree'[v], key[v], parent[v], key'[v], parent'[v])
    ensures Keys(d, n, count + 1, key', parent', inTree', rank')
  {
    forall v | 0 < v < n && key'[v].Finite?
      ensures 0 <= parent'[v] < n && inTree'[parent'[v]] && rank'[parent'[v]] < rank'[v]
      ensures key'[v] == Finite(d(parent'[v], v))
    {
      if !inTree'[v] && Finite(d(u, v)).Below(key[v]) {
        assert parent'[v] == u && rank'[v] == n - 1;
      } else {
        assert key[v].Finite?;
        assert parent'[v] == parent[v] != u;
      }
    }
  }

  /**
    The relaxation keeps every key at most the distance from each earlier
    tree vertex: the new tree vertex u is accounted for by the relaxation
    itself, and u's own key no longer changes.
   */
  lemma SelectNearest(d: Distance, n: nat, count: int, key: seq<Cost>, inTree: seq<bool>, rank: seq<nat>, u: int,
                      key': seq<Cost>, parent: seq<int>, parent': seq<int>, inTree': seq<bool>, rank': seq<nat>)
    requires Nearest(d, n, key, inTree, rank) && 0 <= count < n - 1 && |parent| == n && |parent'| == n
    requires forall v | 0 <= v < n && inTree[v] :: rank[v] < count
    requires forall v | 0 <= v < n && !inTree[v] :: rank[v] == n - 1
    requires 0 <= u < n && !inTree[u]
    requires inTree' == inTree[u := true] && rank' == rank[u := count]
    requires |key'| == n
    requires forall v | 0 <= v < n :: Relaxed(d, u, v, inTree'[v], key[v], parent[v], key'[v], parent'[v])
    ensures Nearest(d, n, key', inTree', rank')
  {
    forall u', v | 0 <= u' < n && 0 <= v < n && inTree'[u'] && rank'[u'] < rank'[v]
      ensures key'[v].AtMost(Finite(d(u', v)))
    {
      assert Relaxed(d, u, v, inTree'[v], key[v], parent[v], key'[v], parent'[v]);
      if u' == u {
        assert !inTree'[v];
      } else {
        assert inTree[u'] && rank[u'] < rank[v];
      }
    }
  }

  /**
    Moving `minKey`'s choice u into the tree keeps the cut property: u's key
    is the least outside key, each of which is at most the distance from
    every earlier tree vertex, and the keys of tree vertices no longer change.
   */
  lemma SelectCut(d: Distance, n: nat, count: int, key: seq<Cost>, inTree: seq<bool>, rank: seq<nat>, u: int,
                  key': seq<Cost>, parent: seq<int>, parent': seq<int>, inTree': seq<bool>, rank': seq<nat>)
    requires Cut(d, n, key, inTree, rank) && Nearest(d, n, key, inTree, rank)
    requires 0 <= count < n - 1 && |parent| == n && |parent'| == n
    requires forall v | 0 <= v < n && inTree[v] :: rank[v] < count
    requires forall v | 0 <= v < n && !inTree[v] :: rank[v] == n - 1
    requires EarliestLeast(Candidates(key, inTree), u) && !inTree[u]
    requires inTree' == inTree[u := true] && rank' == rank[u := count]
    requires |key'| == n
    requires forall v | 0 <= v < n :: Relaxed(d, u, v, inTree'[v], key[v], parent[v], key'[v], parent'[v])
    ensures Cut(d, n, key', inTree', rank')
  {
    var c := Candidates(key, inTree);
    forall x, v, w | 0 <= x < n && 0 <= v < n && 0 <= w < n && inTree'[v] && rank'[x] < rank'[v] <= rank'[w]
      ensures key'[v].AtMost(Finite(d(x, w)))
    {
      assert Relaxed(d, u, v, inTree'[v], key[v], parent[v], key'[v], parent'[v]);
      assert key'[v] == key[v];
      assert x != u && inTree[x] && rank[x] < rank'[v];
      if v == u {
        assert !inTree[w];
        assert key[w].AtMost(Finite(d(x, w)));
        assert c[w] == key[w];
      } else {
        assert inTree[v] && rank[v] <= rank[w];
      }
    }
  }

  /** The loop that reads the edges (parent[i], i, key[i]) off for i = 1..n-1 and sums their weights. */
  method ReadEdges(d: Distance, n: nat, ghost count: int, key: seq<Cost>, parent: seq<int>, ghost inTree: seq<bool>, ghost rank: seq<nat>)
    returns (edges: seq<Edge>, totalWeight: nat)
    requires Keys(d, n, count, key, parent, inTree, rank) && count == n - 1
    ensures |edges| == n - 1 && totalWeight == TotalWeight(edges)
    ensures forall k | 0 <= k < |edges| :: edges[k] == Edge(parent[k + 1], k + 1, key[k + 1].value)
    ensures forall k | 0 <= k < |edges| :: edges[k].weight == d(edges[k].from, k + 1)
    ensures TreeFrom(n, edges, 0, rank, EntryByTarget(n))
  {
    edges, totalWeight := [], 0;
    var i := 1;
    while i < n
      invariant 1 <= i <= n && |edges| == i - 1 && totalWeight == TotalWeight(edges)
      invariant forall k | 0 <= k < |edges| :: edges[k] == Edge(parent[k + 1], k + 1, key[k + 1].value)
    {
      var edge := Edge(parent[i], i, key[i].value);
      assert (edges + [edge])[..|edges|] == edges;
      edges := edges + [edge];
      totalWeight := totalWeight + key[i].value;
      i := i + 1;
    }
  }

  /** Each read-off edge is no heavier than the distance from any vertex that joined before its target. */
  lemma ReadEdgesNearest(d: Distance, n: nat, count: int, key: seq<Cost>, inTree: seq<bool>, rank: seq<nat>, edges: seq<Edge>)
    requires Nearest(d, n, key, inTree, rank) && count == n - 1
    requires forall v | 0 <= v < n && !inTree[v] :: rank[v] == n - 1
    requires forall v | 0 <= v < n :: rank[v] <= n - 1
    requires |edges| == n - 1 && forall k | 0 <= k < |edges| :: key[k + 1].Finite? && edges[k].weight == key[k + 1].value
    ensures forall u, v | 0 <= u < n && 1 <= v < n && rank[u] < rank[v] :: edges[v - 1].weight <= d(u, v)
  {
    forall u, v | 0 <= u < n && 1 <= v < n && rank[u] < rank[v]
      ensures edges[v - 1].weight <= d(u, v)
    {
      assert inTree[u];
      assert key[v].AtMost(Finite(d(u, v)));
    }
  }

  /**
    The cut property of the read-off edges: the edge into v is no heavier
    than any edge from a vertex that joined before v to one that joined with
    or after v. The last vertex never joins, so it is the only one of the
    highest rank.
   */
  lemma ReadEdgesCut(d: Distance, n: nat, key: seq<Cost>, inTree: seq<bool>, rank: seq<nat>, outside: set<int>, edges: seq<Edge>)
    requires ArrayJoined(n, n - 1, inTree, rank, outside)
    requires Cut(d, n, key, inTree, rank) && Nearest(d, n, key, inTree, rank)
    requires |edges| == n - 1 && forall k | 0 <= k < |edges| :: key[k + 1].Finite? && edges[k].weight == key[k + 1].value
    ensures forall u, v, w | 0 <= u < n && 1 <= v < n && 0 <= w < n && rank[u] < rank[v] <= rank[w] ::
      edges[v - 1].weight <= d(u, w)
  {
    forall u, v, w | 0 <= u < n && 1 <= v < n && 0 <= w < n && rank[u] < rank[v] <= rank[w]
      ensures edges[v - 1].weight <= d(u, w)
    {
      assert edges[v - 1].weight == key[v].value;
      if !inTree[v] {
        assert v in outside && w in outside;
        SingletonMembers(outside, v, w);
        assert inTree[u];
      }
    }
  }

  /** Two members of a one-element set are equal. */
  lemma SingletonMembers(s: set<int>, a: int, b: int)
    requires |s| == 1 && a in s && b in s
    ensures a == b
  {
    assert |s - {a}| == 0;
    assert b in s - {a} || b == a;
  }
}

=== FILE: prim_queue.dfy ===
/**
  Prim's algorithm over a priority queue of edges, as in the lab0 solver and
  the plotting script: start with the root in the tree and every edge from
  it in the queue; repeatedly take a least-weight edge, skip it when its
  target is already in the tree, and otherwise add the target, record the
  edge and queue the edges from the target to every vertex outside the tree.

  The queue is a multiset. Which of several equally light edges `poll`
  returns depends on the heap layout (Java) or on the rest of the
  (cost, frm, to) tuple (Python); the model takes the choice as a parameter
  that is only required to return a least-weight edge.
 */
module PrimQueue {
  import opened Permutations
  import opened Tours
  import opened Graphs

  /** `poll` returns an edge of least weight from a non-empty queue. */
  ghost predicate LeastFirst(poll: multiset<Edge> -> Edge) {
    forall q: multiset<Edge> | |q| > 0 :: poll(q) in q && forall x | x in q :: poll(q).weight <= x.weight
  }

  /**
    The edges queued when `u` joins the tree: one from u to each vertex below
    m that is not in the tree, weighted by the distance.
   */
  function Fan(d: Distance, u: int, inTree: seq<bool>, m: nat): (r: multiset<Edge>)
    requires m <= |inTree|
    ensures forall e :: e in r <==> e.from == u && 0 <= e.to < m && !inTree[e.to] && e.weight == d(u, e.to)
  {
    if m == 0 then multiset{}
    else Fan(d, u, inTree, m - 1) + (if inTree[m - 1] then multiset{} else multiset{Edge(u, m - 1, d(u, m - 1))})
  }

  /**
    The vertices in the tree and the order they joined in: `order` lists them
    (the root first) and `rank` gives each its position, n for a vertex not
    yet in the tree.
   */
  ghost predicate Joined(n: nat, root: int, inTree: seq<bool>, order: seq<int>, rank: seq<nat>) {
    && 0 <= root < n && |inTree| == n && |rank| == n && |order| >= 1 && order[0] == root
    && Distinct(order) && InRange(order, n)
    && (forall k | 0 <= k < |order| :: inTree[order[k]] && rank[order[k]] == k)
    && (forall v | 0 <= v < n && inTree[v] :: rank[v] < |order| && order[rank[v]] == v)
    && (forall v | 0 <= v < n && !inTree[v] :: rank[v] == n)
  }

  /** The k-th recorded edge brought in the (k+1)-th vertex from one that joined before it, at its distance. */
  ghost predicate Recorded(d: Distance, n: nat, mst: seq<Edge>, order: seq<int>, rank: seq<nat>) {
    && |order| == |mst| + 1 && |rank| == n
    && (forall k | 0 <= k < |mst| :: order[k + 1] == mst[k].to)
    && (forall k | 0 <= k < |mst| ::
         0 <= mst[k].from < n && rank[mst[k].from] <= k && mst[k].weight == d(mst[k].from, mst[k].to))
  }

  /** Queued edges leave the tree at their distance, and every edge from the tree to a vertex outside is queued. */
  ghost predicate Queued(d: Distance, n: nat, pq: multiset<Edge>, inTree: seq<bool>) {
    && |inTree| == n
    && (forall e | e in pq :: 0 <= e.from < n && 0 <= e.to < n && inTree[e.from] && e.weight == d(e.from, e.to))
    && (forall u, v | 0 <= u < n && 0 <= v < n && inTree[u] && !inTree[v] :: Edge(u, v, d(u, v)) in pq)
  }

  /**
    The cut property: the k-th recorded edge is no heavier than any edge from
    a vertex of rank at most k to one of rank above k.
   */
  ghost predicate Cut(d: Distance, n: nat, mst: seq<Edge>, rank: seq<nat>) {
    && |rank| == n
    && forall k, u, v | 0 <= k < |mst| && 0 <= u < n && 0 <= v < n && rank[u] <= k < rank[v] ::
         mst[k].weight <= d(u, v)
  }

  /** The index of the edge that brought each vertex in. */
  function EntryByRank(rank: seq<nat>): (entry: seq<int>)
    ensures |entry| == |rank| && forall v | 0 <= v < |rank| :: entry[v] == (rank[v] as int) - 1
  {
    seq(|rank|, v requires 0 <= v < |rank| => (rank[v] as int) - 1)
  }

  /**
    The queue loop of `main` (lab0) and of `prim_algorithm` (plotting
    script). It records n-1 edges that grow a spanning tree from the root,
    each weighted by its distance, and `mstWeight` is their sum. Every
    recorded edge is a lightest edge across the cut between the vertices
    that joined before its target and the rest. (By the cut property this
    makes the tree a minimum spanning tree; that conclusion is not proved
    here.)
   */
  method PrimWithQueue(d: Distance, n: nat, root: int, poll: multiset<Edge> -> Edge)
    returns (mst: seq<Edge>, mstWeight: nat, ghost order: seq<int>, ghost rank: seq<nat>)
    requires 0 <= root < n && LeastFirst(poll)
    ensures |mst| == n - 1 && mstWeight == TotalWeight(mst)
    ensures forall k | 0 <= k < |mst| :: mst[k].weight == d(mst[k].from, mst[k].to)
    ensures TreeFrom(n, mst, root, rank, EntryByRank(rank))
    ensures IsPermutation(order, n) && order[0] == root
    ensures forall k | 0 <= k < |mst| :: order[k + 1] == mst[k].to
    ensures Cut(d, n, mst, rank)
  {
    var inTree := seq(n, v => v == root);
    var pq := Fan(d, root, inTree, n);
    mst, mstWeight := [], 0;
    order := [root];
    rank := seq(n, v => if v == root then 0 else n);
    QueueInit(d, n, root, pq, inTree, rank);
    while |pq| > 0
      invariant Joined(n, root, inTree, order, rank) && Recorded(d, n, mst, order, rank)
      invariant Queued(d, n, pq, inTree) && Cut(d, n, mst, rank)
      invariant mstWeight == TotalWeight(mst)
      decreases n - |order|, |pq|
    {
      var edge := poll(pq);
      PolledEdge(d, n, root, pq, inTree, order, rank, poll);
      if inTree[edge.to] {
        QueueSkip(d, n, pq, edge, inTree);
        pq := pq - multiset{edge};
      } else {
        inTree, pq, mst, mstWeight, order, rank := Accept(d, n, root, pq, edge, inTree, mst, mstWeight, order, rank);
      }
    }
    QueueDone(d, n, root, inTree, mst, order, rank);
  }

  /**
    The body of the loop for an edge whose target `w` is outside the tree:
    mark w, add the weight, record the edge, and queue the edges from w to
    every vertex still outside.
   */
  method Accept(d: Distance, n: nat, root: int, pq: multiset<Edge>, edge: Edge, inTree: seq<bool>,
                mst: seq<Edge>, mstWeight: nat, ghost order: seq<int>, ghost rank: seq<nat>)
    returns (inTree': seq<bool>, pq': multiset<Edge>, mst': seq<Edge>, mstWeight': nat,
             ghost order': seq<int>, ghost rank': seq<nat>)
    requires Joined(n, root, inTree, order, rank) && Recorded(d, n, mst, order, rank)
    requires Queued(d, n, pq, inTree) && Cut(d, n, mst, rank) && mstWeight == TotalWeight(mst)
    requires edge in pq && forall x | x in pq :: edge.weight <= x.weight
    requires 0 <= edge.from < n && 0 <= edge.to < n && edge.weight == d(edge.from, edge.to)
    requires rank[edge.from] < |order| && |order| <= n && !inTree[edge.to] && rank[edge.to] == n
    ensures Joined(n, root, inTree', order', rank') && Recorded(d, n, mst', order', rank')
    ensures Queued(d, n, pq', inTree') && Cut(d, n, mst', rank') && mstWeight' == TotalWeight(mst')
    ensures |order'| == |order| + 1 <= n
    ensures inTree'[edge.to] && mst' == mst + [edge] && mstWeight' == mstWeight + edge.weight
  {
    inTree' := inTree[edge.to := true];
    mstWeight' := mstWeight + edge.weight;
    mst' := mst + [edge];
    rank' := rank[edge.to := |order|];
    order' := order + [edge.to];
    pq' := pq - multiset{edge} + Fan(d, edge.to, inTree', n);
    AcceptOrder(n, root, inTree, order, rank, edge.to, inTree', order', rank');
    AcceptEdges(d, n, edge, inTree, mst, order, rank, mst', order', rank');
    AcceptQueue(d, n, pq, edge, inTree, inTree', pq');
    AcceptCut(d, n, root, pq, edge, inTree, mst, order, rank, mst', rank');
    assert mst'[..|mst'| - 1] == mst;
  }

  /** The polled edge is a least queued edge, from a tree vertex, at its distance. */
  lemma PolledEdge(d: Distance, n: nat, root: int, pq: multiset<Edge>, inTree: seq<bool>, order: seq<int>, rank: seq<nat>,
                   poll: multiset<Edge> -> Edge)
    requires Joined(n, root, inTree, order, rank) && Queued(d, n, pq, inTree)
    requires LeastFirst(poll) && |pq| > 0
    ensures var edge := poll(pq);
      && edge in pq && (forall x | x in pq :: edge.weight <= x.weight)
      && 0 <= edge.from < n && 0 <= edge.to < n && edge.weight == d(edge.from, edge.to)
      && rank[edge.from] < |order| && |order| <= n
      && (!inTree[edge.to] ==> rank[edge.to] == n)
      && |pq - multiset{edge}| < |pq|
  {
    DistinctBound(order, n);
  }

  lemma QueueInit(d: Distance, n: nat, root: int, pq: multiset<Edge>, inTree: seq<bool>, rank: seq<nat>)
    requires 0 <= root < n && |inTree| == n && |rank| == n
    requires forall v | 0 <= v < n :: inTree[v] == (v == root) && rank[v] == if v == root then 0 else n
    requires pq == Fan(d, root, inTree, n)
    ensures Joined(n, root, inTree, [root], rank) && Recorded(d, n, [], [root], rank)
    ensures Queued(d, n, pq, inTree) && Cut(d, n, [], rank)
  {
  }

  /** An edge whose target is already in the tree is dropped and nothing else changes. */
  lemma QueueSkip(d: Distance, n: nat, pq: multiset<Edge>, edge: Edge, inTree: seq<bool>)
    requires Queued(d, n, pq, inTree)
    requires edge in pq && 0 <= edge.to < n && inTree[edge.to]
    ensures Queued(d, n, pq - multiset{edge}, inTree)
  {
    var pq' := pq - multiset{edge};
    forall u, v | 0 <= u < n && 0 <= v < n && inTree[u] && !inTree[v]
      ensures Edge(u, v, d(u, v)) in pq'
    {
      assert Edge(u, v, d(u, v)) != edge;
    }
  }

  /** The new vertex `w` joins the tree with the next rank; the others keep theirs. */
  lemma AcceptOrder(n: nat, root: int, inTree: seq<bool>, order: seq<int>, rank: seq<nat>, w: int,
                    inTree': seq<bool>, order': seq<int>, rank': seq<nat>)
    requires Joined(n, root, inTree, order, rank)
    requires 0 <= w < n && !inTree[w]
    requires inTree' == inTree[w := true] && order' == order + [w] && rank' == rank[w := |order|]
    ensures Joined(n, root, inTree', order', rank') && |order'| <= n
  {
    DistinctConcat(order, [w]);
    DistinctBound(order', n);
    forall k | 0 <= k < |order'|
      ensures inTree'[order'[k]] && rank'[order'[k]] == k
    {
      if k < |order| {
        assert order'[k] == order[k] != w;
      }
    }
  }

  /** The recorded edges keep their shape once the new edge is appended. */
  lemma AcceptEdges(d: Distance, n: nat, edge: Edge, inTree: seq<bool>, mst: seq<Edge>, order: seq<int>, rank: seq<nat>,
                    mst': seq<Edge>, order': seq<int>, rank': seq<nat>)
    requires Recorded(d, n, mst, order, rank) && |inTree| == n && |order| <= n
    requires 0 <= edge.from < n && rank[edge.from] < |order|
    requires edge.weight == d(edge.from, edge.to)
    requires 0 <= edge.to < n && rank[edge.to] == n
    requires mst' == mst + [edge] && order' == order + [edge.to] && rank' == rank[edge.to := |order|]
    ensures Recorded(d, n, mst', order', rank')
  {
    forall k | 0 <= k < |mst'|
      ensures 0 <= mst'[k].from < n && rank'[mst'[k].from] <= k && mst'[k].weight == d(mst'[k].from, mst'[k].to)
    {
      if k < |mst| {
        assert mst'[k] == mst[k];
        assert rank[mst[k].from] <= k < |order|;
        assert mst[k].from != edge.to;
      }
    }
  }

  /** Every queued edge still leaves the tree, and every edge from the tree to the outside is queued. */
  lemma AcceptQueue(d: Distance, n: nat, pq: multiset<Edge>, edge: Edge, inTree: seq<bool>, inTree': seq<bool>,
                    pq': multiset<Edge>)
    requires Queued(d, n, pq, inTree)
    requires edge in pq && 0 <= edge.to < n && !inTree[edge.to]
    requires inTree' == inTree[edge.to := true]
    requires pq' == pq - multiset{edge} + Fan(d, edge.to, inTree', n)
    ensures Queued(d, n, pq', inTree')
  {
    var w := edge.to;
    var fan := Fan(d, w, inTree', n);
    forall e | e in pq'
      ensures 0 <= e.from < n && 0 <= e.to < n && inTree'[e.from] && e.weight == d(e.from, e.to)
    {
      if e !in fan {
        assert e in pq;
      }
    }
    forall u, v | 0 <= u < n && 0 <= v < n && inTree'[u] && !inTree'[v]
      ensures Edge(u, v, d(u, v)) in pq'
    {
      if u == w {
        assert Edge(u, v, d(u, v)) in fan;
      } else {
        assert Edge(u, v, d(u, v)) in pq && Edge(u, v, d(u, v)) != edge;
      }
    }
  }

  /**
    The cut property of the new edge: it was a least edge of the queue, and
    every edge from the tree to a vertex outside it was queued.
   */
  lemma AcceptCut(d: Distance, n: nat, root: int, pq: multiset<Edge>, edge: Edge, inTree: seq<bool>,
                  mst: seq<Edge>, order: seq<int>, rank: seq<nat>, mst': seq<Edge>, rank': seq<nat>)
    requires Joined(n, root, inTree, order, rank) && Cut(d, n, mst, rank) && |order| == |mst| + 1
    requires forall u, v | 0 <= u < n && 0 <= v < n && inTree[u] && !inTree[v] :: Edge(u, v, d(u, v)) in pq
    requires edge in pq && forall x | x in pq :: edge.weight <= x.weight
    requires 0 <= edge.to < n && !inTree[edge.to]
    requires mst' == mst + [edge] && rank' == rank[edge.to := |order|]
    ensures Cut(d, n, mst', rank')
  {
    var w := edge.to;
    DistinctBound(order, n);
    forall k, u, v | 0 <= k < |mst'| && 0 <= u < n && 0 <= v < n && rank'[u] <= k < rank'[v]
      ensures mst'[k].weight <= d(u, v)
    {
      if k == |mst| {
        assert u != w && inTree[u];
        assert !inTree[v];
        assert Edge(u, v, d(u, v)) in pq;
      } else {
        assert mst'[k] == mst[k];
        assert u != w;
        if v == w {
          assert inTree[u];
          assert Edge(u, v, d(u, v)) in pq;
        }
      }
    }
  }

  /** With the queue empty every vertex is in the tree, so the loop recorded n-1 edges. */
  lemma QueueDone(d: Distance, n: nat, root: int, inTree: seq<bool>, mst: seq<Edge>, order: seq<int>, rank: seq<nat>)
    requires Joined(n, root, inTree, order, rank) && Recorded(d, n, mst, order, rank)
    requires Queued(d, n, multiset{}, inTree)
    ensures |mst| == n - 1
    ensures forall k | 0 <= k < |mst| :: mst[k].weight == d(mst[k].from, mst[k].to)
    ensures TreeFrom(n, mst, root, rank, EntryByRank(rank))
    ensures IsPermutation(order, n)
  {
    assert inTree[root];
    forall v | 0 <= v < n
      ensures inTree[v]
    {
    }
    forall v | 0 <= v < n
      ensures v in Elems(order)
    {
      assert order[rank[v]] == v;
    }
    CoveringIsPermutation(order, n);
    forall k | 0 <= k < |mst|
      ensures 0 <= mst[k].to < n && rank[mst[k].from] < rank[mst[k].to]
    {
      assert order[k + 1] == mst[k].to;
    }
    var entry := EntryByRank(rank);
    forall v | 0 <= v < n && v != root
      ensures 0 <= entry[v] < |mst| && mst[entry[v]].to == v
    {
      assert order[rank[v]] == v;
      assert rank[v] != 0;
    }
  }
}

=== FILE: shuffle.dfy ===
/**
  Fisher–Yates shuffling (`shuffleArray` in the genetic, tabu and annealing
  solvers; `Collections.shuffle` behind `randomPermutation` in the
  first-improvement local search). The random index drawn for position i is
  passed in explicitly; its range [0, i] is the only thing the model assumes
  about the generator.
 */
module Shuffle {
  import opened Permutations
  import opened Moves

  /**
    `draws[k]` is the index drawn when the loop is at position
    i = |a| - 1 - k, for i = |a| - 1 down to 1.
   */
  predicate ValidShuffleDraws(size: nat, draws: seq<int>) {
    && |draws| == (if size == 0 then 0 else size - 1)
    && forall k | 0 <= k < |draws| :: 0 <= draws[k] <= size - 1 - k
  }

  /**
    The shuffle as a value: `a` after the first k draws, where draw k'
    exchanges position `draws[k']` with position |a| - 1 - k'.
   */
  function ShuffledPrefix(a: seq<int>, draws: seq<int>, k: nat): (r: seq<int>)
    requires ValidShuffleDraws(|a|, draws) && k <= |draws|
    ensures |r| == |a|
  {
    if k == 0 then a else Swap(ShuffledPrefix(a, draws, k - 1), draws[k - 1], |a| - k)
  }

  /** Shuffling only exchanges entries. */
  lemma {:induction false} ShuffledRearranges(a: seq<int>, draws: seq<int>, k: nat, r: seq<int>)
    requires ValidShuffleDraws(|a|, draws) && k <= |draws| && r == ShuffledPrefix(a, draws, k)
    ensures IsRearrangement(a, r)
  {
    if k > 0 {
      var p := ShuffledPrefix(a, draws, k - 1);
      ShuffledRearranges(a, draws, k - 1, p);
      SwapRearranges(p, draws[k - 1], |a| - k);
    }
  }

  /** Shuffling a tour of the n cities gives a tour of the n cities. */
  lemma {:induction false} ShuffledPrefixPermutation(a: seq<int>, draws: seq<int>, k: nat, n: nat)
    requires ValidShuffleDraws(|a|, draws) && k <= |draws| && IsPermutation(a, n)
    ensures IsPermutation(ShuffledPrefix(a, draws, k), n)
  {
    if k > 0 {
      ShuffledPrefixPermutation(a, draws, k - 1, n);
      SwapPreservesPermutation(ShuffledPrefix(a, draws, k - 1), draws[k - 1], |a| - k, n);
    }
  }

  /** The tour `shuffleArray` leaves behind for the given draws. */
  function Shuffled(a: seq<int>, draws: seq<int>): seq<int>
    requires ValidShuffleDraws(|a|, draws)
  {
    ShuffledPrefix(a, draws, |draws|)
  }

  /**
    `shuffleArray`: the result is a rearrangement of `a`, which is the fact
    the solvers rely on. The second ensures only names the result as
    `Shuffled` of the draws, so that later definitions can refer to the
    shuffled start tour.
   */
  method ShuffleArray(a: seq<int>, draws: seq<int>) returns (r: seq<int>)
    requires ValidShuffleDraws(|a|, draws)
    ensures |r| == |a| && IsRearrangement(a, r)
    ensures r == Shuffled(a, draws)
  {
    r := a;
    var i := |a| - 1;
    while i > 0
      invariant |r| == |a| && (|a| == 0 ==> i == -1)
      invariant |a| > 0 ==> 0 <= i < |a| && r == ShuffledPrefix(a, draws, |a| - 1 - i)
    {
      r := ShuffleStep(a, draws, i, r);
      i := i - 1;
    }
    ShuffledRearranges(a, draws, |draws|, r);
  }

  /** The loop body at position i: exchange it with the position drawn for it. */
  method ShuffleStep(a: seq<int>, draws: seq<int>, i: int, r: seq<int>) returns (r': seq<int>)
    requires ValidShuffleDraws(|a|, draws) && 0 < i < |a|
    requires r == ShuffledPrefix(a, draws, |a| - 1 - i)
    ensures r' == ShuffledPrefix(a, draws, |a| - i)
  {
    var index := draws[|a| - 1 - i];
    r' := Swap(r, index, i);
  }

  /** The tour `randomPermutation(size)` returns for the given draws: the identity, shuffled. */
  function RandomTour(size: nat, draws: seq<int>): (r: seq<int>)
    requires ValidShuffleDraws(size, draws)
    ensures IsPermutation(r, size)
  {
    var r := Shuffled(Identity(size), draws);
    ShuffledPrefixPermutation(Identity(size), draws, |draws|, size);
    r
  }

  /** `randomPermutation(size)`: the identity tour, shuffled. */
  method RandomPermutation(size: nat, draws: seq<int>) returns (r: seq<int>)
    requires ValidShuffleDraws(size, draws)
    ensures IsPermutation(r, size)
    ensures r == RandomTour(size, draws)
  {
    r := ShuffleArray(Identity(size), draws);
    RearrangementPreservesPermutation(Identity(size), r, size);
  }
}

=== FILE: tabu_full.dfy ===
/**
  The full-neighbourhood tabu search (two near-identical copies of the
  solver): every iteration scores all segment inversions `(i, j)` with
  i < j, moves to the best neighbour that is not tabu, even when it is worse
  than the current tour, and appends it to a FIFO tabu list of arrays.

  The tabu test is `List<int[]>.contains`, and `int[]` keeps Object's
  reference equality. Arrays are therefore modelled with an identity: each
  neighbour is a freshly allocated array, numbered by an allocation counter.
  `Equality` selects between the test as written (`ByReference`) and a test
  on the entries (`ByContents`).
 */
module TabuFull {
  import opened Permutations
  import opened Tours
  import opened Moves
  import opened Shuffle
  import opened Minimum

  /** A Java `int[]` object: its identity and its entries. */
  datatype Arr = Arr(ref: nat, contents: seq<int>)

  /** What `List.contains` calls equal: the same object, or the same entries. */
  datatype Equality = ByReference | ByContents

  predicate Same(a: Arr, b: Arr, eq: Equality) {
    match eq
    case ByReference => a.ref == b.ref
    case ByContents => a.contents == b.contents
  }

  /** `list.contains(a)`: some element of the list equals `a`. */
  function ListContains(list: seq<Arr>, a: Arr, eq: Equality): (r: bool)
    ensures r <==> exists k | 0 <= k < |list| :: Same(list[k], a, eq)
  {
    if |list| == 0 then false
    else if Same(list[0], a, eq) then true
    else
      var r := ListContains(list[1..], a, eq);
      assert forall k | 1 <= k < |list| :: list[k] == list[1..][k - 1];
      r
  }

  /** The segment inversion that creates one neighbour. */
  datatype Move = Move(i: int, j: int)

  /** The inner loop's moves `(i, j), (i, j + 1), ..., (i, n - 1)`. */
  function Row(n: int, i: int, j: int): seq<Move>
    decreases n - j
  {
    if j >= n then [] else [Move(i, j)] + Row(n, i, j + 1)
  }

  /** The moves of the outer loop from row i on: rows i, i + 1, ..., n - 2. */
  function Rows(n: int, i: int): seq<Move>
    decreases n - i
  {
    if i >= n - 1 then [] else Row(n, i, i + 1) + Rows(n, i + 1)
  }

  /** Every move of an n-city tour, in the order the two nested loops visit them. */
  function Neighbourhood(n: int): seq<Move> {
    Rows(n, 0)
  }

  lemma {:induction false} RowMembers(n: int, i: int, j: int)
    ensures forall m :: m in Row(n, i, j) <==> m.i == i && j <= m.j < n
    decreases n - j
  {
    if j < n {
      RowMembers(n, i, j + 1);
    }
  }

  lemma {:induction false} RowsMembers(n: int, i: int)
    ensures forall m :: m in Rows(n, i) <==> i <= m.i < m.j < n
    decreases n - i
  {
    if i < n - 1 {
      RowMembers(n, i, i + 1);
      RowsMembers(n, i + 1);
    }
  }

  /** The neighbourhood is exactly the pairs i < j of positions. */
  lemma NeighbourhoodMembers(n: int)
    ensures forall m :: m in Neighbourhood(n) <==> 0 <= m.i < m.j < n
  {
    RowsMembers(n, 0);
  }

  lemma RowStep(n: int, i: int, j: int, before: seq<Move>, after: seq<Move>)
    requires j < n && after == before + [Move(i, j)]
    ensures after + Row(n, i, j + 1) == before + Row(n, i, j)
  {
    assert Row(n, i, j) == [Move(i, j)] + Row(n, i, j + 1);
  }

  lemma RowsStep(n: int, i: int, before: seq<Move>, after: seq<Move>)
    requires i < n - 1 && after == before + Row(n, i, i + 1)
    ensures after + Rows(n, i + 1) == before + Rows(n, i)
  {
    assert Rows(n, i) == Row(n, i, i + 1) + Rows(n, i + 1);
    assert after + Rows(n, i + 1) == before + (Row(n, i, i + 1) + Rows(n, i + 1));
  }

  lemma RowsDone(n: int, i: int, seen: seq<Move>)
    requires i >= n - 1 && seen + Rows(n, i) == Neighbourhood(n)
    ensures seen == Neighbourhood(n)
  {
    assert Rows(n, i) == [];
  }

  /** Every move of a list inverts a segment of an n-position tour. */
  predicate MovesIn(moves: seq<Move>, n: int) {
    forall k | 0 <= k < |moves| :: 0 <= moves[k].i < n && 0 <= moves[k].j < n
  }

  /**
    The score of one neighbour in the scan: Double.MAX_VALUE when the tabu
    list contains it, its length otherwise. `ref` is the identity of the
    freshly built neighbour array.
   */
  function Score(d: Distance, current: seq<int>, tabu: seq<Arr>, eq: Equality, m: Move, ref: nat): Cost
    requires 0 <= m.i < |current| && 0 <= m.j < |current|
  {
    var neighbor := Arr(ref, InvertSegment(current, m.i, m.j));
    if ListContains(tabu, neighbor, eq) then Infinite else Finite(TourLength(d, neighbor.contents))
  }

  /** The scores of `moves` in order, the k-th neighbour having identity `next + k`. */
  function Scores(d: Distance, current: seq<int>, tabu: seq<Arr>, eq: Equality, moves: seq<Move>, next: nat): (r: seq<Cost>)
    requires MovesIn(moves, |current|)
    ensures |r| == |moves|
  {
    if |moves| == 0 then []
    else
      var init := moves[..|moves| - 1];
      assert forall k | 0 <= k < |init| :: init[k] == moves[k];
      Scores(d, current, tabu, eq, init, next) + [Score(d, current, tabu, eq, moves[|moves| - 1], next + |moves| - 1)]
  }

  lemma {:induction false} ScoresAt(d: Distance, current: seq<int>, tabu: seq<Arr>, eq: Equality,
                                    moves: seq<Move>, next: nat, k: int)
    requires MovesIn(moves, |current|) && 0 <= k < |moves|
    ensures Scores(d, current, tabu, eq, moves, next)[k] == Score(d, current, tabu, eq, moves[k], next + k)
  {
    if k < |moves| - 1 {
      var init := moves[..|moves| - 1];
      ScoresAt(d, current, tabu, eq, init, next, k);
    }
  }

  /**
    The scan state over the moves seen so far, given their scores `c`: a
    running minimum, and the neighbour it stands for.
   */
  predicate ScanState(c: seq<Cost>, current: seq<int>, seen: seq<Move>, next: nat,
                      best: Option<Arr>, bestDistance: Cost, at: int)
    requires MovesIn(seen, |current|)
  {
    && RunningMin(c, best.Some?, bestDistance, at)
    && (best.Some? ==> 0 <= at < |seen| && best.value == Arr(next + at, InvertSegment(current, seen[at].i, seen[at].j)))
  }

  /**
    The scan after the moves `seen`: they are all in range, the next array
    gets identity `ref`, and the running minimum is over their scores.
   */
  predicate ScanProgress(d: Distance, current: seq<int>, tabu: seq<Arr>, eq: Equality, next: nat,
                         seen: seq<Move>, ref: nat, best: Option<Arr>, bestDistance: Cost, at: int)
  {
    && MovesIn(seen, |current|) && ref == next + |seen|
    && ScanState(Scores(d, current, tabu, eq, seen, next), current, seen, next, best, bestDistance, at)
  }

  /** Scoring one more move appends its score. */
  lemma ScoresSnoc(d: Distance, current: seq<int>, tabu: seq<Arr>, eq: Equality, seen: seq<Move>, m: Move, next: nat)
    requires MovesIn(seen, |current|) && 0 <= m.i < |current| && 0 <= m.j < |current|
    ensures MovesIn(seen + [m], |current|)
    ensures Scores(d, current, tabu, eq, seen + [m], next)
         == Scores(d, current, tabu, eq, seen, next) + [Score(d, current, tabu, eq, m, next + |seen|)]
  {
    assert (seen + [m])[..|seen|] == seen;
  }

  /** One more score `x` for move `m`: the running minimum stays or passes to `m`'s neighbour. */
  lemma ScanStateStep(c: seq<Cost>, x: Cost, current: seq<int>, seen: seq<Move>, m: Move, next: nat,
                      best: Option<Arr>, bestDistance: Cost, at: int)
    requires MovesIn(seen, |current|) && 0 <= m.i < |current| && 0 <= m.j < |current|
    requires MovesIn(seen + [m], |current|) && |c| == |seen|
    requires ScanState(c, current, seen, next, best, bestDistance, at)
    ensures x.Below(bestDistance) ==> ScanState(c + [x], current, seen + [m], next,
                                                Some(Arr(next + |seen|, InvertSegment(current, m.i, m.j))), x, |seen|)
    ensures !x.Below(bestDistance) ==> ScanState(c + [x], current, seen + [m], next, best, bestDistance, at)
  {
    RunningMinStep(c, x, best.Some?, bestDistance, at);
    var seen' := seen + [m];
    assert seen'[|seen|] == m;
    if best.Some? {
      assert seen'[at] == seen[at];
    }
  }

  /** A neighbour that is not strictly better leaves the running minimum in place. */
  lemma ScanKeeps(d: Distance, current: seq<int>, tabu: seq<Arr>, eq: Equality, next: nat, seen: seq<Move>,
                  m: Move, ref: nat, best: Option<Arr>, bestDistance: Cost, at: int, x: Cost)
    requires 0 <= m.i < |current| && 0 <= m.j < |current|
    requires ScanProgress(d, current, tabu, eq, next, seen, ref, best, bestDistance, at)
    requires x == Score(d, current, tabu, eq, m, ref) && !x.Below(bestDistance)
    ensures ScanProgress(d, current, tabu, eq, next, seen + [m], ref + 1, best, bestDistance, at)
  {
    ScoresSnoc(d, current, tabu, eq, seen, m, next);
    ScanStateStep(Scores(d, current, tabu, eq, seen, next), x, current, seen, m, next, best, bestDistance, at);
  }

  /** A strictly better neighbour takes over the running minimum. */
  lemma ScanTakes(d: Distance, current: seq<int>, tabu: seq<Arr>, eq: Equality, next: nat, seen: seq<Move>,
                  m: Move, ref: nat, best: Option<Arr>, bestDistance: Cost, at: int, x: Cost)
    requires 0 <= m.i < |current| && 0 <= m.j < |current|
    requires ScanProgress(d, current, tabu, eq, next, seen, ref, best, bestDistance, at)
    requires x == Score(d, current, tabu, eq, m, ref) && x.Below(bestDistance)
    ensures ScanProgress(d, current, tabu, eq, next, seen + [m], ref + 1,
                         Some(Arr(ref, InvertSegment(current, m.i, m.j))), x, |seen|)
  {
    ScoresSnoc(d, current, tabu, eq, seen, m, next);
    ScanStateStep(Scores(d, current, tabu, eq, seen, next), x, current, seen, m, next, best, bestDistance, at);
  }

  /** One iteration of the inner loop: build and score the neighbour of move `m`, keep it when strictly better. */
  method ScanMove(d: Distance, current: seq<int>, tabu: seq<Arr>, eq: Equality, next: nat, ghost seen: seq<Move>,
                  m: Move, ref: nat, best: Option<Arr>, bestDistance: Cost, ghost at: int)
    returns (ghost seen': seq<Move>, ref': nat, best': Option<Arr>, bestDistance': Cost, ghost at': int)
    requires 0 <= m.i < |current| && 0 <= m.j < |current|
    requires ScanProgress(d, current, tabu, eq, next, seen, ref, best, bestDistance, at)
    ensures seen' == seen + [m]
    ensures ScanProgress(d, current, tabu, eq, next, seen', ref', best', bestDistance', at')
  {
    seen', ref' := seen + [m], ref + 1;
    var neighbor := Arr(ref, InvertSegment(current, m.i, m.j));
    var neighborDistance := TotalDistance(d, neighbor.contents);
    if !ListContains(tabu, neighbor, eq) && Finite(neighborDistance).Below(bestDistance) {
      ScanTakes(d, current, tabu, eq, next, seen, m, ref, best, bestDistance, at, Finite(neighborDistance));
      best', bestDistance', at' := Some(neighbor), Finite(neighborDistance), |seen|;
    } else {
      ScanKeeps(d, current, tabu, eq, next, seen, m, ref, best, bestDistance, at, Score(d, current, tabu, eq, m, ref));
      best', bestDistance', at' := best, bestDistance, at;
    }
  }

  /** The inner loop for row i: the moves (i, j), ..., (i, n - 1). */
  method ScanRow(d: Distance, current: seq<int>, tabu: seq<Arr>, eq: Equality, next: nat, i: int, j0: int,
                 ghost seen: seq<Move>, ref: nat, best: Option<Arr>, bestDistance: Cost, ghost at: int)
    returns (ghost seen': seq<Move>, ref': nat, best': Option<Arr>, bestDistance': Cost, ghost at': int)
    requires 0 <= i < j0 <= |current|
    requires ScanProgress(d, current, tabu, eq, next, seen, ref, best, bestDistance, at)
    ensures seen' == seen + Row(|current|, i, j0)
    ensures ScanProgress(d, current, tabu, eq, next, seen', ref', best', bestDistance', at')
  {
    var n := |current|;
    ghost var target := seen + Row(n, i, j0);
    seen', ref', best', bestDistance', at' := seen, ref, best, bestDistance, at;
    var j := j0;
    while j < n
      invariant j0 <= j <= n && seen' + Row(n, i, j) == target
      invariant ScanProgress(d, current, tabu, eq, next, seen', ref', best', bestDistance', at')
      decreases n - j
    {
      ghost var before := seen';
      seen', ref', best', bestDistance', at' := ScanMove(d, current, tabu, eq, next, seen', Move(i, j), ref', best', bestDistance', at');
      RowStep(n, i, j, before, seen');
      j := j + 1;
    }
  }

  /** What a finished scan says about its result, read off the array identities. */
  lemma ScanOutcome(d: Distance, current: seq<int>, tabu: seq<Arr>, eq: Equality, next: nat,
                    seen: seq<Move>, ref: nat, best: Option<Arr>, bestDistance: Cost, at: int)
    requires ScanProgress(d, current, tabu, eq, next, seen, ref, best, bestDistance, at)
    ensures MovesIn(seen, |current|) && ref == next + |seen|
    ensures best.None? <==> AllInfinite(Scores(d, current, tabu, eq, seen, next))
    ensures best.Some? ==>
      var c, k := Scores(d, current, tabu, eq, seen, next), best.value.ref - next;
      && 0 <= k < |seen| && EarliestLeast(c, k) && bestDistance == c[k]
      && best.value.contents == InvertSegment(current, seen[k].i, seen[k].j)
  {
    var c := Scores(d, current, tabu, eq, seen, next);
    assert RunningMin(c, best.Some?, bestDistance, at);
    if best.Some? {
      assert best.value.ref - next == at;
    }
  }

  /**
    The full neighbourhood scan: the nested loops over i < j. Each neighbour
    is a new array, so `next` advances by the size of the neighbourhood. The
    result is the earliest neighbour of least score, or `None` when every
    score is Double.MAX_VALUE.
   */
  method ScanNeighbourhood(d: Distance, current: seq<int>, tabu: seq<Arr>, eq: Equality, next: nat)
    returns (best: Option<Arr>, bestDistance: Cost, next': nat, ghost at: int)
    ensures ScanProgress(d, current, tabu, eq, next, Neighbourhood(|current|), next', best, bestDistance, at)
    ensures MovesIn(Neighbourhood(|current|), |current|) && next' == next + |Neighbourhood(|current|)|
    ensures best.None? <==> AllInfinite(Scores(d, current, tabu, eq, Neighbourhood(|current|), next))
    ensures best.Some? ==>
      var moves, c, k := Neighbourhood(|current|), Scores(d, current, tabu, eq, Neighbourhood(|current|), next), best.value.ref - next;
      && 0 <= k < |moves| && EarliestLeast(c, k) && bestDistance == c[k]
      && best.value.contents == InvertSegment(current, moves[k].i, moves[k].j)
  {
    best, bestDistance, next', at := ScanAll(d, current, tabu, eq, next);
    ScanOutcome(d, current, tabu, eq, next, Neighbourhood(|current|), next', best, bestDistance, at);
  }

  /** The two nested loops of the scan. */
  method ScanAll(d: Distance, current: seq<int>, tabu: seq<Arr>, eq: Equality, next: nat)
    returns (best: Option<Arr>, bestDistance: Cost, next': nat, ghost at: int)
    ensures ScanProgress(d, current, tabu, eq, next, Neighbourhood(|current|), next', best, bestDistance, at)
  {
    var n := |current|;
    best, bestDistance, at := None, Infinite, 0;
    ghost var seen: seq<Move> := [];
    next' := next;
    var i := 0;
    while i < n - 1
      invariant 0 <= i && (i <= n - 1 || i == 0) && seen + Rows(n, i) == Neighbourhood(n)
      invariant ScanProgress(d, current, tabu, eq, next, seen, next', best, bestDistance, at)
      decreases n - i
    {
      ghost var before := seen;
      seen, next', best, bestDistance, at := ScanRow(d, current, tabu, eq, next, i, i + 1, seen, next', best, bestDistance, at);
      RowsStep(n, i, before, seen);
      i := i + 1;
    }
    RowsDone(n, i, seen);
  }

  /** The search state between iterations. `next` is the allocation counter for new arrays. */
  datatype Search = Search(current: Arr, currentDistance: nat, best: seq<int>, bestDistance: nat,
                           tabu: seq<Arr>, next: nat, stagnation: int)

  /**
    Both tours are tours of the n cities with their lengths, the best no
    longer than the current one, the tabu list
    holds at most `tabuListSize` arrays, and every array seen so far was
    allocated before `next`.
   */
  predicate SearchOk(d: Distance, s: Search, n: nat, tabuListSize: int) {
    && n >= 1 && IsPermutation(s.current.contents, n) && IsPermutation(s.best, n)
    && s.currentDistance == TourLength(d, s.current.contents)
    && s.bestDistance == TourLength(d, s.best)
    && s.bestDistance <= s.currentDistance
    && |s.tabu| <= (if tabuListSize < 0 then 0 else tabuListSize)
    && s.current.ref < s.next
    && forall k | 0 <= k < |s.tabu| :: s.tabu[k].ref < s.next
  }

  /**
    `tabuList.add(a)`, then `remove(0)` when the list is longer than
    `tabuListSize`: the newest entries of `tabu + [a]`, one fewer than that
    only when the limit is exceeded.
   */
  function Remember(tabu: seq<Arr>, a: Arr, tabuListSize: int): (r: seq<Arr>)
    ensures |r| == (if |tabu| + 1 > tabuListSize then |tabu| else |tabu| + 1)
    ensures r == (tabu + [a])[|tabu| + 1 - |r|..]
    ensures |tabu| <= (if tabuListSize < 0 then 0 else tabuListSize) ==>
      |r| <= (if tabuListSize < 0 then 0 else tabuListSize)
  {
    var added := tabu + [a];
    if |added| > tabuListSize then added[1..] else added
  }

  /** Remembering an array allocated before `next` keeps every entry allocated before `next`. */
  lemma RememberAllocated(tabu: seq<Arr>, a: Arr, tabuListSize: int, next: nat)
    requires forall k | 0 <= k < |tabu| :: tabu[k].ref < next
    requires a.ref < next
    ensures var r := Remember(tabu, a, tabuListSize); forall k | 0 <= k < |r| :: r[k].ref < next
  {
    var r := Remember(tabu, a, tabuListSize);
    forall k | 0 <= k < |r|
      ensures r[k].ref < next
    {
      assert r[k] == (tabu + [a])[|tabu| + 1 - |r| + k];
    }
  }

  /**
    What the scan's result says about the chosen neighbour: it is the
    neighbour of the move at `at`, it is not tabu, it is a tour of the same
    cities, and it was allocated by this scan.
   */
  lemma ChosenNeighbour(d: Distance, current: seq<int>, tabu: seq<Arr>, eq: Equality, next: nat,
                        best: Option<Arr>, bestDistance: Cost, next': nat, at: int, n: nat)
    requires IsPermutation(current, n) && best.Some?
    requires ScanProgress(d, current, tabu, eq, next, Neighbourhood(n), next', best, bestDistance, at)
    ensures var moves := Neighbourhood(n);
      && 0 <= at < |moves|
      && EarliestLeast(Scores(d, current, tabu, eq, moves, next), at)
      && best.value.contents == InvertSegment(current, moves[at].i, moves[at].j)
      && !ListContains(tabu, best.value, eq)
      && bestDistance == Finite(TourLength(d, best.value.contents))
      && IsPermutation(best.value.contents, n)
      && next <= best.value.ref < next'
  {
    var moves := Neighbourhood(n);
    ScoresAt(d, current, tabu, eq, moves, next, at);
    InvertSegmentPreservesPermutation(current, moves[at].i, moves[at].j, n);
  }

  /**
    One iteration of the search loop, from `s` to `s'`: move to the best
    neighbour that is not tabu, the one of move `at` in the scan order,
    whatever its length; replace the best tour and reset the stagnation
    counter only on a strict improvement, otherwise count one more iteration
    without improvement; remember the neighbour as tabu. Without any
    admissible neighbour nothing changes.
   */
  predicate Stepped(d: Distance, s: Search, s': Search, at: int, n: nat, tabuListSize: int, eq: Equality) {
    var moves := Neighbourhood(n);
    && |s.current.contents| == n && MovesIn(moves, n)
    && s'.bestDistance <= s.bestDistance
    && var c := Scores(d, s.current.contents, s.tabu, eq, moves, s.next);
      && (AllInfinite(c) ==> s' == s)
      && (!AllInfinite(c) ==> (
        && EarliestLeast(c, at) && at < |moves|
        && s'.current.contents == InvertSegment(s.current.contents, moves[at].i, moves[at].j)
        && !ListContains(s.tabu, s'.current, eq)
        && s'.tabu == Remember(s.tabu, s'.current, tabuListSize)
        && (if s'.currentDistance < s.bestDistance
            then s'.best == s'.current.contents && s'.bestDistance == s'.currentDistance && s'.stagnation == 0
            else s'.best == s.best && s'.bestDistance == s.bestDistance && s'.stagnation == s.stagnation + 1)))
  }

  /** One iteration of the search loop: see `Stepped`. */
  method TabuStep(d: Distance, s: Search, n: nat, tabuListSize: int, eq: Equality)
    returns (s': Search, ghost at: int)
    requires SearchOk(d, s, n, tabuListSize)
    ensures SearchOk(d, s', n, tabuListSize)
    ensures Stepped(d, s, s', at, n, tabuListSize, eq)
  {
    var bestNeighbor, bestNeighborDistance, next;
    bestNeighbor, bestNeighborDistance, next, at := ScanNeighbourhood(d, s.current.contents, s.tabu, eq, s.next);
    if bestNeighbor.None? {
      s' := s;
      return;
    }
    ChosenNeighbour(d, s.current.contents, s.tabu, eq, s.next, bestNeighbor, bestNeighborDistance, next, at, n);
    var current := bestNeighbor.value;
    var currentDistance := bestNeighborDistance.value;
    var best, bestDistance, stagnation := s.best, s.bestDistance, s.stagnation;
    if currentDistance < bestDistance {
      best, bestDistance, stagnation := current.contents, currentDistance, 0;
    } else {
      stagnation := stagnation + 1;
    }
    var tabu := Remember(s.tabu, current, tabuListSize);
    RememberAllocated(s.tabu, current, tabuListSize, next);
    s' := Search(current, currentDistance, best, bestDistance, tabu, next, stagnation);
  }

  /**
    As written, the tabu test never rejects: each neighbour is a new array,
    so no list entry is the same object, and every score is the neighbour's
    length.
   */
  lemma ReferenceTestNeverRejects(d: Distance, current: seq<int>, tabu: seq<Arr>, moves: seq<Move>, next: nat)
    requires MovesIn(moves, |current|)
    requires forall k | 0 <= k < |tabu| :: tabu[k].ref < next
    ensures forall k | 0 <= k < |moves| ::
      Scores(d, current, tabu, ByReference, moves, next)[k]
        == Finite(TourLength(d, InvertSegment(current, moves[k].i, moves[k].j)))
  {
    forall k | 0 <= k < |moves|
      ensures Scores(d, current, tabu, ByReference, moves, next)[k]
        == Finite(TourLength(d, InvertSegment(current, moves[k].i, moves[k].j)))
    {
      ScoresAt(d, current, tabu, ByReference, moves, next, k);
    }
  }

  /**
    A two-city instance where the test as written lets a tabu tour through:
    the only neighbour of `[0, 1]` is `[1, 0]`, the tabu list holds an array
    `[1, 0]`, and yet the neighbour scores finite.
   */
  lemma ReferenceTestAdmitsTabuTour()
    ensures var d: Distance := (a, b) => 1;
      var tabu := [Arr(0, [1, 0])];
      && Neighbourhood(2) == [Move(0, 1)]
      && InvertSegment([0, 1], 0, 1) == tabu[0].contents
      && Scores(d, [0, 1], tabu, ByReference, Neighbourhood(2), 1)[0].Finite?
  {
    var d: Distance := (a, b) => 1;
    var tabu := [Arr(0, [1, 0])];
    assert Row(2, 0, 1) == [Move(0, 1)];
    assert Neighbourhood(2) == [Move(0, 1)];
    assert InvertSegment([0, 1], 0, 1) == [1, 0];
    ReferenceTestNeverRejects(d, [0, 1], tabu, [Move(0, 1)], 1);
  }

  /** Comparing entries, a neighbour scores finite exactly when no tabu array has its entries. */
  lemma ContentsTestRejectsTabu(d: Distance, current: seq<int>, tabu: seq<Arr>, moves: seq<Move>, next: nat, k: int)
    requires MovesIn(moves, |current|) && 0 <= k < |moves|
    ensures Scores(d, current, tabu, ByContents, moves, next)[k].Finite?
        <==> forall q | 0 <= q < |tabu| :: tabu[q].contents != InvertSegment(current, moves[k].i, moves[k].j)
  {
    ScoresAt(d, current, tabu, ByContents, moves, next, k);
  }

  /** The state after shuffling: the shuffled tour is array 0, nothing is tabu. */
  method InitialSearch(d: Distance, n: nat, shuffle: seq<int>) returns (s: Search)
    requires n >= 1 && ValidShuffleDraws(n, shuffle)
    ensures SearchOk(d, s, n, 0)
    ensures s.current == Arr(0, RandomTour(n, shuffle)) && s.next == 1
    ensures s.best == s.current.contents && s.tabu == [] && s.stagnation == 0
  {
    var current := RandomPermutation(n, shuffle);
    var currentDistance := TotalDistance(d, current);
    s := Search(Arr(0, current), currentDistance, current, currentDistance, [], 1, 0);
  }

  /**
    `tabuSearch`: iterate while the stagnation counter is below
    `maxIterationsWithoutImprovement`. The source's loop has no other exit and
    spins forever when no neighbour is admissible (fewer than two cities);
    here at most `fuel` iterations run and `stopped` tells whether the
    source's exit was reached.

    `states` are the states the loop passes through, from the shuffled start,
    each step an iteration whose chosen move is in `moves`. The returned tour
    is the last state's best tour: no longer than any tour the search stood
    on, and one of them.
   */
  method TabuSearch(d: Distance, n: nat, tabuListSize: int, maxIterationsWithoutImprovement: int,
                    eq: Equality, shuffle: seq<int>, fuel: nat)
    returns (best: seq<int>, stopped: bool, used: nat, ghost start: seq<int>,
             ghost states: seq<Search>, ghost moves: seq<int>)
    requires n >= 1 && ValidShuffleDraws(n, shuffle)
    ensures start == RandomTour(n, shuffle) && IsPermutation(best, n)
    ensures used <= fuel && (stopped || used == fuel)
    ensures |states| == used + 1 && |moves| == used
    ensures states[0] == Search(Arr(0, start), TourLength(d, start), start, TourLength(d, start), [], 1, 0)
    ensures forall k | 0 <= k <= used :: SearchOk(d, states[k], n, tabuListSize)
    ensures forall k | 0 <= k < used ::
      states[k].stagnation < maxIterationsWithoutImprovement
      && Stepped(d, states[k], states[k + 1], moves[k], n, tabuListSize, eq)
    ensures best == states[used].best
    ensures stopped <==> states[used].stagnation >= maxIterationsWithoutImprovement
    ensures forall k | 0 <= k <= used :: TourLength(d, best) <= states[k].currentDistance
    ensures exists k | 0 <= k <= used :: states[k].current.contents == best
    ensures maxIterationsWithoutImprovement <= 0 ==> stopped && used == 0 && best == start
  {
    var s := InitialSearch(d, n, shuffle);
    start := s.current.contents;
    used, states, moves := 0, [s], [];
    ghost var at := 0;
    while s.stagnation < maxIterationsWithoutImprovement && used < fuel
      invariant used <= fuel
      invariant Trace(Sound(d, n, tabuListSize), Step(d, n, tabuListSize, eq), maxIterationsWithoutImprovement, used, states, moves, at)
      invariant s == states[used]
      invariant states[0] == Search(Arr(0, start), TourLength(d, start), start, TourLength(d, start), [], 1, 0)
      invariant maxIterationsWithoutImprovement <= 0 ==> used == 0
      decreases fuel - used
    {
      s, states, moves, at := SearchRound(d, n, tabuListSize, eq, maxIterationsWithoutImprovement, used, s, states, moves, at);
      used := used + 1;
    }
    best := s.best;
    stopped := s.stagnation >= maxIterationsWithoutImprovement;
    TraceOutcome(d, n, tabuListSize, eq, maxIterationsWithoutImprovement, used, states, moves, at);
  }

  /** `SearchOk` as a state condition. */
  function Sound(d: Distance, n: nat, tabuListSize: int): Search -> bool {
    (t: Search) => SearchOk(d, t, n, tabuListSize)
  }

  /** `Stepped` as a step relation. */
  function Step(d: Distance, n: nat, tabuListSize: int, eq: Equality): (Search, Search, int) -> bool {
    (t: Search, t': Search, at: int) => Stepped(d, t, t', at, n, tabuListSize, eq)
  }

  /**
    The first `used` iterations of the loop as the states and chosen moves
    they produced, for a state condition `ok` and a step relation `step`:
    every state meets `ok`, each step is related by `step` and was allowed
    by the loop condition, the last best length is at most every current
    length, and the last best tour is the current tour of state `at`.
   */
  ghost predicate Trace(ok: Search -> bool, step: (Search, Search, int) -> bool, limit: int, used: nat,
                        states: seq<Search>, moves: seq<int>, at: int) {
    && |states| == used + 1 && |moves| == used
    && (forall k | 0 <= k <= used :: ok(states[k]))
    && (forall k | 0 <= k < used :: states[k].stagnation < limit && step(states[k], states[k + 1], moves[k]))
    && (forall k | 0 <= k <= used :: states[used].bestDistance <= states[k].currentDistance)
    && 0 <= at <= used && states[at].current.contents == states[used].best
  }

  /**
    One more iteration extends the trace, when its best length does not rise
    and stays within its current length, and its best tour is the old one or
    its current one.
   */
  lemma ExtendTrace(ok: Search -> bool, step: (Search, Search, int) -> bool, limit: int, used: nat,
                    states: seq<Search>, moves: seq<int>, at: int, s': Search, move: int, at': int)
    requires Trace(ok, step, limit, used, states, moves, at)
    requires states[used].stagnation < limit && ok(s') && step(states[used], s', move)
    requires s'.bestDistance <= states[used].bestDistance && s'.bestDistance <= s'.currentDistance
    requires at' == if s'.best == states[used].best then at else used + 1
    requires s'.best == states[used].best || s'.best == s'.current.contents
    ensures Trace(ok, step, limit, used + 1, states + [s'], moves + [move], at')
  {
    var states', moves' := states + [s'], moves + [move];
    assert states'[used] == states[used] && states'[used + 1] == s' && moves'[used] == move;
    forall k | 0 <= k <= used + 1
      ensures s'.bestDistance <= states'[k].currentDistance
    {
      if k <= used {
        assert states'[k] == states[k];
      }
    }
  }

  /** One iteration of the loop, extending the trace. */
  method SearchRound(d: Distance, n: nat, tabuListSize: int, eq: Equality, limit: int, used: nat,
                     s: Search, ghost states: seq<Search>, ghost moves: seq<int>, ghost at: int)
    returns (s': Search, ghost states': seq<Search>, ghost moves': seq<int>, ghost at': int)
    requires Trace(Sound(d, n, tabuListSize), Step(d, n, tabuListSize, eq), limit, used, states, moves, at)
    requires s == states[used] && s.stagnation < limit
    ensures Trace(Sound(d, n, tabuListSize), Step(d, n, tabuListSize, eq), limit, used + 1, states', moves', at')
    ensures states' == states + [s'] && moves'[..used] == moves
  {
    assert Sound(d, n, tabuListSize)(s);
    ghost var move;
    s', move := TabuStep(d, s, n, tabuListSize, eq);
    at' := if s'.best == s.best then at else used + 1;
    assert Step(d, n, tabuListSize, eq)(s, s', move);
    ExtendTrace(Sound(d, n, tabuListSize), Step(d, n, tabuListSize, eq), limit, used, states, moves, at, s', move, at');
    states', moves' := states + [s'], moves + [move];
    assert moves'[..used] == moves;
  }

  /** What a finished trace says, in the terms of `SearchOk` and `Stepped`. */
  lemma TraceOutcome(d: Distance, n: nat, tabuListSize: int, eq: Equality, limit: int, used: nat,
                     states: seq<Search>, moves: seq<int>, at: int)
    requires Trace(Sound(d, n, tabuListSize), Step(d, n, tabuListSize, eq), limit, used, states, moves, at)
    ensures forall k | 0 <= k <= used :: SearchOk(d, states[k], n, tabuListSize)
    ensures forall k | 0 <= k < used ::
      states[k].stagnation < limit && Stepped(d, states[k], states[k + 1], moves[k], n, tabuListSize, eq)
    ensures forall k | 0 <= k <= used :: TourLength(d, states[used].best) <= states[k].currentDistance
    ensures exists k | 0 <= k <= used :: states[k].current.contents == states[used].best
  {
    forall k | 0 <= k <= used
      ensures SearchOk(d, states[k], n, tabuListSize)
    {
      assert Sound(d, n, tabuListSize)(states[k]);
    }
    forall k | 0 <= k < used
      ensures Stepped(d, states[k], states[k + 1], moves[k], n, tabuListSize, eq)
    {
      assert Step(d, n, tabuListSize, eq)(states[k], states[k + 1], moves[k]);
    }
  }
}

=== FILE: tabu_sampled.dfy ===
/**
  The sampled-neighbourhood tabu search: in every iteration each position
  i < n - 1 is paired with one random partner j, the non-tabu pairs are
  scored by the length of the tour with segment [i, j] inverted, and the best
  one is applied to the current tour. Moves are remembered as `(i, j)` pairs
  in a bounded set; when the set overflows, an unspecified element leaves it.
 */
module TabuSampled {
  import opened Permutations
  import opened Tours
  import opened Moves
  import opened Shuffle
  import opened Minimum

  /**
    A move `(first, second)`. The source's `equals` compares both components,
    which is exactly the structural equality of this datatype.
   */
  datatype Pair = Pair(first: int, second: int)

  /** Position i with partner j may be tried: a real pair that is not tabu. */
  predicate Admissible(tabu: set<Pair>, i: int, j: int) {
    i != j && Pair(i, j) !in tabu
  }

  /** The length of `tour` with the segment from i to j inverted (no change when j <= i). */
  function MoveLength(d: Distance, tour: seq<int>, i: int, j: int): nat
    requires 0 <= i < |tour| && 0 <= j < |tour|
  {
    TourLength(d, InvertSegment(tour, i, j))
  }

  /** One partner per position 0..n-2, each drawn from [0, n). */
  predicate ValidSampleDraws(draws: seq<int>, n: nat) {
    && n >= 1 && |draws| == n - 1
    && forall i | 0 <= i < |draws| :: 0 <= draws[i] < n
  }

  /** The score of position k: its move length when admissible, Double.MAX_VALUE otherwise. */
  function Candidate(d: Distance, current: seq<int>, tabu: set<Pair>, draws: seq<int>, k: int): Cost
    requires ValidSampleDraws(draws, |current|) && 0 <= k < |draws|
  {
    if Admissible(tabu, k, draws[k]) then Finite(MoveLength(d, current, k, draws[k])) else Infinite
  }

  /** The scores of positions 0..i-1. */
  function Candidates(d: Distance, current: seq<int>, tabu: set<Pair>, draws: seq<int>, i: int): (r: seq<Cost>)
    requires ValidSampleDraws(draws, |current|) && 0 <= i <= |draws|
    ensures |r| == i
  {
    if i == 0 then [] else Candidates(d, current, tabu, draws, i - 1) + [Candidate(d, current, tabu, draws, i - 1)]
  }

  lemma {:induction false} CandidatesAt(d: Distance, current: seq<int>, tabu: set<Pair>, draws: seq<int>, i: int, k: int)
    requires ValidSampleDraws(draws, |current|) && 0 <= k < i <= |draws|
    ensures Candidates(d, current, tabu, draws, i)[k] == Candidate(d, current, tabu, draws, k)
  {
    if k < i - 1 {
      CandidatesAt(d, current, tabu, draws, i - 1, k);
    }
  }

  /** No score is finite exactly when no position has an admissible partner. */
  lemma NoCandidate(d: Distance, current: seq<int>, tabu: set<Pair>, draws: seq<int>)
    requires ValidSampleDraws(draws, |current|)
    ensures AllInfinite(Candidates(d, current, tabu, draws, |draws|))
        <==> forall i | 0 <= i < |draws| :: !Admissible(tabu, i, draws[i])
  {
    forall i | 0 <= i < |draws|
      ensures Candidates(d, current, tabu, draws, |draws|)[i].Infinite? <==> !Admissible(tabu, i, draws[i])
    {
      CandidatesAt(d, current, tabu, draws, |draws|, i);
    }
  }

  /** The running minimum of the scan over the scores seen so far, and the pair it stands for. */
  predicate ScanState(c: seq<Cost>, draws: seq<int>, bestMove: Option<Pair>, bestMoveDistance: Cost, at: int) {
    && RunningMin(c, bestMove.Some?, bestMoveDistance, at)
    && (bestMove.Some? ==> at < |draws| && bestMove.value == Pair(at, draws[at]))
  }

  /** One position of the scan: pair i with its drawn partner and keep it when admissible and strictly better. */
  method ScanPosition(d: Distance, current: seq<int>, tabu: set<Pair>, draws: seq<int>, i: int,
                      bestMove: Option<Pair>, bestMoveDistance: Cost, ghost at: int)
    returns (bestMove': Option<Pair>, bestMoveDistance': Cost, ghost at': int)
    requires ValidSampleDraws(draws, |current|) && 0 <= i < |draws|
    requires ScanState(Candidates(d, current, tabu, draws, i), draws, bestMove, bestMoveDistance, at)
    ensures ScanState(Candidates(d, current, tabu, draws, i + 1), draws, bestMove', bestMoveDistance', at')
  {
    ghost var c := Candidates(d, current, tabu, draws, i);
    ghost var x := Candidate(d, current, tabu, draws, i);
    assert Candidates(d, current, tabu, draws, i + 1) == c + [x];
    bestMove', bestMoveDistance', at' := bestMove, bestMoveDistance, at;
    var j := draws[i];
    var move := Pair(i, j);
    RunningMinStep(c, x, bestMove.Some?, bestMoveDistance, at);
    if i != j && move !in tabu {
      var neighbor := InvertSegment(current, i, j);
      var neighborDistance := TotalDistance(d, neighbor);
      if Finite(neighborDistance).Below(bestMoveDistance) {
        bestMoveDistance', bestMove', at' := Finite(neighborDistance), Some(move), i;
      }
    }
  }

  /**
    The candidate scan of one iteration. The result is `None` exactly when no
    score is finite, that is, no position had an admissible partner;
    otherwise it is the admissible pair of least move length, the earliest
    one on ties, since the scan keeps a pair only when it is strictly better
    than the best so far.
   */
  method SampleMoves(d: Distance, current: seq<int>, tabu: set<Pair>, draws: seq<int>)
    returns (bestMove: Option<Pair>, bestMoveDistance: Cost, ghost at: int)
    requires ValidSampleDraws(draws, |current|)
    ensures bestMove.None? <==> AllInfinite(Candidates(d, current, tabu, draws, |draws|))
    ensures bestMove.Some? ==> var c, i := Candidates(d, current, tabu, draws, |draws|), bestMove.value.first;
      && 0 <= i < |draws| && bestMove.value.second == draws[i]
      && EarliestLeast(c, i) && bestMoveDistance == c[i]
    ensures bestMove.Some? ==> at == bestMove.value.first
  {
    bestMove, bestMoveDistance, at := None, Infinite, 0;
    var i := 0;
    while i < |current| - 1
      invariant 0 <= i <= |draws|
      invariant ScanState(Candidates(d, current, tabu, draws, i), draws, bestMove, bestMoveDistance, at)
    {
      bestMove, bestMoveDistance, at := ScanPosition(d, current, tabu, draws, i, bestMove, bestMoveDistance, at);
      i := i + 1;
    }
  }

  /** The state of the search between iterations. */
  datatype Search = Search(current: seq<int>, currentDistance: nat, best: seq<int>, bestDistance: nat,
                           tabu: set<Pair>, stagnation: int)

  /**
    The tabu set holds at most `tabuListSize` moves (none when that bound is
    negative), both tours are tours of the n cities, the distances are
    their lengths, and the best tour is no longer than the current one.
   */
  predicate SearchOk(d: Distance, s: Search, n: nat, tabuListSize: int) {
    && n >= 1 && IsPermutation(s.current, n) && IsPermutation(s.best, n)
    && s.currentDistance == TourLength(d, s.current)
    && s.bestDistance == TourLength(d, s.best)
    && s.bestDistance <= s.currentDistance
    && |s.tabu| <= (if tabuListSize < 0 then 0 else tabuListSize)
  }

  /**
    Recording a move: it is added to the tabu set and, when the set then
    exceeds its bound, one element of the set (any, possibly the new one) is
    removed, as `iterator().next()` of a hash set does.
   */
  method RecordMove(tabu: set<Pair>, move: Pair, tabuListSize: int) returns (tabu': set<Pair>)
    requires move !in tabu
    requires |tabu| <= (if tabuListSize < 0 then 0 else tabuListSize)
    ensures |tabu'| <= (if tabuListSize < 0 then 0 else tabuListSize)
    ensures tabu' <= tabu + {move}
    ensures |tabu'| == (if |tabu| + 1 > tabuListSize then |tabu| else |tabu| + 1)
  {
    tabu' := tabu + {move};
    if |tabu'| > tabuListSize {
      var evicted :| evicted in tabu';
      tabu' := tabu' - {evicted};
    }
  }

  /**
    One iteration of the search loop, from `s` to `s'` with the draws
    `draws`. Without an admissible pair (`move` is `None`) nothing changes;
    otherwise `move` is the earliest admissible pair of least move length,
    position i with its drawn partner, and it is applied to the current tour
    even when that makes the tour longer. The best tour is replaced only on a
    strict improvement, which also resets the stagnation counter; otherwise
    the counter grows by one. The tabu set gains the move, less at most one
    evicted element, which may be the move itself.
   */
  predicate Stepped(d: Distance, s: Search, s': Search, move: Option<Pair>, tabuListSize: int, draws: seq<int>) {
    && ValidSampleDraws(draws, |s.current|)
    && s'.bestDistance <= s.bestDistance
    && (move.None? <==> forall i | 0 <= i < |draws| :: !Admissible(s.tabu, i, draws[i]))
    && (move.None? ==> s' == s)
    && (move.Some? ==> (
      && 0 <= move.value.first < |draws| && move.value.second == draws[move.value.first]
      && move.value.first != move.value.second && move.value !in s.tabu
      && EarliestLeast(Candidates(d, s.current, s.tabu, draws, |draws|), move.value.first)
      && s'.current == InvertSegment(s.current, move.value.first, move.value.second)
      && s'.tabu <= s.tabu + {move.value}
      && |s'.tabu| == (if |s.tabu| + 1 > tabuListSize then |s.tabu| else |s.tabu| + 1)
      && (if s'.currentDistance < s.bestDistance
          then s'.best == s'.current && s'.bestDistance == s'.currentDistance && s'.stagnation == 0
          else s'.best == s.best && s'.bestDistance == s.bestDistance && s'.stagnation == s.stagnation + 1)))
  }

  /** One iteration of the search loop: see `Stepped`. */
  method TabuStep(d: Distance, s: Search, n: nat, tabuListSize: int, draws: seq<int>)
    returns (s': Search, ghost move: Option<Pair>)
    requires SearchOk(d, s, n, tabuListSize) && ValidSampleDraws(draws, n)
    ensures SearchOk(d, s', n, tabuListSize)
    ensures Stepped(d, s, s', move, tabuListSize, draws)
  {
    var bestMove, bestMoveDistance, at := SampleMoves(d, s.current, s.tabu, draws);
    NoCandidate(d, s.current, s.tabu, draws);
    move := bestMove;
    if bestMove.None? {
      s' := s;
      return;
    }
    CandidatesAt(d, s.current, s.tabu, draws, |draws|, at);
    var m := bestMove.value;
    var current := ApplyMove(s.current, m.first, m.second);
    InvertSegmentPreservesPermutation(s.current, m.first, m.second, n);
    var currentDistance := bestMoveDistance.value;
    var best, bestDistance, stagnation := s.best, s.bestDistance, s.stagnation;
    if currentDistance < bestDistance {
      best, bestDistance, stagnation := current, currentDistance, 0;
    } else {
      stagnation := stagnation + 1;
    }
    var tabu := RecordMove(s.tabu, m, tabuListSize);
    s' := Search(current, currentDistance, best, bestDistance, tabu, stagnation);
  }

  /** The state after shuffling: current and best are the shuffled tour, nothing is tabu. */
  method InitialSearch(d: Distance, n: nat, shuffle: seq<int>) returns (s: Search)
    requires n >= 1 && ValidShuffleDraws(n, shuffle)
    ensures SearchOk(d, s, n, 0)
    ensures s.current == RandomTour(n, shuffle)
    ensures s.best == s.current && s.tabu == {} && s.stagnation == 0
  {
    var current := RandomPermutation(n, shuffle);
    var currentDistance := TotalDistance(d, current);
    s := Search(current, currentDistance, current, currentDistance, {}, 0);
  }

  /**
    `tabuSearch`: iterate while the stagnation counter is below
    `maxIterationsWithoutImprovement`. The source loops without bound, and
    with fewer than two cities, or with every sampled pair tabu, it can spin
    forever; here `rounds` supplies the draws of each iteration and the loop
    also ends when they run out. `stopped` tells which exit was taken.

    `states` are the states the loop passes through, from the shuffled start,
    each step an iteration on that round's draws with the pair in `moves`.
    The returned tour is the last state's best tour: no longer than any tour
    the search stood on, and one of them.
   */
  method TabuSearch(d: Distance, n: nat, tabuListSize: int, maxIterationsWithoutImprovement: int,
                    shuffle: seq<int>, rounds: seq<seq<int>>)
    returns (best: seq<int>, stopped: bool, used: nat, ghost start: seq<int>,
             ghost states: seq<Search>, ghost moves: seq<Option<Pair>>)
    requires n >= 1 && ValidShuffleDraws(n, shuffle)
    requires forall r | 0 <= r < |rounds| :: ValidSampleDraws(rounds[r], n)
    ensures start == RandomTour(n, shuffle) && IsPermutation(best, n)
    ensures used <= |rounds| && (stopped || used == |rounds|)
    ensures |states| == used + 1 && |moves| == used
    ensures states[0] == Search(start, TourLength(d, start), start, TourLength(d, start), {}, 0)
    ensures forall k | 0 <= k <= used :: SearchOk(d, states[k], n, tabuListSize)
    ensures forall k | 0 <= k < used ::
      states[k].stagnation < maxIterationsWithoutImprovement
      && Stepped(d, states[k], states[k + 1], moves[k], tabuListSize, rounds[k])
    ensures best == states[used].best
    ensures stopped <==> states[used].stagnation >= maxIterationsWithoutImprovement
    ensures forall k | 0 <= k <= used :: TourLength(d, best) <= states[k].currentDistance
    ensures exists k | 0 <= k <= used :: states[k].current == best
    ensures maxIterationsWithoutImprovement <= 0 ==> stopped && used == 0 && best == start
  {
    var s := InitialSearch(d, n, shuffle);
    start := s.current;
    used, states, moves := 0, [s], [];
    ghost var at := 0;
    while s.stagnation < maxIterationsWithoutImprovement && used < |rounds|
      invariant Trace(Sound(d, n, tabuListSize), Step(d, tabuListSize), maxIterationsWithoutImprovement, rounds, used, states, moves, at)
      invariant s == states[used]
      invariant states[0] == Search(start, TourLength(d, start), start, TourLength(d, start), {}, 0)
      invariant maxIterationsWithoutImprovement <= 0 ==> used == 0
      decreases |rounds| - used
    {
      s, states, moves, at := SearchRound(d, n, tabuListSize, maxIterationsWithoutImprovement, rounds, used, s, states, moves, at);
      used := used + 1;
    }
    best := s.best;
    stopped := s.stagnation >= maxIterationsWithoutImprovement;
    TraceOutcome(d, n, tabuListSize, maxIterationsWithoutImprovement, rounds, used, states, moves, at);
  }

  /** `SearchOk` as a state condition. */
  function Sound(d: Distance, n: nat, tabuListSize: int): Search -> bool {
    (t: Search) => SearchOk(d, t, n, tabuListSize)
  }

  /** `Stepped` as a step relation. */
  function Step(d: Distance, tabuListSize: int): (Search, Search, Option<Pair>, seq<int>) -> bool {
    (t: Search, t': Search, m: Option<Pair>, r: seq<int>) => Stepped(d, t, t', m, tabuListSize, r)
  }

  /** One iteration of the loop, extending the trace. */
  method SearchRound(d: Distance, n: nat, tabuListSize: int, limit: int, rounds: seq<seq<int>>, used: nat,
                     s: Search, ghost states: seq<Search>, ghost moves: seq<Option<Pair>>, ghost at: int)
    returns (s': Search, ghost states': seq<Search>, ghost moves': seq<Option<Pair>>, ghost at': int)
    requires forall r | 0 <= r < |rounds| :: ValidSampleDraws(rounds[r], n)
    requires Trace(Sound(d, n, tabuListSize), Step(d, tabuListSize), limit, rounds, used, states, moves, at)
    requires used < |rounds| && s == states[used] && s.stagnation < limit
    ensures Trace(Sound(d, n, tabuListSize), Step(d, tabuListSize), limit, rounds, used + 1, states', moves', at')
    ensures states' == states + [s'] && moves'[..used] == moves
  {
    assert Sound(d, n, tabuListSize)(s);
    ghost var move;
    s', move := TabuStep(d, s, n, tabuListSize, rounds[used]);
    at' := if s'.best == s.best then at else used + 1;
    assert Step(d, tabuListSize)(s, s', move, rounds[used]);
    ExtendTrace(Sound(d, n, tabuListSize), Step(d, tabuListSize), limit, rounds, used, states, moves, at, s', move, at');
    states', moves' := states + [s'], moves + [move];
    assert moves'[..used] == moves;
  }

  /** What a finished trace says, in the terms of `SearchOk` and `Stepped`. */
  lemma TraceOutcome(d: Distance, n: nat, tabuListSize: int, limit: int, rounds: seq<seq<int>>, used: nat,
                     states: seq<Search>, moves: seq<Option<Pair>>, at: int)
    requires Trace(Sound(d, n, tabuListSize), Step(d, tabuListSize), limit, rounds, used, states, moves, at)
    ensures forall k | 0 <= k <= used :: SearchOk(d, states[k], n, tabuListSize)
    ensures forall k | 0 <= k < used ::
      states[k].stagnation < limit && Stepped(d, states[k], states[k + 1], moves[k], tabuListSize, rounds[k])
    ensures forall k | 0 <= k <= used :: TourLength(d, states[used].best) <= states[k].currentDistance
    ensures exists k | 0 <= k <= used :: states[k].current == states[used].best
  {
    forall k | 0 <= k <= used
      ensures SearchOk(d, states[k], n, tabuListSize)
    {
      assert Sound(d, n, tabuListSize)(states[k]);
    }
    forall k | 0 <= k < used
      ensures Stepped(d, states[k], states[k + 1], moves[k], tabuListSize, rounds[k])
    {
      assert Step(d, tabuListSize)(states[k], states[k + 1], moves[k], rounds[k]);
    }
  }

  /**
    The first `used` iterations of the loop as the states and moves they
    produced, for a state condition `ok` and a step relation `step`: every
    state meets `ok`, each step is related by `step` and was allowed by the
    loop condition, the last best length is at most every current length,
    and the last best tour is the current tour of state `at`.
   */
  ghost predicate Trace(ok: Search -> bool, step: (Search, Search, Option<Pair>, seq<int>) -> bool, limit: int,
                        rounds: seq<seq<int>>, used: nat, states: seq<Search>, moves: seq<Option<Pair>>, at: int) {
    && used <= |rounds| && |states| == used + 1 && |moves| == used
    && (forall k | 0 <= k <= used :: ok(states[k]))
    && (forall k | 0 <= k < used :: states[k].stagnation < limit && step(states[k], states[k + 1], moves[k], rounds[k]))
    && (forall k | 0 <= k <= used :: states[used].bestDistance <= states[k].currentDistance)
    && 0 <= at <= used && states[at].current == states[used].best
  }

  /**
    One more iteration extends the trace, when its best length does not rise
    and stays within its current length, and its best tour is the old one or
    its current one.
   */
  lemma ExtendTrace(ok: Search -> bool, step: (Search, Search, Option<Pair>, seq<int>) -> bool, limit: int,
                    rounds: seq<seq<int>>, used: nat, states: seq<Search>, moves: seq<Option<Pair>>, at: int,
                    s': Search, move: Option<Pair>, at': int)
    requires Trace(ok, step, limit, rounds, used, states, moves, at) && used < |rounds|
    requires states[used].stagnation < limit && ok(s') && step(states[used], s', move, rounds[used])
    requires s'.bestDistance <= states[used].bestDistance && s'.bestDistance <= s'.currentDistance
    requires at' == if s'.best == states[used].best then at else used + 1
    requires s'.best == states[used].best || s'.best == s'.current
    ensures Trace(ok, step, limit, rounds, used + 1, states + [s'], moves + [move], at')
  {
    var states', moves' := states + [s'], moves + [move];
    assert states'[used] == states[used] && states'[used + 1] == s' && moves'[used] == move;
    forall k | 0 <= k <= used + 1
      ensures s'.bestDistance <= states'[k].currentDistance
    {
      if k <= used {
        assert states'[k] == states[k];
      }
    }
  }
}

=== FILE: tours.dfy ===
/**
  Tour costs. Every optimizer measures a tour as a closed cycle: the edges
  between consecutive entries plus the closing edge from the last entry back to
  the first. The Euclidean metric of the source is replaced by an abstract
  non-negative integer cost between city ids.
 */
module Tours {

  /** Travel cost between two cities; non-negative by its type. */
  type Distance = (int, int) -> nat

  ghost predicate Symmetric(d: Distance) {
    forall a, b :: d(a, b) == d(b, a)
  }

  /**
    A running minimum. `Infinite` stands for the Double.MAX_VALUE that the
    source uses as "no candidate yet": every finite cost lies strictly below it.
   */
  datatype Cost = Finite(value: nat) | Infinite {

    /** Strict comparison, as the source's `<` on doubles. */
    predicate Below(other: Cost) {
      Finite? && (other.Infinite? || value < other.value)
    }

    predicate AtMost(other: Cost) {
      !other.Below(this)
    }
  }

  /** A value that may be missing: `None` stands for the source's `null`. */
  datatype Option<T> = None | Some(value: T)

  /** Sum of the costs of consecutive pairs; no closing edge. */
  function PathWeight(d: Distance, t: seq<int>): nat
  {
    if |t| < 2 then 0 else PathWeight(d, t[..|t| - 1]) + d(t[|t| - 2], t[|t| - 1])
  }

  /** Length of `t` read as a closed cycle. */
  function TourLength(d: Distance, t: seq<int>): nat
    requires |t| > 0
  {
    PathWeight(d, t) + d(t[|t| - 1], t[0])
  }

  /**
    The source's `totalDistance` / `calculateTotalDistance`: accumulate the
    edges `t[i-1] -> t[i]` for i = 1..|t|-1, then add the closing edge. An empty
    tour is rejected by the source with an index error, hence the precondition.
   */
  method TotalDistance(d: Distance, t: seq<int>) returns (total: nat)
    requires |t| > 0
    ensures total == TourLength(d, t)
  {
    total := 0;
    var i := 1;
    while i < |t|
      invariant 1 <= i <= |t|
      invariant total == PathWeight(d, t[..i])
    {
      assert t[..i + 1][..i] == t[..i];
      total := total + d(t[i - 1], t[i]);
      i := i + 1;
    }
    assert t[..|t|] == t;
    total := total + d(t[|t| - 1], t[0]);
  }

  lemma {:induction false} PathWeightAppend(d: Distance, t: seq<int>, x: int)
    requires |t| > 0
    ensures PathWeight(d, t + [x]) == PathWeight(d, t) + d(t[|t| - 1], x)
  {
    assert (t + [x])[..|t|] == t;
  }

  /**
    Appending the first city again turns the open path weight into the closed
    tour length: the lab0 solver sums consecutive pairs only, because its
    traversal already ends with the start city.
   */
  lemma ClosedTourAsPath(d: Distance, t: seq<int>)
    requires |t| > 0
    ensures PathWeight(d, t + [t[0]]) == TourLength(d, t)
  {
    PathWeightAppend(d, t, t[0]);
  }
}
